=== FILE: README.md ===
# Emerald AI Suite core, modelled in Dafny

This project models the decision logic of the Emerald AI Suite. The suite is a multi-tenant
SaaS application for small businesses. Every record belongs to one organization (the tenant).

The model covers these parts:

- **Workflow automation.** An event selects the active workflows of its organization whose
  trigger is the event's name. Each selected workflow runs its actions in order. A failing
  action is skipped. A failing lookup runs nothing.
- **Plan and usage gating.** This covers the plan tables and the two checks that read them.
- **Route handlers.** Each handler is a pure transition from a store, a session and a request
  body to a reply, the new store, and the calls made to the outside world. The handlers are:
  - organization list and creation;
  - invitation;
  - booking list and creation;
  - reading and updating the current organization;
  - member list and removal.
- **Sign-in.** This covers `authorize`, the token callback and the session callback.
- **Email, WhatsApp and AI services** as their callers see them.
- **Navigation and header logic** of the application shell, and the dashboard's activity rows.

## Modelling choices

- **The database is a `Database.Store` value.** It holds sequences of records in storage order,
  and maps keyed by organization id.
  - A query's `where` clause is a `Filter` or a `FindFirst` over a sequence.
  - An `orderBy` is `Base.SortBy`, an insertion sort by an integer key.
  - Query-layer failures the handlers meet become the 500 reply of their `catch` block, with
    the store unchanged from that point on. These failures are a unique or foreign-key
    violation, a missing row for `update` or `delete`, and a value outside an enum.
- **The two database enums are assumed, not read.** The Prisma schema is not part of this model.
  - The `Industry` enum is assumed to hold exactly the seven `INDUSTRIES` values of
    lib/constants.ts:82-90 (`Plans.Industries`). The 201/500 split of
    `Organizations.CreateOrganization` and the 200/500 split of `CurrentOrganization.UpdateCurrent`
    rest on this assumption.
  - scripts/setup-supabase-tables.ts:70 declares the column as plain `TEXT`. A database built by
    that script would accept any industry string.
  - `Role` is taken as OWNER, ADMIN and STAFF (`Database.Role`), the three values prisma/seed.ts:74-104
    uses.
- **Collaborator calls are recorded, not performed.** Email, WhatsApp and Stripe calls are
  `Calls.Call` values kept with their arguments in the reply's trace.
  - `Calls.Delivered` turns an email call into the parameters the email service hands to its
    provider.
- **Inputs that are not deterministic are parameters:**
  - the current time in milliseconds;
  - the calendar year;
  - the configured application URL;
  - ids generated by the database or by Stripe;
  - the bcrypt comparison (`Auth.PasswordCheck`);
  - which collaborator calls throw (`Events.FailureOracle`);
  - whether the workflow lookup fails.
- **JavaScript truthiness of optional strings is `Base.Truthy`.** `x || d` is `Base.OrElse`.
  `x || null` is `Base.NullIfFalsy`.
  - A `where` field that is `undefined` is ignored by the query layer. `Auth.RoleQuery` models
    this.
- **Integers are unbounded.** No quantity in the core comes near 2^53, except the JavaScript date
  range, which `WhatsApp.TimestampMs` bounds explicitly.

### Behaviour of the code worth noting

- **Workflow order.** The workflows matched by one event run one after another, in storage
  order. `Events.FireEvent` states exactly that.
- **Action names.** An action is recognised only by the exact strings `SEND_EMAIL`,
  `SEND_WHATSAPP`, `CREATE_TASK` and `NOTIFY_TEAM`.
- **Malformed action lists.**
  - An `actions` value that is not an array runs nothing at all.
  - A non-string entry whose string conversion succeeds falls into the `default` branch and makes
    no call.
- **Action recipients are fixed.** The email action always goes to the same address, and the
  WhatsApp action always goes to the same phone number. Their text is built from the event type
  and the workflow name, not from the action's configuration.

## Model

| member | source | states |
|---|---|---|
| Events.MatchingWorkflows | lib/events.ts:38-44 | the selected workflows are stored workflows of the event's organization, with the event's name as trigger, and active; every stored workflow meeting the three conditions is selected |
| Events.OtherTenantWorkflowIgnored | lib/events.ts:38-44 | inserting a workflow of another organization anywhere in the store leaves the selection unchanged |
| Events.TenantIsolation | lib/events.ts:38-51 | every step of an event's run belongs to a stored, active workflow of the event's organization whose trigger is the event's name |
| Events.SeededWorkflowNeverMatches | prisma/seed.ts:251-265 | the demo workflow, with trigger `lead_created`, is selected by no event of any type |
| Events.ActionsOf | lib/events.ts:66 | a stored action list that is not an array is treated as empty; an array is used as it is |
| Events.NonArrayActionsRunNothing | lib/events.ts:66 | a workflow whose actions are not an array produces no step |
| Events.EventMessage | lib/events.ts:97 | the email text starts with `Event: ` and the event type, and contains the workflow name |
| Events.ActionCall | lib/events.ts:91-121 | SEND_EMAIL, and only it, makes a notification email call, to the fixed address, with the fixed subject and the event message; SEND_WHATSAPP, and only it, makes a WhatsApp call to the fixed number with the text `Automated message from workflow: ` and the workflow name; every other action makes no call |
| Events.RunAction | lib/events.ts:68-74 | a step records its workflow, its position and the call of its action; only a step that made a call can fail |
| Events.RunActions | lib/events.ts:68-74 | running the first n actions gives exactly n steps |
| Events.RunWorkflow | lib/events.ts:63-75 | a workflow's run has one step per action |
| Events.RunActionsAt | lib/events.ts:68-74 | the k-th step of a workflow's run is the k-th action run at position k, so actions run in list order |
| Events.ExecuteWorkflow | lib/events.ts:63-75 | the loop over the action list produces the workflow's run, with each action's failure caught inside the loop |
| Events.FireEvent | lib/events.ts:33-55 | a failed lookup produces no step and no error; otherwise the result is the runs of the selected workflows concatenated in storage order |
| Events.ExecuteAll | lib/events.ts:49-51 | the loop over the selected workflows awaits each in turn and appends its run, so the result is the runs concatenated in the given order |
| Events.RunAllFrom | lib/events.ts:49-51 | every step of the concatenated runs belongs to one of the given workflows |
| Events.RunAllLength | lib/events.ts:49-51 | an event makes as many steps as the selected workflows have actions in total |
| Events.Attempts | lib/events.ts:68-74 | erasing failure flags keeps the length and every step's workflow, position and call |
| Events.AttemptsAppend | lib/events.ts:49-51 | erasing failure flags distributes over concatenated runs |
| Events.FailuresDoNotStopWorkflow | lib/events.ts:68-74 | whichever actions fail, the same actions of the workflow are attempted, in the same order, with the same calls |
| Events.FailuresDoNotStopEvent | lib/events.ts:36-54 | whichever collaborator calls fail, the same workflows and actions of the event are attempted: no call failure stops a later action or a later workflow |
| Events.FireNewLeadEvent | lib/events.ts:130-139 | fires a NEW_LEAD event for the given organization, with the data passed through unchanged |
| Events.FireNewBookingEvent | lib/events.ts:147-156 | fires a NEW_BOOKING event for the given organization, with the data passed through unchanged |
| Events.FireLeadStageChangedEvent | lib/events.ts:164-173 | fires a LEAD_STAGE_CHANGED event for the given organization, with the data passed through unchanged |
| FeatureGating.SubscriptionOf | lib/services/feature-gating.ts:17-19 | the lookup finds a subscription exactly when the organization has one, and then finds that one |
| FeatureGating.CheckPlanCapability | lib/services/feature-gating.ts:13-27 | false without a subscription or with any status other than ACTIVE; for an ACTIVE one, the truthiness of the plan's table entry for the key |
| FeatureGating.CanAccessFeature | lib/services/feature-gating.ts:53-58 | agrees with the capability check on every input |
| FeatureGating.ActiveCapabilities | lib/services/feature-gating.ts:25-26 | with an ACTIVE subscription, a boolean feature is unlocked exactly when the plan has it, and every limit key is unlocked because no limit is zero |
| FeatureGating.UpgradeKeepsCapabilities | lib/services/feature-gating.ts:21-26 | moving an ACTIVE subscription to a plan of equal or higher rank keeps every capability it unlocked |
| FeatureGating.LimitPlan | lib/services/feature-gating.ts:30-35 | the limits come from the subscription's plan whatever its status, and from STARTER without a subscription |
| FeatureGating.GetUsageLimits | lib/services/feature-gating.ts:29-51 | for every metric, the count of the organization's own records and the limit of the plan that sets limits |
| FeatureGating.CheckUsageLimit | lib/services/feature-gating.ts:60-70 | allowed when the limit is -1; otherwise allowed exactly when the count is below the limit, so a count equal to the limit is refused |
| FeatureGating.UsageLimitByPlan | lib/services/feature-gating.ts:67-69 | AGENCY is never limited; on every other plan, usage at or above the limit is refused |
| FeatureGating.OtherTenantBookingsIgnored | lib/services/feature-gating.ts:40 | a booking of another organization, stored anywhere, does not change the booking count |
| FeatureGating.OwnBookingCounted | lib/services/feature-gating.ts:40 | one more booking of the organization raises its count by exactly one |
| Plans.ParsePlan | app/api/organizations/route.ts:83 | a parsed plan is spelled as the input, and every plan name parses to its plan |
| Plans.ParsePlanName | app/api/organizations/route.ts:83 | spelling a plan and parsing it gives the plan back |
| Plans.PricesIncrease | lib/constants.ts:13-18 | every plan costs strictly more than every lower plan |
| Plans.FlagsMonotone | lib/constants.ts:32-79 | a boolean feature on in a plan is on in every higher plan |
| Plans.FiniteLimitsIncrease | lib/constants.ts:39-66 | for every metric, the limits are positive and grow strictly from STARTER to GROWTH to PREMIUM |
| Plans.OnlyAgencyUnlimited | lib/constants.ts:75-78 | a limit is -1 exactly for AGENCY, on every metric; every other limit is positive |
| Plans.FlagsAcrossPlans | lib/constants.ts:33-74 | white labelling is on exactly for AGENCY; WhatsApp autopilot and the chat widget are on in every plan |
| Plans.EnumerationsDistinct | lib/constants.ts:82-107 | six pairwise distinct lead stages, five pairwise distinct booking statuses and seven pairwise distinct industries |
| Email.HtmlText | lib/services/email-service.ts:110 | the HTML paragraph text has no newline left and is three characters longer per newline of the message |
| Email.OneBreakPerNewline | lib/services/email-service.ts:110 | the number of `<` grows by exactly the number of newlines: one `<br>` per newline |
| Email.NotificationEmail | lib/services/email-service.ts:85-126 | recipient and subject are forwarded, the text part is the message itself, and the HTML contains the converted message and the year |
| Email.SendTransactionalEmail | lib/services/email-service.ts:57-75 | the stubbed provider always reports success, with the given message id |
| Email.EnvText | lib/services/email-service.ts:150 | an unset environment variable is interpolated as `undefined` |
| Email.Welcome | lib/services/email-service.ts:136-137 | the fixed welcome subject, and a message starting with `Hi ` and the name |
| Email.PasswordReset | lib/services/email-service.ts:150-152 | the fixed reset subject, and a message containing the application URL, the reset path and the token |
| Email.TeamInvitation | lib/services/email-service.ts:170-171 | the subject is the invitation prefix and the organization name; the message starts with the inviter's name and contains the registration link |
| Email.WelcomeEmail | lib/services/email-service.ts:135-140 | the email goes to the given address with the welcome subject, and its text starts with `Hi ` and the name |
| Email.PasswordResetEmail | lib/services/email-service.ts:149-155 | the email goes to the given address with the reset subject, and its text contains the reset link built from the application URL and the token |
| Email.TeamInvitationEmail | lib/services/email-service.ts:165-174 | the email goes to the given address with a subject naming the organization, and its text starts with the inviter's name |
| Calls.Delivered | lib/services/email-service.ts:85-174 | only email calls reach the email provider; a notification call delivers its recipient, subject and message; an invitation call delivers the invitation subject and a text that starts with the inviter |
| WhatsApp.SendTemplate | lib/services/whatsapp-service.ts:99-114 | forwards the recipient, the template kind, the template name and the parameters unchanged, with the text `Template: ` and the template name |
| WhatsApp.VerifyWebhookSignature | lib/services/whatsapp-service.ts:156-162 | every signature is accepted |
| WhatsApp.TimestampMs | lib/services/whatsapp-service.ts:139 | a valid timestamp is a whole number of seconds in milliseconds, inside the JavaScript date range |
| WhatsApp.TimestampOfDigits | lib/services/whatsapp-service.ts:139 | a timestamp written as decimal seconds becomes those seconds times 1000 |
| WhatsApp.Receive | lib/services/whatsapp-service.ts:136-140 | a record keeps the sender and the message text, and converts the timestamp |
| WhatsApp.ReceiveAll | lib/services/whatsapp-service.ts:135-141 | one record per message |
| WhatsApp.ReceiveAllAt | lib/services/whatsapp-service.ts:135-141 | the k-th record is the record of the k-th message |
| WhatsApp.ReceiveAllAppend | lib/services/whatsapp-service.ts:132-144 | processing concatenated message lists processes each list in turn |
| WhatsApp.EntriesMessagesAppend | lib/services/whatsapp-service.ts:132 | the flattened messages of concatenated entry lists are the concatenated flattened messages |
| WhatsApp.ChangesMessagesAppend | lib/services/whatsapp-service.ts:133 | the flattened messages of concatenated change lists are the concatenated flattened messages |
| WhatsApp.ChangeWithoutMessages | lib/services/whatsapp-service.ts:134 | a change without a `messages` field contributes nothing, wherever it sits |
| WhatsApp.ProcessWebhook | lib/services/whatsapp-service.ts:122-147 | one record per message, entries in order, changes in order within an entry, messages in order within a change |
| WhatsApp.StepChanges | lib/services/whatsapp-service.ts:133-143 | one more change adds exactly that change's records |
| WhatsApp.ProcessChanges | lib/services/whatsapp-service.ts:133-143 | the loop over an entry's changes produces the records of its messages in order |
| WhatsApp.ProcessMessages | lib/services/whatsapp-service.ts:135-141 | the loop over a change's messages produces one record per message, in order |
| Ai.KindOf | lib/services/ai-service.ts:126 | a content type with a template selects that template; any other type selects the social ad |
| Ai.KindOfName | lib/services/ai-service.ts:104-126 | every template is selected by its own key |
| Ai.Hashtag | lib/services/ai-service.ts:106-107 | the hashtag has no whitespace in either language |
| Ai.TemplateHasProduct | lib/services/ai-service.ts:104-123 | every template has a slot for the product |
| Ai.GetMockContent | lib/services/ai-service.ts:99-127 | the generated text contains the product name |
| Ai.UnknownContentType | lib/services/ai-service.ts:126 | a content type without a template produces exactly the social ad |
| Ai.VariantsDiffer | lib/services/ai-service.ts:104-123 | for every content type, the Arabic and English texts differ |
| Ai.ArabicIffAr | lib/services/ai-service.ts:102 | the Arabic text is produced exactly when the language is `ar`; every other language gives the English text |
| Ai.SocialAdHashtag | lib/services/ai-service.ts:105-107 | a social ad ends with `#` and the product name with whitespace removed (English), or with each whitespace run replaced by `_` (Arabic) |
| Ai.GenerateReply | lib/services/ai-service.ts:61-70 | the suggestion is the same fixed sentence for every conversation |
| Ai.RenderAppend | lib/services/ai-service.ts:104-123 | filling a concatenation of template pieces fills each part |
| Ai.RenderContainsSlot | lib/services/ai-service.ts:104-123 | the text filled into any slot of a template appears in the result |
| Text.ReplaceAll | lib/services/email-service.ts:110 | replacing a character by a string changes the length by the replacement's extra length per occurrence, and leaves none of the character when the replacement has none |
| Text.ReplaceAllAppend | lib/services/email-service.ts:110 | replacement distributes over concatenation |
| Text.Split | components/app/header.tsx:29 | splitting gives one piece more than there are separators, and no piece contains the separator |
| Text.JoinSplit | components/app/header.tsx:29-31 | joining the pieces of a split with the same separator gives the string back |
| Text.FirstSegmentIsSplitHead | components/app/header.tsx:38 | the first piece of a split is the text up to the first separator |
| Text.UpperChar | components/app/header.tsx:32 | upper-casing changes exactly the ASCII lower-case letters and leaves no lower-case letter |
| Text.Upper | components/app/header.tsx:32 | upper-casing keeps the length and maps every character |
| Text.UpperIdempotent | components/app/header.tsx:32 | upper-casing twice is upper-casing once |
| Text.StripSpaces | lib/services/ai-service.ts:107 | exactly the non-whitespace characters are kept, in their order; none of the result is whitespace and it is never longer |
| Text.CollapseSpaces | lib/services/ai-service.ts:106 | replacing whitespace runs by a non-space character leaves no whitespace |
| Text.CollapseThenStrip | lib/services/ai-service.ts:106-107 | deleting the `_` characters from the Arabic hashtag gives the English one |
| Text.CollapseCountsRuns | lib/services/ai-service.ts:106 | the Arabic hashtag holds one `_` per whitespace run of the product name |
| Text.CollapseSpacesShape | lib/services/ai-service.ts:106-107 | the Arabic hashtag is the English one with one `_` per whitespace run of the product name |
| Text.ParseIntDigits | lib/services/whatsapp-service.ts:139 | `parseInt` of a string of digits is the value the digits denote |
| Text.ParseIntDecimal | lib/services/whatsapp-service.ts:139 | `parseInt` reads back a rendered natural number |
| Text.DecimalValue | lib/services/email-service.ts:113 | the rendered year reads back as the year |
| Database.FindMembership | app/api/organizations/invite/route.ts:23-30 | the compound-key lookup finds a membership of that user in that organization, and finds none exactly when no such membership is stored |
| Database.FindUserByEmail | app/api/organizations/invite/route.ts:17-19 | the lookup finds a user with that email, and finds none exactly when no stored user has it |
| Http.Refuse | app/api/organizations/members/route.ts:37-39 | an error reply with the given status that changes nothing and calls nobody |
| Organizations.MembershipsOfUser | app/api/organizations/route.ts:14-15 | exactly the user's stored memberships |
| Organizations.OtherUsersMembershipIgnored | app/api/organizations/route.ts:14-15 | a membership of another user, stored anywhere, does not change a user's memberships |
| Organizations.ListOrganizations | app/api/organizations/route.ts:7-36 | 401 without a user id; 500 when a membership's organization is missing; otherwise one entry per membership of the user, in order, holding the organization, its subscription and the role |
| Organizations.RequestedPlan | app/api/organizations/route.ts:83 | a falsy plan defaults to STARTER; a truthy one must name a plan |
| Organizations.CreateOrganization | app/api/organizations/route.ts:38-103 | 401 without a user id; 400 without a truthy name and industry, before Stripe; otherwise one Stripe call, then 201 exactly when the industry and plan are enum values and the user is stored, else 500 with the store unchanged; on 201 the defaults, the owner membership and the 14-day trial subscription |
| Organizations.CreatorIsSoleOwner | app/api/organizations/route.ts:74-79 | after creation the creator holds the only membership of the new organization, as OWNER |
| Organizations.NewOrganizationHasNoCapability | app/api/organizations/route.ts:84 | a new organization is on trial, so no plan capability is unlocked |
| Organizations.CreatedOrganizationListed | app/api/organizations/route.ts:14-31 | after creation the creator's listing succeeds and ends with the new organization, as owner, with its trial subscription |
| Invite.InviterName | app/api/organizations/invite/route.ts:57 | the session user's name when truthy, otherwise `Team member` |
| Invite.OrganizationName | app/api/organizations/invite/route.ts:50-58 | the stored organization's name when truthy, otherwise `Organization` |
| Invite.InviteMember | app/api/organizations/invite/route.ts:6-69 | 401 without an organization; 500 without an email; 400 for an existing member, with nothing changed or sent; an existing non-member gets exactly one membership with the requested role; an unknown email changes no membership; success sends exactly one invitation and answers `Member added successfully` exactly when the user existed |
| Invite.SecondInviteRefused | app/api/organizations/invite/route.ts:21-37 | inviting the same existing user again is refused with 400 and changes nothing |
| Invite.InviteKeepsOtherOrganizations | app/api/organizations/invite/route.ts:40-46 | no stored membership changes, and any added membership is in the current organization |
| Invite.InvitationDelivered | app/api/organizations/invite/route.ts:55-59 | a successful invitation delivers one email to the invited address, whose subject names the organization and whose text starts with the inviter |
| Bookings.LatestFirst | app/api/bookings/route.ts:14-18 | a permutation of the organization's bookings (each listed exactly as often as it is stored, no others), ordered by start time descending |
| Bookings.ListBookings | app/api/bookings/route.ts:7-25 | 401 without an organization; otherwise a permutation of the organization's bookings, latest start first |
| Bookings.FindCustomer | app/api/bookings/route.ts:50-55 | finds a customer of the organization with that name, and none exactly when no such customer is stored |
| Bookings.CreateBooking | app/api/bookings/route.ts:27-84 | 401 without an organization; 403 at the booking limit with nothing written; the named customer is reused or exactly one is created; the booking is SCHEDULED, for the session's organization and the found or created customer; a missing organization writes nothing; an invalid date fails after the customer was written |
| Bookings.CreatedBookingCounted | app/api/bookings/route.ts:66-77 | a created booking raises the organization's booking count by one and no other organization's |
| Bookings.LimitReachedAfterLastBooking | app/api/bookings/route.ts:34-44 | on a limited plan, after the booking that reaches the limit, the next request is refused with 403 |
| Bookings.CustomerReused | app/api/bookings/route.ts:50-64 | a second booking under the same customer name creates no customer and uses the first booking's customer |
| CurrentOrganization.GetCurrent | app/api/organizations/current/route.ts:5-22 | 401 without an organization; otherwise 200 with the stored organization and its stored subscription (absent exactly when none is stored), or with nothing when the organization is not stored |
| CurrentOrganization.Merge | app/api/organizations/current/route.ts:37-40 | a field is overwritten only by a truthy value |
| CurrentOrganization.Apply | app/api/organizations/current/route.ts:36-42 | name, industry, country and primary language change only for truthy values; the secondary language changes whenever present, to null too; id and onboarding flag are kept |
| CurrentOrganization.UpdateCurrent | app/api/organizations/current/route.ts:24-50 | 401 without an organization; 500 with nothing changed when the organization is missing or a truthy industry is not an enum value; otherwise only that organization changes, and it is returned |
| CurrentOrganization.ApplyFieldwise | app/api/organizations/current/route.ts:37-41 | every field is kept or taken from the body; an empty name keeps the stored name; a null secondary language clears it |
| CurrentOrganization.ApplyIdempotent | app/api/organizations/current/route.ts:34-43 | applying the same update twice is applying it once |
| CurrentOrganization.EmptyPatchKeeps | app/api/organizations/current/route.ts:34-43 | an empty body changes nothing |
| CurrentOrganization.UpdateKeepsOthers | app/api/organizations/current/route.ts:34-35 | other organizations and all subscriptions are untouched, so capabilities are unchanged |
| CurrentOrganization.UpdateThenGet | app/api/organizations/current/route.ts:12-17 | reading after a successful update returns the updated record |
| Members.MembershipsOfOrg | app/api/organizations/members/route.ts:12-13 | exactly the organization's stored memberships |
| Members.ListMembers | app/api/organizations/members/route.ts:5-32 | 401 without an organization; otherwise the organization's memberships as a permutation, ordered by creation time ascending |
| Members.ListedMembersAreTheOrganizations | app/api/organizations/members/route.ts:12-25 | every listed membership is the organization's, and every membership of it is listed |
| Members.Without | app/api/organizations/members/route.ts:48-55 | exactly the memberships other than the addressed one remain |
| Members.RemoveMember | app/api/organizations/members/route.ts:34-62 | 401 without an organization; 400 without a truthy user id; 500 with nothing changed when the user is not a member; otherwise exactly that membership is removed |
| Members.RemovedForGood | app/api/organizations/members/route.ts:48-55 | after a removal the user is no longer a member, and a second removal fails with 500 |
| Members.WithoutKeepsOthers | app/api/organizations/members/route.ts:48-55 | memberships of other users and other organizations survive a removal, in storage order |
| Members.WithoutNothing | app/api/organizations/members/route.ts:48-55 | with nothing addressed, a removal keeps every membership |
| Members.RemoveAppended | app/api/organizations/members/route.ts:48-55 | removing a membership just appended gives the earlier memberships back |
| Members.InviteThenRemove | app/api/organizations/members/route.ts:48-55 | inviting an existing non-member and removing them again restores the memberships |
| Auth.FirstOrgOf | lib/auth.ts:70 | when the user's first membership in storage order has a non-empty organization id, that id; absent when the user has no membership or that id is empty |
| Auth.Authorize | lib/auth.ts:36-72 | absent for a missing email or password; present exactly when a user has the email and the password check accepts; then the user's public fields and first organization |
| Auth.UnknownEmailRejected | lib/auth.ts:41-52 | an email nobody has is rejected, whatever the password check says |
| Auth.Jwt | lib/auth.ts:76-87 | sign-in copies the user's id and organization; an update with a truthy organization switches to it; nothing else changes the token |
| Auth.SwitchOrganization | lib/auth.ts:82-86 | switching organizations moves only the organization claim, and a later read keeps it |
| Auth.SessionCallback | lib/auth.ts:88-106 | with a session user, the token's id and organization are copied in; for a truthy organization the role is that of a membership of (token id, organization), absent exactly when there is none |
| Auth.SignInSession | lib/auth.ts:65-102 | after sign-in, a user with a first organization gets it in the session, with the role of one of their memberships there |
| Sidebar.Section | components/app/sidebar.tsx:23-33 | a section page is `/app/` followed by the section's word |
| Sidebar.IsActive | components/app/sidebar.tsx:51 | active exactly when the path is the page or lies below it after a `/`; an unknown path activates nothing |
| Sidebar.NavigationDistinct | components/app/sidebar.tsx:21-34 | twelve items with pairwise distinct pages |
| Sidebar.SiblingPrefixInactive | components/app/sidebar.tsx:51 | a path sharing only a textual prefix with a page does not activate it |
| Sidebar.CrmxInactive | components/app/sidebar.tsx:27 | `/app/crmx` does not activate CRM |
| Sidebar.DashboardAlwaysActive | components/app/sidebar.tsx:22 | every path below `/app/` activates the Dashboard item |
| Sidebar.TwoItemsActive | components/app/sidebar.tsx:21-34 | on a section's page both that section and the Dashboard are active |
| Sidebar.NoPathNoActive | components/app/sidebar.tsx:51 | a null path activates no item |
| Sidebar.SectionsExclusive | components/app/sidebar.tsx:51 | two different sections are never active together |
| Sidebar.AllSections | components/app/sidebar.tsx:23-33 | every item but the Dashboard is a section page |
| Sidebar.AtMostOneSection | components/app/sidebar.tsx:21-34 | besides the Dashboard, at most one item is active at a time |
| Header.ToggleLanguage | components/app/header.tsx:22 | English becomes Arabic; every other language becomes English |
| Header.Toggle | components/app/header.tsx:21-26 | the direction is right-to-left exactly for Arabic, and `lang` is the new language |
| Header.ToggleTwice | components/app/header.tsx:22 | on English and Arabic a toggle changes the language, and toggling twice gives it back |
| Header.HeadsOfSplit | components/app/header.tsx:28-31 | the first characters of the space-separated pieces are exactly the characters that start a word |
| Header.Initials | components/app/header.tsx:28-32 | the upper-cased word starts of the name; `U` when there is no name or no word; never empty |
| Header.Greeting | components/app/header.tsx:38 | the name up to its first space, or `User` when that is empty or there is no name |
| Dashboard.RowInitials | app/dashboard/dashboard-charts.tsx:21 | the first two characters of the name, or the whole name if it is shorter, upper-cased |
| Dashboard.SourceLabel | app/dashboard/dashboard-charts.tsx:32 | a missing or empty source shows as `Direct`; any other is shown as it is |
| Dashboard.StageBadge | app/dashboard/dashboard-charts.tsx:36-40 | blue exactly for NEW, green exactly for WON, grey otherwise |
| Dashboard.StageBadges | app/dashboard/dashboard-charts.tsx:36-40 | of the six lead stages, only NEW is blue and only WON is green |
| Dashboard.Row | app/dashboard/dashboard-charts.tsx:20-42 | a row keeps the lead's id, name and stage, and shows the initials of the name, the source label and the stage's badge colour |
| Dashboard.RecentActivity | app/dashboard/dashboard-charts.tsx:13-20 | the empty-state message exactly for no leads; otherwise one row per lead, in input order |
| Base.SortBy | app/api/organizations/members/route.ts:24 | sorting gives an ascending permutation of the input |
| Base.FindFirst | lib/auth.ts:94-99 | a match exists exactly when some element passes, and it is the first one that does |

## Left out

- Events.FailuresDoNotStopEvent: an action entry whose string conversion throws (an object such
  as `{"toString": 0}`) is not modelled. Its log line at lib/events.ts:89 throws before the switch.
  The log line of the per-action `catch` at lib/events.ts:72 then throws too, and the outer `catch`
  at lib/events.ts:53 ends the whole event, so later actions and workflows are skipped.
  `ActionItem.NotAName` stands only for entries whose string conversion succeeds.
- **I/O.** Database connectivity failures, request parsing, logging and the artificial delays
  (`setTimeout`) are left out. A failed store write or read appears only where a handler's logic
  depends on it.
- **Concurrency.** The `Promise.all` in `getUsageLimits` is left out. Its four counts are read
  from one store value.
- **Stripe.** Only the customer creation is recorded. A Stripe failure, which would give the
  organization creation a 500 before any write, is not modelled. `lib/stripe.ts` is not part of
  this model.
- **Password hashing.** bcrypt is the `Auth.PasswordCheck` oracle.
- **Generated values.** Generated ids, `Date.now()`, `Math.random()` message ids and the calendar
  year are parameters.
  - The `FreshOrgId` requirement of `Organizations.CreateOrganization` and the `FreshIds`
    requirement of `Bookings.CreateBooking` state that the database generates unused ids.
- **Response details.**
  - The `include` of a booking's customer is left out of the booking listing.
  - The `include` of a member's user is left out of the member listing.
  - Timestamps the database adds (`createdAt`, `updatedAt`) are left out, except a membership's
    creation time, which orders the member listing.
- **Malformed request fields.** The handlers' responses to these inputs are left out:
  - an invitation role that is absent or not a role;
  - a booking body without `customerName` or `service`;
  - any request body that is not JSON;
  - a field of a non-string JSON type. Every body field except the booking times is an optional
    string, so a number or object where the handler expects a string is not modelled.
- **Unicode.** `toUpperCase` is modelled on ASCII letters only. Strings are sequences of
  characters, not UTF-16 code units, so `n[0]` of a name starting with an astral character is
  not modelled.
- **`parseInt` edge cases.** A `0x` prefix is not read as hexadecimal.
- **AI service.** `analyzeIntent` returns a fixed record with a floating-point confidence and has
  no logic. The template lookup by a content type that names an inherited object property, such
  as `constructor`, is not modelled.
- **WhatsApp.** `sendMessage`, `getMessageStatus` and their random ids are left out. A webhook
  message without a `text` field is not modelled.
- **Voice and PDF services** have no decision logic.
- **Other handlers.** The customer, receptionist and settings routes only check the session and
  pass data through. The marketing pages, the page components, the layout and the build
  configuration are rendering only.
- **Language toggle component.** `components/language-toggle.tsx` repeats the rule of
  `Header.ToggleLanguage`.
- **Seed and setup scripts.** Apart from the demo workflow (`Events.SeededWorkflow`), these are
  I/O scripts.
- **Token claims.** Claims other than `id` and `currentOrgId`, and the NextAuth session expiry,
  are left out.
- **`Events.EventMessage`** states only how the email text starts and that it names the workflow,
  not its exact layout.
- **`Email.NotificationEmail`** states that the HTML holds the converted message and the year, not
  the exact surrounding markup.

=== FILE: ai.dfy ===
/**
 * The stubbed AI service: content generation picks one of ten fixed templates
 * (five content types, each in English and Arabic) and fills in the topic, the
 * product and, for social ads, a hashtag made from the product name; reply
 * suggestion returns one fixed sentence.
 */
module Ai {

  import opened Base
  import opened Text

  /** The request for generated content. */
  datatype ContentInput = ContentInput(contentType: string, topic: string, product: string, tone: string, language: string)

  /** The content types that have a template. */
  datatype ContentKind = SocialAd | WhatsappBroadcast | WebsiteCopy | SeoBlog | ProductDescription

  /** The key of a content type in the template table. */
  function KindName(k: ContentKind): string {
    match k
    case SocialAd => "social_ad"
    case WhatsappBroadcast => "whatsapp_broadcast"
    case WebsiteCopy => "website_copy"
    case SeoBlog => "seo_blog"
    case ProductDescription => "product_description"
  }

  /** The template a content type selects; a type with no template falls back to the social ad. */
  function KindOf(contentType: string): (k: ContentKind)
    ensures KindName(k) == contentType || (k == SocialAd && forall j: ContentKind :: KindName(j) != contentType)
  {
    if contentType == "whatsapp_broadcast" then WhatsappBroadcast
    else if contentType == "website_copy" then WebsiteCopy
    else if contentType == "seo_blog" then SeoBlog
    else if contentType == "product_description" then ProductDescription
    else SocialAd
  }

  /** Every content type is selected by its own key. */
  lemma KindOfName(k: ContentKind)
    ensures KindOf(KindName(k)) == k
  {
  }

  // ---------------------------------------------------------------------------
  // templates

  /** A piece of a template: fixed text, or a slot filled from the request. */
  datatype Piece = Literal(s: string) | TopicSlot | ProductSlot | TagSlot

  /** One piece with its slot filled. */
  function Fill(p: Piece, topic: string, product: string, tag: string): string {
    match p
    case Literal(s) => s
    case TopicSlot => topic
    case ProductSlot => product
    case TagSlot => tag
  }

  /** A template with every slot filled, pieces in order. */
  function Render(ps: seq<Piece>, topic: string, product: string, tag: string): (r: string)
    decreases |ps|
  {
    if ps == [] then "" else Fill(ps[0], topic, product, tag) + Render(ps[1..], topic, product, tag)
  }

  /** Rendering a concatenation of templates renders each part. */
  lemma {:induction false} RenderAppend(a: seq<Piece>, b: seq<Piece>, topic: string, product: string, tag: string)
    ensures Render(a + b, topic, product, tag) == Render(a, topic, product, tag) + Render(b, topic, product, tag)
    decreases |a|
  {
    if a == [] {
      assert a + b == b;
    } else {
      assert (a + b)[1..] == a[1..] + b;
      RenderAppend(a[1..], b, topic, product, tag);
    }
  }

  /** The text filled into a slot of a template appears in the rendered text. */
  lemma {:induction false} RenderContainsSlot(ps: seq<Piece>, i: nat, topic: string, product: string, tag: string)
    requires i < |ps|
    ensures Contains(Render(ps, topic, product, tag), Fill(ps[i], topic, product, tag))
    decreases |ps|
  {
    var head := Fill(ps[0], topic, product, tag);
    var rest := Render(ps[1..], topic, product, tag);
    if i == 0 {
      assert head + rest == [] + (head + rest);
      ContainsMiddle([], head, rest);
    } else {
      RenderContainsSlot(ps[1..], i - 1, topic, product, tag);
      ContainsAfterPrefix(head, rest, Fill(ps[i], topic, product, tag));
    }
  }

  const SocialAdArabic: seq<Piece> := [
    Literal("\U{1F31F} "),
    TopicSlot,
    Literal(" \U{1F31F}\n\n\U{0627}\U{0643}\U{062A}\U{0634}\U{0641} "),
    ProductSlot,
    Literal(" \U{0627}\U{0644}\U{0622}\U{0646}!\n\n\U{2728} \U{0639}\U{0631}\U{0636} \U{062E}\U{0627}\U{0635} \U{0644}\U{0641}\U{062A}\U{0631}\U{0629} \U{0645}\U{062D}\U{062F}\U{0648}\U{062F}\U{0629}\n\U{1F48E} \U{062C}\U{0648}\U{062F}\U{0629} \U{0627}\U{0633}\U{062A}\U{062B}\U{0646}\U{0627}\U{0626}\U{064A}\U{0629}\n\U{1F3AF} \U{062E}\U{062F}\U{0645}\U{0629} \U{0645}\U{062A}\U{0645}\U{064A}\U{0632}\U{0629}\n\n\U{0627}\U{062D}\U{062C}\U{0632} \U{0627}\U{0644}\U{0622}\U{0646} \U{0648}\U{0627}\U{0633}\U{062A}\U{0645}\U{062A}\U{0639} \U{0628}\U{062A}\U{062C}\U{0631}\U{0628}\U{0629} \U{0641}\U{0631}\U{064A}\U{062F}\U{0629}!\n\n#\U{0639}\U{0631}\U{0636}_\U{062E}\U{0627}\U{0635} #"),
    TagSlot]

  const SocialAdEnglish: seq<Piece> := [
    Literal("\U{1F31F} "),
    TopicSlot,
    Literal(" \U{1F31F}\n\nDiscover "),
    ProductSlot,
    Literal(" now!\n\n\U{2728} Limited time offer\n\U{1F48E} Exceptional quality\n\U{1F3AF} Outstanding service\n\nBook now and enjoy a unique experience!\n\n#SpecialOffer #"),
    TagSlot]

  const BroadcastArabic: seq<Piece> := [
    Literal("\U{0645}\U{0631}\U{062D}\U{0628}\U{0627}\U{064B}! \U{1F44B}\n\n\U{0646}\U{0648}\U{062F} \U{0623}\U{0646} \U{0646}\U{0634}\U{0627}\U{0631}\U{0643}\U{0643}\U{0645} "),
    TopicSlot,
    Literal(".\n\n"),
    ProductSlot,
    Literal(" \U{0645}\U{062A}\U{0627}\U{062D} \U{0627}\U{0644}\U{0622}\U{0646} \U{0628}\U{0639}\U{0631}\U{0636} \U{062D}\U{0635}\U{0631}\U{064A}!\n\n\U{0644}\U{0644}\U{062D}\U{062C}\U{0632} \U{0623}\U{0648} \U{0627}\U{0644}\U{0627}\U{0633}\U{062A}\U{0641}\U{0633}\U{0627}\U{0631}\U{060C} \U{062A}\U{0648}\U{0627}\U{0635}\U{0644} \U{0645}\U{0639}\U{0646}\U{0627} \U{0645}\U{0628}\U{0627}\U{0634}\U{0631}\U{0629}.\n\n\U{0634}\U{0643}\U{0631}\U{0627}\U{064B} \U{0644}\U{062B}\U{0642}\U{062A}\U{0643}\U{0645}! \U{1F64F}")]

  const BroadcastEnglish: seq<Piece> := [
    Literal("Hello! \U{1F44B}\n\nWe'd like to share "),
    TopicSlot,
    Literal(" with you.\n\n"),
    ProductSlot,
    Literal(" is now available with an exclusive offer!\n\nTo book or inquire, contact us directly.\n\nThank you for your trust! \U{1F64F}")]

  const WebsiteCopyArabic: seq<Piece> := [
    Literal("# "),
    TopicSlot,
    Literal("\n\n## \U{0627}\U{0643}\U{062A}\U{0634}\U{0641} "),
    ProductSlot,
    Literal("\n\n\U{0646}\U{0642}\U{062F}\U{0645} \U{0644}\U{0643} \U{062A}\U{062C}\U{0631}\U{0628}\U{0629} \U{0627}\U{0633}\U{062A}\U{062B}\U{0646}\U{0627}\U{0626}\U{064A}\U{0629} \U{0645}\U{0639} "),
    ProductSlot,
    Literal(". \U{0646}\U{062D}\U{0646} \U{0645}\U{0644}\U{062A}\U{0632}\U{0645}\U{0648}\U{0646} \U{0628}\U{062A}\U{0642}\U{062F}\U{064A}\U{0645} \U{0623}\U{0641}\U{0636}\U{0644} \U{0627}\U{0644}\U{062E}\U{062F}\U{0645}\U{0627}\U{062A} \U{0644}\U{0639}\U{0645}\U{0644}\U{0627}\U{0626}\U{0646}\U{0627}.\n\n### \U{0644}\U{0645}\U{0627}\U{0630}\U{0627} \U{062A}\U{062E}\U{062A}\U{0627}\U{0631}\U{0646}\U{0627}\U{061F}\n\n- \U{062C}\U{0648}\U{062F}\U{0629} \U{0639}\U{0627}\U{0644}\U{064A}\U{0629}\n- \U{062E}\U{062F}\U{0645}\U{0629} \U{0645}\U{062A}\U{0645}\U{064A}\U{0632}\U{0629}\n- \U{0623}\U{0633}\U{0639}\U{0627}\U{0631} \U{062A}\U{0646}\U{0627}\U{0641}\U{0633}\U{064A}\U{0629}\n- \U{0641}\U{0631}\U{064A}\U{0642} \U{0645}\U{062D}\U{062A}\U{0631}\U{0641}\n\n### \U{0627}\U{062D}\U{062C}\U{0632} \U{0627}\U{0644}\U{0622}\U{0646}\n\n\U{062A}\U{0648}\U{0627}\U{0635}\U{0644} \U{0645}\U{0639}\U{0646}\U{0627} \U{0627}\U{0644}\U{064A}\U{0648}\U{0645} \U{0648}\U{0627}\U{0633}\U{062A}\U{0645}\U{062A}\U{0639} \U{0628}\U{062A}\U{062C}\U{0631}\U{0628}\U{0629} \U{0641}\U{0631}\U{064A}\U{062F}\U{0629}!")]

  const WebsiteCopyEnglish: seq<Piece> := [
    Literal("# "),
    TopicSlot,
    Literal("\n\n## Discover "),
    ProductSlot,
    Literal("\n\nWe offer you an exceptional experience with "),
    ProductSlot,
    Literal(". We are committed to providing the best services to our customers.\n\n### Why Choose Us?\n\n- High quality\n- Outstanding service\n- Competitive prices\n- Professional team\n\n### Book Now\n\nContact us today and enjoy a unique experience!")]

  // The title suffix of the blog templates is kept as a piece of its own.
  const SeoBlogArabic: seq<Piece> := [
    Literal("# "),
    TopicSlot,
    Literal(": \U{062F}\U{0644}\U{064A}\U{0644} \U{0634}\U{0627}\U{0645}\U{0644}"),
    Literal("\n\n## \U{0645}\U{0642}\U{062F}\U{0645}\U{0629}\n\U{0641}\U{064A} \U{0647}\U{0630}\U{0627} \U{0627}\U{0644}\U{0645}\U{0642}\U{0627}\U{0644}\U{060C} \U{0633}\U{0646}\U{0633}\U{062A}\U{0643}\U{0634}\U{0641} \U{0643}\U{0644} \U{0645}\U{0627} \U{062A}\U{062D}\U{062A}\U{0627}\U{062C} \U{0645}\U{0639}\U{0631}\U{0641}\U{062A}\U{0647} \U{0639}\U{0646} "),
    ProductSlot,
    Literal(".\n\n## \U{0645}\U{0627} \U{0647}\U{0648} "),
    ProductSlot,
    Literal("\U{061F}\n[\U{0634}\U{0631}\U{062D} \U{062A}\U{0641}\U{0635}\U{064A}\U{0644}\U{064A}]\n\n## \U{0641}\U{0648}\U{0627}\U{0626}\U{062F} "),
    ProductSlot,
    Literal("\n1. \U{0627}\U{0644}\U{0641}\U{0627}\U{0626}\U{062F}\U{0629} \U{0627}\U{0644}\U{0623}\U{0648}\U{0644}\U{0649}\n2. \U{0627}\U{0644}\U{0641}\U{0627}\U{0626}\U{062F}\U{0629} \U{0627}\U{0644}\U{062B}\U{0627}\U{0646}\U{064A}\U{0629}\n3. \U{0627}\U{0644}\U{0641}\U{0627}\U{0626}\U{062F}\U{0629} \U{0627}\U{0644}\U{062B}\U{0627}\U{0644}\U{062B}\U{0629}\n\n## \U{0643}\U{064A}\U{0641}\U{064A}\U{0629} \U{0627}\U{0644}\U{0627}\U{0633}\U{062A}\U{0641}\U{0627}\U{062F}\U{0629} \U{0645}\U{0646} "),
    ProductSlot,
    Literal("\n[\U{062E}\U{0637}\U{0648}\U{0627}\U{062A} \U{0639}\U{0645}\U{0644}\U{064A}\U{0629}]\n\n## \U{0627}\U{0644}\U{062E}\U{0644}\U{0627}\U{0635}\U{0629}\n"),
    ProductSlot,
    Literal(" \U{0647}\U{0648} \U{0627}\U{0644}\U{062D}\U{0644} \U{0627}\U{0644}\U{0623}\U{0645}\U{062B}\U{0644} \U{0644}\U{0627}\U{062D}\U{062A}\U{064A}\U{0627}\U{062C}\U{0627}\U{062A}\U{0643}.")]

  const SeoBlogEnglish: seq<Piece> := [
    Literal("# "),
    TopicSlot,
    Literal(": Complete Guide"),
    Literal("\n\n## Introduction\nIn this article, we'll explore everything you need to know about "),
    ProductSlot,
    Literal(".\n\n## What is "),
    ProductSlot,
    Literal("?\n[Detailed explanation]\n\n## Benefits of "),
    ProductSlot,
    Literal("\n1. First benefit\n2. Second benefit\n3. Third benefit\n\n## How to Use "),
    ProductSlot,
    Literal("\n[Practical steps]\n\n## Conclusion\n"),
    ProductSlot,
    Literal(" is the optimal solution for your needs.")]

  const ProductDescriptionArabic: seq<Piece> := [
    Literal("## "),
    ProductSlot,
    Literal("\n\n### \U{0627}\U{0644}\U{0648}\U{0635}\U{0641}\n"),
    ProductSlot,
    Literal(" \U{0647}\U{0648} \U{0645}\U{0646}\U{062A}\U{062C} \U{0645}\U{062A}\U{0645}\U{064A}\U{0632} \U{064A}\U{062C}\U{0645}\U{0639} \U{0628}\U{064A}\U{0646} \U{0627}\U{0644}\U{062C}\U{0648}\U{062F}\U{0629} \U{0648}\U{0627}\U{0644}\U{0623}\U{062F}\U{0627}\U{0621} \U{0627}\U{0644}\U{0639}\U{0627}\U{0644}\U{064A}.\n\n### \U{0627}\U{0644}\U{0645}\U{0645}\U{064A}\U{0632}\U{0627}\U{062A} \U{0627}\U{0644}\U{0631}\U{0626}\U{064A}\U{0633}\U{064A}\U{0629}:\n- \U{062C}\U{0648}\U{062F}\U{0629} \U{0641}\U{0627}\U{0626}\U{0642}\U{0629}\n- \U{062A}\U{0635}\U{0645}\U{064A}\U{0645} \U{0639}\U{0635}\U{0631}\U{064A}\n- \U{0633}\U{0647}\U{0644} \U{0627}\U{0644}\U{0627}\U{0633}\U{062A}\U{062E}\U{062F}\U{0627}\U{0645}\n- \U{0636}\U{0645}\U{0627}\U{0646} \U{0634}\U{0627}\U{0645}\U{0644}\n\n### \U{0627}\U{0644}\U{0633}\U{0639}\U{0631}: [\U{062D}\U{0633}\U{0628} \U{0627}\U{0644}\U{0637}\U{0644}\U{0628}]\n\n\U{0627}\U{0637}\U{0644}\U{0628} \U{0627}\U{0644}\U{0622}\U{0646} \U{0648}\U{0627}\U{062D}\U{0635}\U{0644} \U{0639}\U{0644}\U{0649} \U{0639}\U{0631}\U{0636} \U{062E}\U{0627}\U{0635}!")]

  const ProductDescriptionEnglish: seq<Piece> := [
    Literal("## "),
    ProductSlot,
    Literal("\n\n### Description\n"),
    ProductSlot,
    Literal(" is a premium product that combines quality and high performance.\n\n### Key Features:\n- Superior quality\n- Modern design\n- Easy to use\n- Comprehensive warranty\n\n### Price: [On request]\n\nOrder now and get a special offer!")]

  /** The template table: one English and one Arabic template per content type. */
  function Template(k: ContentKind, arabic: bool): seq<Piece> {
    match k
    case SocialAd => if arabic then SocialAdArabic else SocialAdEnglish
    case WhatsappBroadcast => if arabic then BroadcastArabic else BroadcastEnglish
    case WebsiteCopy => if arabic then WebsiteCopyArabic else WebsiteCopyEnglish
    case SeoBlog => if arabic then SeoBlogArabic else SeoBlogEnglish
    case ProductDescription => if arabic then ProductDescriptionArabic else ProductDescriptionEnglish
  }

  /**
   * The social-ad hashtag: the product name with whitespace removed (English)
   * or with each whitespace run replaced by one underscore (Arabic).
   */
  function Hashtag(product: string, arabic: bool): (tag: string)
    ensures NoSpace(tag)
  {
    if arabic then CollapseSpaces(product, '_') else StripSpaces(product)
  }

  /** A template of the given language filled from the request. */
  function RenderVariant(input: ContentInput, arabic: bool): string {
    Render(Template(KindOf(input.contentType), arabic), input.topic, input.product, Hashtag(input.product, arabic))
  }

  /** Where the product slot first occurs in each template. */
  function ProductIndex(k: ContentKind): nat {
    match k
    case ProductDescription => 1
    case SeoBlog => 4
    case _ => 3
  }

  /** Every template has a product slot. */
  lemma TemplateHasProduct(k: ContentKind, arabic: bool)
    ensures ProductIndex(k) < |Template(k, arabic)| && Template(k, arabic)[ProductIndex(k)] == ProductSlot
  {
  }

  /** `getMockContent` (and so `generateContent`): the Arabic templates are used for the language `ar`. */
  function GetMockContent(input: ContentInput): (r: string)
    ensures Contains(r, input.product)
  {
    var arabic := input.language == "ar";
    var k := KindOf(input.contentType);
    TemplateHasProduct(k, arabic);
    RenderContainsSlot(Template(k, arabic), ProductIndex(k), input.topic, input.product, Hashtag(input.product, arabic));
    RenderVariant(input, arabic)
  }

  /** A content type without a template produces exactly the social ad. */
  lemma UnknownContentType(input: ContentInput)
    requires forall k: ContentKind :: KindName(k) != input.contentType
    ensures GetMockContent(input) == GetMockContent(input.(contentType := "social_ad"))
  {
    var other := input.(contentType := "social_ad");
    assert KindOf(input.contentType) == KindOf(other.contentType) == SocialAd;
    assert RenderVariant(input, true) == RenderVariant(other, true);
    assert RenderVariant(input, false) == RenderVariant(other, false);
  }

  /** Two strings that differ at the same offset after a common prefix and a common slot differ. */
  lemma DifferAfter(p: string, x: string, a: string, ra: string, b: string, rb: string, n: nat)
    requires n < |a| && n < |b| && a[n] != b[n]
    ensures p + (x + (a + ra)) != p + (x + (b + rb))
  {
    var i := |p| + |x| + n;
    assert (p + (x + (a + ra)))[i] == a[n];
    assert (p + (x + (b + rb)))[i] == b[n];
  }

  /** The first three pieces of a template, rendered. */
  lemma RenderThree(ps: seq<Piece>, topic: string, product: string, tag: string)
    requires |ps| >= 3
    ensures Render(ps, topic, product, tag)
         == Fill(ps[0], topic, product, tag) + (Fill(ps[1], topic, product, tag)
            + (Fill(ps[2], topic, product, tag) + Render(ps[3..], topic, product, tag)))
  {
    assert ps[1..][0] == ps[1] && ps[1..][1..] == ps[2..];
    assert ps[2..][0] == ps[2] && ps[2..][1..] == ps[3..];
    assert Render(ps[2..], topic, product, tag) == Fill(ps[2], topic, product, tag) + Render(ps[3..], topic, product, tag);
    assert Render(ps[1..], topic, product, tag) == Fill(ps[1], topic, product, tag) + Render(ps[2..], topic, product, tag);
  }

  /** A piece other than the tag slot does not depend on the tag. */
  lemma FillWithoutTag(p: Piece, topic: string, product: string, tag: string, tag': string)
    requires !p.TagSlot?
    ensures Fill(p, topic, product, tag) == Fill(p, topic, product, tag')
  {
  }

  /** The two variants of one template, rendered, differ. */
  lemma TemplatesDiffer(ar: seq<Piece>, en: seq<Piece>, topic: string, product: string, tagAr: string, tagEn: string, n: nat)
    requires |ar| >= 3 && |en| >= 3 && ar[0] == en[0] && ar[1] == en[1]
    requires ar[2].Literal? && en[2].Literal? && n < |ar[2].s| && n < |en[2].s| && ar[2].s[n] != en[2].s[n]
    requires !ar[0].TagSlot? && (ar[1].TopicSlot? || ar[1].ProductSlot?)
    ensures Render(ar, topic, product, tagAr) != Render(en, topic, product, tagEn)
  {
    RenderThree(ar, topic, product, tagAr);
    RenderThree(en, topic, product, tagEn);
    FillWithoutTag(ar[0], topic, product, tagAr, tagEn);
    FillWithoutTag(ar[1], topic, product, tagAr, tagEn);
    DifferAfter(Fill(ar[0], topic, product, tagAr), Fill(ar[1], topic, product, tagAr),
      ar[2].s, Render(ar[3..], topic, product, tagAr), en[2].s, Render(en[3..], topic, product, tagEn), n);
  }

  lemma SocialAdDiffers(topic: string, product: string, tagAr: string, tagEn: string)
    ensures Render(SocialAdArabic, topic, product, tagAr) != Render(SocialAdEnglish, topic, product, tagEn)
  {
    TemplatesDiffer(SocialAdArabic, SocialAdEnglish, topic, product, tagAr, tagEn, 4);
  }

  lemma WebsiteCopyDiffers(topic: string, product: string, tagAr: string, tagEn: string)
    ensures Render(WebsiteCopyArabic, topic, product, tagAr) != Render(WebsiteCopyEnglish, topic, product, tagEn)
  {
    TemplatesDiffer(WebsiteCopyArabic, WebsiteCopyEnglish, topic, product, tagAr, tagEn, 5);
  }

  lemma SeoBlogDiffers(topic: string, product: string, tagAr: string, tagEn: string)
    ensures Render(SeoBlogArabic, topic, product, tagAr) != Render(SeoBlogEnglish, topic, product, tagEn)
  {
    TemplatesDiffer(SeoBlogArabic, SeoBlogEnglish, topic, product, tagAr, tagEn, 2);
  }

  lemma ProductDescriptionDiffers(topic: string, product: string, tagAr: string, tagEn: string)
    ensures Render(ProductDescriptionArabic, topic, product, tagAr) != Render(ProductDescriptionEnglish, topic, product, tagEn)
  {
    TemplatesDiffer(ProductDescriptionArabic, ProductDescriptionEnglish, topic, product, tagAr, tagEn, 6);
  }

  lemma BroadcastDiffers(topic: string, product: string, tagAr: string, tagEn: string)
    ensures Render(BroadcastArabic, topic, product, tagAr) != Render(BroadcastEnglish, topic, product, tagEn)
  {
    var a := Render(BroadcastArabic, topic, product, tagAr);
    var e := Render(BroadcastEnglish, topic, product, tagEn);
    assert a[0] == BroadcastArabic[0].s[0];
    assert e[0] == BroadcastEnglish[0].s[0];
  }

  /** For every content type the Arabic and the English texts differ, whatever the request. */
  lemma VariantsDiffer(k: ContentKind, topic: string, product: string)
    ensures Render(Template(k, true), topic, product, Hashtag(product, true))
         != Render(Template(k, false), topic, product, Hashtag(product, false))
  {
    var tagAr := Hashtag(product, true);
    var tagEn := Hashtag(product, false);
    match k
    case SocialAd => SocialAdDiffers(topic, product, tagAr, tagEn);
    case WhatsappBroadcast => BroadcastDiffers(topic, product, tagAr, tagEn);
    case WebsiteCopy => WebsiteCopyDiffers(topic, product, tagAr, tagEn);
    case SeoBlog => SeoBlogDiffers(topic, product, tagAr, tagEn);
    case ProductDescription => ProductDescriptionDiffers(topic, product, tagAr, tagEn);
  }

  /** The Arabic text is produced exactly when the language is `ar`. */
  lemma ArabicIffAr(input: ContentInput)
    ensures GetMockContent(input) == RenderVariant(input, true) <==> input.language == "ar"
    ensures input.language != "ar" ==> GetMockContent(input) == GetMockContent(input.(language := "en"))
  {
    VariantsDiffer(KindOf(input.contentType), input.topic, input.product);
    assert RenderVariant(input, true) != RenderVariant(input, false);
    var english := input.(language := "en");
    assert RenderVariant(input, false) == RenderVariant(english, false);
  }

  /** `s` ends with `t`. */
  predicate EndsWith(s: string, t: string) {
    |t| <= |s| && s[|s| - |t|..] == t
  }

  /** A string ends with whatever is appended last. */
  lemma EndsWithConcat(x: string, y: string)
    ensures EndsWith(x + y, y)
  {
    assert (x + y)[|x|..] == y;
  }

  /** A six-piece template ending in a literal `...#` and the tag slot ends with `#` and the tag. */
  lemma EndsWithTag(ps: seq<Piece>, topic: string, product: string, tag: string)
    requires |ps| == 6 && ps[5] == TagSlot
    requires ps[4].Literal? && ps[4].s != [] && ps[4].s[|ps[4].s| - 1] == '#'
    ensures EndsWith(Render(ps, topic, product, tag), "#" + tag)
  {
    var tail := [ps[4], TagSlot];
    assert ps == ps[..4] + tail;
    RenderAppend(ps[..4], tail, topic, product, tag);
    var l := ps[4].s;
    assert tail[1..] == [TagSlot] && [TagSlot][1..] == [];
    assert Render([TagSlot], topic, product, tag) == tag + "";
    assert Render(tail, topic, product, tag) == l + tag;
    var front := Render(ps[..4], topic, product, tag);
    var l' := l[..|l| - 1];
    assert l == l' + "#";
    ConcatAssoc(l', "#", tag);
    ConcatAssoc(front, l', "#" + tag);
    EndsWithConcat(front + l', "#" + tag);
  }

  /** A social ad ends with `#` and the hashtag made from the product name. */
  lemma SocialAdHashtag(input: ContentInput)
    requires KindOf(input.contentType) == SocialAd
    ensures input.language != "ar" ==> EndsWith(GetMockContent(input), "#" + StripSpaces(input.product))
    ensures input.language == "ar" ==> EndsWith(GetMockContent(input), "#" + CollapseSpaces(input.product, '_'))
  {
    var arabic := input.language == "ar";
    EndsWithTag(Template(SocialAd, arabic), input.topic, input.product, Hashtag(input.product, arabic));
  }

  // ---------------------------------------------------------------------------
  // reply suggestions

  /** One turn of a conversation. */
  datatype Turn = Turn(role: string, content: string)

  const ReplySuggestion: string := "Thank you for your message. I'd be happy to help you with that. Could you please provide more details about your requirements?"

  /** `generateReply`: the suggestion does not depend on the conversation. */
  function GenerateReply(history: seq<Turn>): (r: string)
    ensures r == ReplySuggestion
  {
    ReplySuggestion
  }
}

=== FILE: auth.dfy ===
/**
 * Sign-in with email and password, and the two callbacks that carry the
 * signed-in user and the selected organization from the sign-in through the
 * token into every session. The password hash check is an oracle.
 */
module Auth {

  import opened Base
  import opened Database
  import opened Http

  /** The submitted form; a field the form did not send is absent. */
  datatype Credentials = Credentials(email: Option<string>, password: Option<string>)

  /** What a successful sign-in hands to the token callback. */
  datatype AuthUser = AuthUser(
    id: string,
    email: Option<string>,
    name: Option<string>,
    image: Option<string>,
    currentOrgId: Option<string>)

  /** The hash check: does the password (first) match the stored hash (second)? */
  type PasswordCheck = (string, string) -> bool

  /** The user has a stored hash and the password matches it. */
  predicate PasswordAccepted(u: User, password: string, matches: PasswordCheck) {
    Truthy(u.hashedPassword) && matches(password, u.hashedPassword.value)
  }

  /**
   * `user.memberships[0]?.organizationId || null`: the organization of the
   * user's first membership in storage order; absent without one.
   */
  function FirstOrgOf(s: Store, userId: string): (r: Option<string>)
    ensures r.Some? ==>
      r.value != "" &&
      exists k ::
        0 <= k < |s.memberships| && s.memberships[k].userId == userId && s.memberships[k].organizationId == r.value
        && forall j :: 0 <= j < k ==> s.memberships[j].userId != userId
    ensures (forall k :: 0 <= k < |s.memberships| ==> s.memberships[k].userId != userId) ==> r.None?
    ensures forall k ::
      0 <= k < |s.memberships| && s.memberships[k].userId == userId && s.memberships[k].organizationId != ""
      && (forall j :: 0 <= j < k ==> s.memberships[j].userId != userId)
      ==> r == Some(s.memberships[k].organizationId)
  {
    match FindFirst(s.memberships, (m: Membership) => m.userId == userId)
    case None => None
    case Some(m) => NullIfFalsy(Some(m.organizationId))
  }

  /**
   * `authorize`: absent for a missing email or password, an unknown email, a
   * user without a password hash or a password that does not match; otherwise
   * the user's public fields and first organization.
   */
  function Authorize(s: Store, c: Credentials, matches: PasswordCheck): (r: Option<AuthUser>)
    ensures !Truthy(c.email) || !Truthy(c.password) ==> r.None?
    ensures Truthy(c.email) && Truthy(c.password) ==>
      (r.Some? <==> FindUserByEmail(s, c.email.value).Some?
                    && PasswordAccepted(FindUserByEmail(s, c.email.value).value, c.password.value, matches))
    ensures r.Some? ==>
      exists k ::
        0 <= k < |s.users| && s.users[k].id == r.value.id
        && s.users[k].email == c.email && s.users[k].email == r.value.email
        && s.users[k].name == r.value.name && s.users[k].image == r.value.image
        && PasswordAccepted(s.users[k], c.password.value, matches)
    ensures r.Some? ==> r.value.currentOrgId == FirstOrgOf(s, r.value.id)
  {
    if !Truthy(c.email) || !Truthy(c.password) then None
    else
      match FindUserByEmail(s, c.email.value)
      case None => None
      case Some(u) =>
        if !PasswordAccepted(u, c.password.value, matches) then None
        else Some(AuthUser(u.id, u.email, u.name, u.image, FirstOrgOf(s, u.id)))
  }

  /** A sign-in with an email nobody has fails whatever the password check says. */
  lemma UnknownEmailRejected(s: Store, c: Credentials, matches: PasswordCheck)
    requires c.email.Some?
    requires forall k :: 0 <= k < |s.users| ==> s.users[k].email != c.email
    ensures Authorize(s, c, matches).None?
  {
    if Truthy(c.email) && Truthy(c.password) {
      assert FindUserByEmail(s, c.email.value).None?;
    }
  }

  // ---------------------------------------------------------------------------
  // the token

  /** The claims the application adds to the token. */
  datatype Token = Token(id: Option<string>, currentOrgId: Option<string>)

  /** Why the token callback runs; absent on an ordinary session read. */
  datatype Trigger = SignIn | SignUp | Update

  /**
   * `jwt`: at sign-in the token takes the user's id and organization; an
   * `update` carrying a truthy organization id switches to it; nothing else
   * changes the token. `updateOrgId` is `session?.currentOrgId` of the update.
   */
  function Jwt(token: Token, user: Option<AuthUser>, trigger: Option<Trigger>, updateOrgId: Option<string>): (t: Token)
    ensures user.Some? ==> t.id == Some(user.value.id)
    ensures user.None? ==> t.id == token.id
    ensures trigger == Some(Update) && Truthy(updateOrgId) ==> t.currentOrgId == updateOrgId
    ensures !(trigger == Some(Update) && Truthy(updateOrgId)) && user.Some? ==> t.currentOrgId == user.value.currentOrgId
    ensures !(trigger == Some(Update) && Truthy(updateOrgId)) && user.None? ==> t == token
  {
    var signedIn := if user.Some? then Token(Some(user.value.id), user.value.currentOrgId) else token;
    if trigger == Some(Update) && Truthy(updateOrgId) then signedIn.(currentOrgId := updateOrgId) else signedIn
  }

  /** Switching organizations keeps the user: only the organization claim moves, to the requested one. */
  lemma SwitchOrganization(token: Token, orgId: string)
    requires orgId != ""
    ensures Jwt(token, None, Some(Update), Some(orgId)) == token.(currentOrgId := Some(orgId))
    ensures Jwt(Jwt(token, None, Some(Update), Some(orgId)), None, None, None) == token.(currentOrgId := Some(orgId))
  {
  }

  // ---------------------------------------------------------------------------
  // the session

  /**
   * The `where` clause of the role lookup. An absent user id drops its filter,
   * as the query layer ignores an undefined field.
   */
  predicate RoleQuery(m: Membership, userId: Option<string>, orgId: string) {
    (userId.None? || m.userId == userId.value) && m.organizationId == orgId
  }

  /**
   * `session`: with a user in the session, copies the token's id and
   * organization into it and, when the organization is truthy, the role of
   * the first membership matching (token id, organization), absent without one.
   */
  function SessionCallback(s: Store, session: AppSession, token: Token): (r: AppSession)
    ensures session.user.None? ==> r == session
    ensures session.user.Some? ==> r.user == Some(session.user.value.(id := token.id)) && r.currentOrgId == token.currentOrgId
    ensures session.user.Some? && !Truthy(token.currentOrgId) ==> r.role == session.role
    ensures session.user.Some? && Truthy(token.currentOrgId) ==>
      (r.role.None? <==> forall k :: 0 <= k < |s.memberships| ==> !RoleQuery(s.memberships[k], token.id, token.currentOrgId.value))
    ensures session.user.Some? && Truthy(token.currentOrgId) && r.role.Some? ==>
      exists k :: 0 <= k < |s.memberships| && RoleQuery(s.memberships[k], token.id, token.currentOrgId.value)
        && s.memberships[k].role == r.role.value
  {
    if session.user.None? then session
    else
      var withIds := session.(user := Some(session.user.value.(id := token.id)), currentOrgId := token.currentOrgId);
      if !Truthy(token.currentOrgId) then withIds
      else
        var orgId := token.currentOrgId.value;
        match FindFirst(s.memberships, (m: Membership) => RoleQuery(m, token.id, orgId))
        case None => withIds.(role := None)
        case Some(m) =>
          assert exists k :: 0 <= k < |s.memberships| && s.memberships[k] == m;
          withIds.(role := Some(m.role))
  }

  /**
   * Signing in and reading the session: a user whose first membership names
   * an organization gets that organization and the role of a membership they
   * hold in it.
   */
  lemma SignInSession(s: Store, c: Credentials, matches: PasswordCheck, session: AppSession)
    requires Authorize(s, c, matches).Some?
    requires Authorize(s, c, matches).value.currentOrgId.Some?
    requires session.user.Some?
    ensures var u := Authorize(s, c, matches).value;
      var r := SessionCallback(s, session, Jwt(Token(None, None), Some(u), Some(SignIn), None));
      r.user.value.id == Some(u.id) && r.currentOrgId == u.currentOrgId && r.role.Some?
      && exists k ::
           0 <= k < |s.memberships| && s.memberships[k].userId == u.id
           && s.memberships[k].organizationId == u.currentOrgId.value && s.memberships[k].role == r.role.value
  {
    var u := Authorize(s, c, matches).value;
    var t := Jwt(Token(None, None), Some(u), Some(SignIn), None);
    assert t == Token(Some(u.id), u.currentOrgId);
    var k :| 0 <= k < |s.memberships| && s.memberships[k].userId == u.id
      && s.memberships[k].organizationId == u.currentOrgId.value
      && forall j :: 0 <= j < k ==> s.memberships[j].userId != u.id;
    assert RoleQuery(s.memberships[k], t.id, u.currentOrgId.value);
  }
}

=== FILE: base.dfy ===
/**
 * Small shared vocabulary: optional values, JavaScript truthiness of optional
 * strings, and the sequence combinators the query layer is modelled with
 * (filtering by a `where` clause, counting, ordering by a sort key).
 */
module Base {

  /** A value that may be absent: `null`/`undefined` in the source. */
  datatype Option<T> = None | Some(value: T) {

    /** The value, or `default` when absent. */
    function GetOr(default: T): T {
      match this
      case Some(v) => v
      case None => default
    }
  }

  /** JavaScript truthiness of a string that may be missing: present and non-empty. */
  predicate Truthy(s: Option<string>) {
    s.Some? && s.value != ""
  }

  /** The expression `s || fallback` on a string that may be missing. */
  function OrElse(s: Option<string>, fallback: string): (r: string)
    ensures Truthy(s) ==> r == s.value
    ensures !Truthy(s) ==> r == fallback
  {
    if s.Some? && s.value != "" then s.value else fallback
  }

  /** The expression `s || null`: a falsy string becomes absent. */
  function NullIfFalsy(s: Option<string>): (r: Option<string>)
    ensures r.Some? <==> Truthy(s)
    ensures r.Some? ==> r == s
  {
    if Truthy(s) then s else None
  }

  /** Concatenation is associative. */
  lemma ConcatAssoc<T>(x: seq<T>, y: seq<T>, z: seq<T>)
    ensures (x + y) + z == x + (y + z)
  {
  }

  /** The records of `s` that satisfy `p`, in their original order (a `where` clause). */
  function Filter<T(==)>(s: seq<T>, p: T -> bool): (r: seq<T>)
    ensures |r| <= |s|
    ensures forall i :: 0 <= i < |r| ==> r[i] in s && p(r[i])
    ensures forall i :: 0 <= i < |s| && p(s[i]) ==> s[i] in r
    decreases |s|
  {
    if s == [] then []
    else (if p(s[0]) then [s[0]] else []) + Filter(s[1..], p)
  }

  /** Filtering distributes over concatenation, so it keeps the store order. */
  lemma {:induction false} FilterAppend<T>(a: seq<T>, b: seq<T>, p: T -> bool)
    ensures Filter(a + b, p) == Filter(a, p) + Filter(b, p)
    decreases |a|
  {
    if a == [] {
      assert a + b == b;
    } else {
      assert (a + b)[1..] == a[1..] + b;
      FilterAppend(a[1..], b, p);
    }
  }

  /** A record that fails `p` can be removed from anywhere without changing the filtered result. */
  lemma FilterSkip<T>(a: seq<T>, x: T, b: seq<T>, p: T -> bool)
    requires !p(x)
    ensures Filter(a + [x] + b, p) == Filter(a + b, p)
  {
    FilterAppend(a + [x], b, p);
    FilterAppend(a, [x], p);
    FilterAppend(a, b, p);
    assert Filter([x], p) == [] by {
      assert [x][1..] == [];
    }
  }

  /** The number of records of `s` that satisfy `p` (a `count` query). */
  function Count<T(==)>(s: seq<T>, p: T -> bool): (n: nat)
    ensures n <= |s|
    ensures n == 0 <==> forall i :: 0 <= i < |s| ==> !p(s[i])
    decreases |s|
  {
    if s == [] then 0
    else (if p(s[0]) then 1 else 0) + Count(s[1..], p)
  }

  /** Counting agrees with the length of the filtered sequence. */
  lemma {:induction false} CountIsFilterLength<T>(s: seq<T>, p: T -> bool)
    ensures Count(s, p) == |Filter(s, p)|
    decreases |s|
  {
    if s != [] {
      CountIsFilterLength(s[1..], p);
    }
  }

  /** The first record satisfying `p`, in store order (a `findFirst` query). */
  function FindFirst<T(==)>(s: seq<T>, p: T -> bool): (r: Option<T>)
    ensures r.Some? <==> exists i :: 0 <= i < |s| && p(s[i])
    ensures r.Some? ==> r.value in s && p(r.value)
    ensures r.Some? ==> exists i :: 0 <= i < |s| && s[i] == r.value && forall j :: 0 <= j < i ==> !p(s[j])
    decreases |s|
  {
    if s == [] then None
    else if p(s[0]) then Some(s[0])
    else
      var r := FindFirst(s[1..], p);
      assert r.Some? ==> exists i :: 0 <= i < |s| && s[i] == r.value && forall j :: 0 <= j < i ==> !p(s[j]) by {
        if r.Some? {
          var i :| 0 <= i < |s[1..]| && s[1..][i] == r.value && forall j :: 0 <= j < i ==> !p(s[1..][j]);
          assert s[i + 1] == r.value;
          forall j | 0 <= j < i + 1 ensures !p(s[j]) {
            if j > 0 { assert s[j] == s[1..][j - 1]; }
          }
        }
      }
      r
  }

  /** Appended after elements that all fail the test, a passing element is the first match. */
  lemma {:induction false} FindFirstAppended<T>(a: seq<T>, x: T, p: T -> bool)
    requires forall k :: 0 <= k < |a| ==> !p(a[k])
    requires p(x)
    ensures FindFirst(a + [x], p) == Some(x)
    decreases |a|
  {
    if a == [] {
      assert a + [x] == [x];
    } else {
      assert (a + [x])[0] == a[0];
      assert (a + [x])[1..] == a[1..] + [x];
      FindFirstAppended(a[1..], x, p);
    }
  }

  /** `s` is ordered by ascending `key` (an `orderBy: asc` result). */
  ghost predicate SortedBy<T>(s: seq<T>, key: T -> int) {
    forall i, j :: 0 <= i < j < |s| ==> key(s[i]) <= key(s[j])
  }

  /** Inserts `x` into an ascending sequence, after every element with an equal key. */
  function Insert<T(==)>(x: T, s: seq<T>, key: T -> int): (r: seq<T>)
    requires SortedBy(s, key)
    ensures SortedBy(r, key)
    ensures multiset(r) == multiset(s) + multiset{x}
    ensures |r| == |s| + 1
    decreases |s|
  {
    if s == [] then [x]
    else if key(x) < key(s[0]) then [x] + s
    else
      var rest := Insert(x, s[1..], key);
      assert s == [s[0]] + s[1..];
      KeyBelowAll(s[0], s[1..], x, rest, key);
      [s[0]] + rest
  }

  /**
   * A key no larger than every key of `t` or `x` is no larger than every key of
   * a sequence holding the elements of `t` and `x`.
   */
  lemma KeyBelowAll<T>(y: T, t: seq<T>, x: T, r: seq<T>, key: T -> int)
    requires forall k :: 0 <= k < |t| ==> key(y) <= key(t[k])
    requires key(y) <= key(x)
    requires multiset(r) == multiset(t) + multiset{x}
    ensures forall k :: 0 <= k < |r| ==> key(y) <= key(r[k])
  {
    forall k | 0 <= k < |r| ensures key(y) <= key(r[k]) {
      assert r[k] in multiset(r);
      if r[k] in multiset(t) {
        var m :| 0 <= m < |t| && t[m] == r[k];
      }
    }
  }

  /** Orders `s` by ascending `key`; it is a permutation of `s`. */
  function SortBy<T(==)>(s: seq<T>, key: T -> int): (r: seq<T>)
    ensures SortedBy(r, key)
    ensures multiset(r) == multiset(s)
    ensures |r| == |s|
    decreases |s|
  {
    if s == [] then []
    else
      assert s == [s[0]] + s[1..];
      Insert(s[0], SortBy(s[1..], key), key)
  }

  /** A sorted permutation holds exactly the records of the input. */
  lemma SortByKeepsElements<T>(s: seq<T>, key: T -> int)
    ensures forall i :: 0 <= i < |s| ==> s[i] in SortBy(s, key)
    ensures forall i :: 0 <= i < |SortBy(s, key)| ==> SortBy(s, key)[i] in s
  {
    var r := SortBy(s, key);
    forall i | 0 <= i < |s| ensures s[i] in r {
      assert s[i] in multiset(s);
    }
    forall i | 0 <= i < |r| ensures r[i] in s {
      assert r[i] in multiset(r);
    }
  }
}

=== FILE: bookings.dfy ===
/**
 * The bookings collection route: the current organization's bookings, latest
 * start first, and booking creation behind the plan's booking limit, with the
 * customer found by name or created.
 */
module Bookings {

  import opened Base
  import opened Plans
  import opened Database
  import opened Http
  import opened FeatureGating

  /** The ordering key of the listing: descending start time as an ascending key. */
  function Latest(b: Booking): int {
    -b.startTime
  }

  /** Sorting the organization's bookings by `Latest` keeps exactly them and orders them latest start first. */
  lemma SortedOwnBookings(s: Store, orgId: string, own: seq<Booking>, data: seq<Booking>)
    requires forall k :: 0 <= k < |own| ==> own[k] in s.bookings && own[k].organizationId == orgId
    requires forall k :: 0 <= k < |s.bookings| && s.bookings[k].organizationId == orgId ==> s.bookings[k] in own
    requires data == SortBy(own, Latest)
    ensures forall i, j :: 0 <= i < j < |data| ==> data[i].startTime >= data[j].startTime
    ensures forall k :: 0 <= k < |data| ==> data[k] in s.bookings && data[k].organizationId == orgId
    ensures forall k :: 0 <= k < |s.bookings| && s.bookings[k].organizationId == orgId ==> s.bookings[k] in data
  {
    SortByKeepsElements(own, Latest);
    forall i, j | 0 <= i < j < |data| ensures data[i].startTime >= data[j].startTime {
      assert Latest(data[i]) <= Latest(data[j]);
    }
    forall k | 0 <= k < |data| ensures data[k] in s.bookings && data[k].organizationId == orgId {
      var m :| 0 <= m < |own| && own[m] == data[k];
    }
    forall k | 0 <= k < |s.bookings| && s.bookings[k].organizationId == orgId ensures s.bookings[k] in data {
      var m :| 0 <= m < |own| && own[m] == s.bookings[k];
    }
  }

  /** The organization's bookings and no others, each start time at least the next one's. */
  function LatestFirst(s: Store, orgId: string): (data: seq<Booking>)
    ensures forall i, j :: 0 <= i < j < |data| ==> data[i].startTime >= data[j].startTime
    ensures forall k :: 0 <= k < |data| ==> data[k] in s.bookings && data[k].organizationId == orgId
    ensures forall k :: 0 <= k < |s.bookings| && s.bookings[k].organizationId == orgId ==> s.bookings[k] in data
    ensures |data| == BookingCount(s, orgId)
    ensures multiset(data) == multiset(Filter(s.bookings, (b: Booking) => b.organizationId == orgId))
  {
    var own := Filter(s.bookings, (b: Booking) => b.organizationId == orgId);
    CountIsFilterLength(s.bookings, (b: Booking) => b.organizationId == orgId);
    SortedOwnBookings(s, orgId, own, SortBy(own, Latest));
    SortBy(own, Latest)
  }

  /** GET: 401 without a current organization; otherwise the organization's bookings, latest start first. */
  function ListBookings(s: Store, session: Option<AppSession>): (o: Outcome<seq<Booking>>)
    ensures o.store == s && o.calls == []
    ensures !HasOrg(session) ==> o.reply == Reply(401, ErrorBody(Unauthorized))
    ensures HasOrg(session) ==>
      var orgId := session.value.currentOrgId.value;
      o.reply.status == 200 && o.reply.body.DataBody?
      && var data := o.reply.body.data;
      (forall i, j :: 0 <= i < j < |data| ==> data[i].startTime >= data[j].startTime)
      && (forall k :: 0 <= k < |data| ==> data[k] in s.bookings && data[k].organizationId == orgId)
      && (forall k :: 0 <= k < |s.bookings| && s.bookings[k].organizationId == orgId ==> s.bookings[k] in data)
      && |data| == BookingCount(s, orgId)
      && multiset(data) == multiset(Filter(s.bookings, (b: Booking) => b.organizationId == orgId))
  {
    if !HasOrg(session) then Refuse(s, 401, Unauthorized)
    else Outcome(Reply(200, DataBody(LatestFirst(s, session.value.currentOrgId.value))), s, [])
  }

  // ---------------------------------------------------------------------------
  // creation

  /**
   * The JSON body of a new booking. The times are what `new Date(...)` made
   * of the submitted values, in milliseconds; absent for an invalid date.
   */
  datatype NewBooking = NewBooking(customerName: string, service: string, startTime: Option<int>, endTime: Option<int>, notes: Option<string>)

  const LimitReached: string := "Booking limit reached. Upgrade your plan."
  const Scheduled: string := "SCHEDULED"

  /** The `where` clause of the customer lookup. */
  predicate SameCustomer(c: Customer, orgId: string, name: string) {
    c.organizationId == orgId && c.name == name
  }

  /** `customer.findFirst`: the first customer of the organization with that name. */
  function FindCustomer(s: Store, orgId: string, name: string): (r: Option<Customer>)
    ensures r.Some? ==> r.value in s.customers && SameCustomer(r.value, orgId, name)
    ensures r.None? <==> forall k :: 0 <= k < |s.customers| ==> !SameCustomer(s.customers[k], orgId, name)
  {
    FindFirst(s.customers, (c: Customer) => SameCustomer(c, orgId, name))
  }

  /** The generated ids are fresh. */
  predicate FreshIds(s: Store, customerId: string, bookingId: string) {
    (forall k :: 0 <= k < |s.customers| ==> s.customers[k].id != customerId)
    && (forall k :: 0 <= k < |s.bookings| ==> s.bookings[k].id != bookingId)
  }

  /**
   * POST: 401 without a current organization; 403 when the booking limit is
   * reached, before anything is read or written; then the customer of that
   * name in the organization is reused or created, and the booking is
   * created as SCHEDULED for that customer. An organization that is not
   * stored fails the first insert (500, nothing written); an invalid date
   * fails the booking insert (500) after a new customer was already written.
   * `customerId` and `bookingId` are the generated ids.
   */
  function CreateBooking(s: Store, session: Option<AppSession>, body: NewBooking, customerId: string, bookingId: string)
    : (o: Outcome<Booking>)
    requires FreshIds(s, customerId, bookingId)
    ensures o.calls == []
    ensures !HasOrg(session) ==> o == Refuse(s, 401, Unauthorized)
    ensures HasOrg(session) && !CheckUsageLimit(s, session.value.currentOrgId.value, Bookings) ==> o == Refuse(s, 403, LimitReached)
    ensures HasOrg(session) && CheckUsageLimit(s, session.value.currentOrgId.value, Bookings) ==>
      var orgId := session.value.currentOrgId.value;
      var found := FindCustomer(s, orgId, body.customerName);
      (o.reply.status == 201 <==> orgId in s.organizations && body.startTime.Some? && body.endTime.Some?)
      && (o.reply.status != 201 ==> o.reply == Reply(500, ErrorBody(InternalError)))
      && (orgId !in s.organizations ==> o.store == s)
      && (found.Some? ==> o.store.customers == s.customers)
      && (found.None? && orgId in s.organizations ==>
            o.store.customers == s.customers + [Customer(customerId, orgId, body.customerName)])
      && (o.reply.status == 201 ==>
            o.reply.body.DataBody? &&
            var b := o.reply.body.data;
            b.id == bookingId && b.organizationId == orgId && b.status == Scheduled
            && b.customerId == (if found.Some? then found.value.id else customerId)
            && b.customerName == body.customerName && b.service == body.service
            && b.startTime == body.startTime.value && b.endTime == body.endTime.value && b.notes == body.notes
            && o.store.bookings == s.bookings + [b])
      && (o.reply.status != 201 ==> o.store.bookings == s.bookings)
    ensures o.store == s.(customers := o.store.customers, bookings := o.store.bookings)
  {
    if !HasOrg(session) then Refuse(s, 401, Unauthorized)
    else
      var orgId := session.value.currentOrgId.value;
      if !CheckUsageLimit(s, orgId, Bookings) then Refuse(s, 403, LimitReached)
      else if orgId !in s.organizations then Refuse(s, 500, InternalError)
      else
        var found := FindCustomer(s, orgId, body.customerName);
        var customer := if found.Some? then found.value else Customer(customerId, orgId, body.customerName);
        var s' := if found.Some? then s else s.(customers := s.customers + [customer]);
        if body.startTime.None? || body.endTime.None? then Outcome(Reply(500, ErrorBody(InternalError)), s', [])
        else
          var b := Booking(bookingId, orgId, customer.id, body.customerName, body.service,
                           body.startTime.value, body.endTime.value, Scheduled, body.notes);
          Outcome(Reply(201, DataBody(b)), s'.(bookings := s.bookings + [b]), [])
  }

  /** A created booking raises the organization's booking count by exactly one and no other organization's. */
  lemma CreatedBookingCounted(s: Store, session: Option<AppSession>, body: NewBooking, customerId: string, bookingId: string, other: string)
    requires FreshIds(s, customerId, bookingId)
    requires CreateBooking(s, session, body, customerId, bookingId).reply.status == 201
    ensures var s' := CreateBooking(s, session, body, customerId, bookingId).store;
      BookingCount(s', session.value.currentOrgId.value) == BookingCount(s, session.value.currentOrgId.value) + 1
      && (other != session.value.currentOrgId.value ==> BookingCount(s', other) == BookingCount(s, other))
  {
    var o := CreateBooking(s, session, body, customerId, bookingId);
    var b := o.reply.body.data;
    OwnBookingCounted(s.bookings, b, b.organizationId);
    if other != b.organizationId {
      OtherTenantBookingsIgnored(s.bookings, b, [], other);
      assert s.bookings + [b] + [] == s.bookings + [b];
      assert s.bookings + [] == s.bookings;
    }
  }

  /**
   * The gate holds: on a plan with a booking limit, the booking that reaches
   * the limit is the last one, and the next request is refused with 403.
   */
  lemma LimitReachedAfterLastBooking(s: Store, session: Option<AppSession>, body: NewBooking, customerId: string, bookingId: string,
                                     body': NewBooking, customerId': string, bookingId': string)
    requires FreshIds(s, customerId, bookingId)
    requires HasOrg(session)
    requires MaxFor(Features(LimitPlan(s, session.value.currentOrgId.value)), Bookings) == BookingCount(s, session.value.currentOrgId.value) + 1
    requires CreateBooking(s, session, body, customerId, bookingId).reply.status == 201
    requires FreshIds(CreateBooking(s, session, body, customerId, bookingId).store, customerId', bookingId')
    ensures var s' := CreateBooking(s, session, body, customerId, bookingId).store;
      CreateBooking(s', session, body', customerId', bookingId') == Refuse(s', 403, LimitReached)
  {
    var orgId := session.value.currentOrgId.value;
    var s' := CreateBooking(s, session, body, customerId, bookingId).store;
    CreatedBookingCounted(s, session, body, customerId, bookingId, orgId);
    assert LimitPlan(s', orgId) == LimitPlan(s, orgId);
    assert CountOf(s', orgId, Bookings) == BookingCount(s', orgId);
    OnlyAgencyUnlimited(LimitPlan(s, orgId), Bookings);
  }

  /** After a booking for a new customer name, the next booking under that name reuses the customer. */
  lemma CustomerReused(s: Store, session: Option<AppSession>, body: NewBooking, customerId: string, bookingId: string,
                       body': NewBooking, customerId': string, bookingId': string)
    requires FreshIds(s, customerId, bookingId)
    requires CreateBooking(s, session, body, customerId, bookingId).reply.status == 201
    requires body'.customerName == body.customerName
    requires FreshIds(CreateBooking(s, session, body, customerId, bookingId).store, customerId', bookingId')
    ensures var s' := CreateBooking(s, session, body, customerId, bookingId).store;
      var o' := CreateBooking(s', session, body', customerId', bookingId');
      o'.store.customers == s'.customers
      && (o'.reply.status == 201 ==> o'.reply.body.data.customerId == CreateBooking(s, session, body, customerId, bookingId).reply.body.data.customerId)
  {
    var orgId := session.value.currentOrgId.value;
    var s' := CreateBooking(s, session, body, customerId, bookingId).store;
    var found := FindCustomer(s, orgId, body.customerName);
    if found.None? {
      var c := Customer(customerId, orgId, body.customerName);
      FindFirstAppended(s.customers, c, (x: Customer) => SameCustomer(x, orgId, body.customerName));
      assert FindCustomer(s', orgId, body.customerName) == Some(c);
    } else {
      assert s'.customers == s.customers;
    }
  }
}

=== FILE: calls.dfy ===
/**
 * Calls into the outside world, recorded with their arguments instead of
 * performed: a notification or team-invitation email, a WhatsApp message, a
 * Stripe customer creation. `Delivered` turns a recorded email call into the
 * parameters the email service hands to its provider.
 */
module Calls {

  import opened Base
  import opened Email
  import opened WhatsApp

  datatype Call =
    | NotificationEmailSent(to: string, subject: string, message: string)
    | TeamInvitationSent(to: string, inviterName: string, organizationName: string)
    | WhatsAppSent(whatsApp: WhatsAppMessage)
    | StripeCustomerCreated(email: Option<string>, name: Option<string>, userId: string)

  /**
   * The provider parameters an email call ends in, `None` for the other
   * calls. `appUrl` is the configured application URL and `year` the
   * calendar year at sending time.
   */
  function Delivered(c: Call, appUrl: Option<string>, year: nat): (p: Option<EmailParams>)
    ensures p.Some? <==> c.NotificationEmailSent? || c.TeamInvitationSent?
    ensures c.NotificationEmailSent? ==>
      p.value.to == c.to && p.value.subject == c.subject && p.value.text == Some(c.message)
    ensures c.TeamInvitationSent? ==>
      p.value.to == c.to && p.value.subject == InviteSubjectPrefix + c.organizationName
      && p.value.text.Some? && c.inviterName <= p.value.text.value
  {
    match c
    case NotificationEmailSent(to, subject, message) => Some(NotificationEmail(to, subject, message, year))
    case TeamInvitationSent(to, inviterName, organizationName) =>
      Some(TeamInvitationEmail(to, inviterName, organizationName, appUrl, year))
    case _ => None
  }
}

=== FILE: current.dfy ===
/**
 * The current-organization route: reading the organization the session has
 * selected, and the partial update of its profile fields.
 */
module CurrentOrganization {

  import opened Base
  import opened Plans
  import opened Database
  import opened Http
  import opened FeatureGating

  /** The organization with its subscription. */
  datatype OrgWithSubscription = OrgWithSubscription(organization: Organization, subscription: Option<Subscription>)

  /** GET: 401 without a current organization; otherwise the organization, or `null` when it is not stored. */
  function GetCurrent(s: Store, session: Option<AppSession>): (o: Outcome<Option<OrgWithSubscription>>)
    ensures o.store == s && o.calls == []
    ensures !HasOrg(session) ==> o.reply == Reply(401, ErrorBody(Unauthorized))
    ensures HasOrg(session) ==>
      var orgId := session.value.currentOrgId.value;
      o.reply.status == 200 && o.reply.body.DataBody?
      && (o.reply.body.data.Some? <==> orgId in s.organizations)
      && (o.reply.body.data.Some? ==>
            o.reply.body.data.value.organization == s.organizations[orgId]
            && (o.reply.body.data.value.subscription.Some? <==> orgId in s.subscriptions)
            && (orgId in s.subscriptions ==> o.reply.body.data.value.subscription.value == s.subscriptions[orgId]))
  {
    if !HasOrg(session) then Refuse(s, 401, Unauthorized)
    else
      var orgId := session.value.currentOrgId.value;
      var data := if orgId in s.organizations then Some(OrgWithSubscription(s.organizations[orgId], SubscriptionOf(s, orgId))) else None;
      Outcome(Reply(200, DataBody(data)), s, [])
  }

  /** A JSON field that may be absent, or present with `null` or a string. */
  datatype Field = Absent | Present(value: Option<string>)

  /** The JSON body of an update. */
  datatype OrgPatch = OrgPatch(
    name: Option<string>,
    industry: Option<string>,
    country: Option<string>,
    primaryLanguage: Option<string>,
    secondaryLanguage: Field)

  /** A string field is overwritten only by a truthy value. */
  function Merge(current: string, update: Option<string>): (r: string)
    ensures Truthy(update) ==> r == update.value
    ensures !Truthy(update) ==> r == current
  {
    if Truthy(update) then update.value else current
  }

  /** The update's data object applied to one organization. */
  function Apply(org: Organization, patch: OrgPatch): (r: Organization)
    ensures r.id == org.id && r.onboardingCompleted == org.onboardingCompleted
    ensures r.name == (if Truthy(patch.name) then patch.name.value else org.name)
    ensures r.industry == (if Truthy(patch.industry) then patch.industry.value else org.industry)
    ensures r.country == (if Truthy(patch.country) then patch.country.value else org.country)
    ensures r.primaryLanguage == (if Truthy(patch.primaryLanguage) then patch.primaryLanguage.value else org.primaryLanguage)
    ensures r.secondaryLanguage == (if patch.secondaryLanguage.Present? then patch.secondaryLanguage.value else org.secondaryLanguage)
  {
    org.(name := Merge(org.name, patch.name),
         industry := Merge(org.industry, patch.industry),
         country := Merge(org.country, patch.country),
         primaryLanguage := Merge(org.primaryLanguage, patch.primaryLanguage),
         secondaryLanguage := if patch.secondaryLanguage.Present? then patch.secondaryLanguage.value else org.secondaryLanguage)
  }

  /**
   * PATCH: 401 without a current organization; 500 when the organization is
   * not stored or a truthy industry is not an enum value; otherwise only that
   * organization changes, by `Apply`, and the updated record is returned.
   */
  function UpdateCurrent(s: Store, session: Option<AppSession>, patch: OrgPatch): (o: Outcome<Organization>)
    ensures o.calls == []
    ensures !HasOrg(session) ==> o == Refuse(s, 401, Unauthorized)
    ensures HasOrg(session) ==>
      var orgId := session.value.currentOrgId.value;
      (o.reply.status == 200 <==> orgId in s.organizations && (Truthy(patch.industry) ==> patch.industry.value in Industries))
      && (o.reply.status != 200 ==> o == Refuse(s, 500, InternalError))
      && (o.reply.status == 200 ==>
            o.reply.body == DataBody(Apply(s.organizations[orgId], patch))
            && o.store == s.(organizations := s.organizations[orgId := Apply(s.organizations[orgId], patch)]))
  {
    if !HasOrg(session) then Refuse(s, 401, Unauthorized)
    else
      var orgId := session.value.currentOrgId.value;
      if orgId !in s.organizations || (Truthy(patch.industry) && patch.industry.value !in Industries) then Refuse(s, 500, InternalError)
      else
        var org := Apply(s.organizations[orgId], patch);
        Outcome(Reply(200, DataBody(org)), s.(organizations := s.organizations[orgId := org]), [])
  }

  /** Every field is either kept or set from the body; empty strings and absent fields keep the stored value. */
  lemma ApplyFieldwise(org: Organization, patch: OrgPatch)
    ensures var r := Apply(org, patch);
      (r.name == org.name || Some(r.name) == patch.name)
      && (r.industry == org.industry || Some(r.industry) == patch.industry)
      && (r.country == org.country || Some(r.country) == patch.country)
      && (r.primaryLanguage == org.primaryLanguage || Some(r.primaryLanguage) == patch.primaryLanguage)
      && (patch.name == Some("") ==> r.name == org.name)
      && (patch.secondaryLanguage == Present(None) ==> r.secondaryLanguage.None?)
  {
  }

  /** Applying the same update twice is applying it once. */
  lemma ApplyIdempotent(org: Organization, patch: OrgPatch)
    ensures Apply(Apply(org, patch), patch) == Apply(org, patch)
  {
  }

  /** An empty body changes nothing. */
  lemma EmptyPatchKeeps(org: Organization)
    ensures Apply(org, OrgPatch(None, None, None, None, Absent)) == org
  {
  }

  /** An update touches no other organization and no subscription, so plan capabilities are unchanged. */
  lemma UpdateKeepsOthers(s: Store, session: Option<AppSession>, patch: OrgPatch, other: string, feature: FeatureKey)
    requires HasOrg(session) && other != session.value.currentOrgId.value
    ensures var s' := UpdateCurrent(s, session, patch).store;
      (other in s'.organizations <==> other in s.organizations)
      && (other in s.organizations ==> s'.organizations[other] == s.organizations[other])
      && CheckPlanCapability(s', other, feature) == CheckPlanCapability(s, other, feature)
  {
  }

  /** After a successful update, reading the current organization returns the updated record. */
  lemma UpdateThenGet(s: Store, session: Option<AppSession>, patch: OrgPatch)
    requires HasOrg(session)
    requires UpdateCurrent(s, session, patch).reply.status == 200
    ensures var o := UpdateCurrent(s, session, patch);
      GetCurrent(o.store, session).reply.body == DataBody(Some(OrgWithSubscription(o.reply.body.data, SubscriptionOf(s, session.value.currentOrgId.value))))
  {
  }
}

=== FILE: dashboard.dfy ===
/**
 * The dashboard's recent-activity list: an empty-state message, or one row
 * per lead with its avatar initials, source and stage badge.
 */
module Dashboard {

  import opened Base
  import opened Text
  import opened Database
  import Plans

  /** The colour of a stage badge. */
  datatype Badge = Blue | Green | Grey

  /** One rendered row. */
  datatype LeadRow = LeadRow(id: string, initials: string, name: string, source: string, stage: string, badge: Badge)

  datatype Activity = EmptyState(message: string) | Rows(rows: seq<LeadRow>)

  const NoActivity: string := "No recent activity recorded."
  const DirectSource: string := "Direct"

  /** `name.substring(0, 2).toUpperCase()`: the first two characters, or the whole shorter name, upper-cased. */
  function RowInitials(name: string): (r: string)
    ensures |r| == if |name| < 2 then |name| else 2
    ensures forall k :: 0 <= k < |r| ==> r[k] == UpperChar(name[k])
  {
    Upper(if |name| < 2 then name else name[..2])
  }

  /** `lead.source || "Direct"`. */
  function SourceLabel(source: Option<string>): (r: string)
    ensures r != ""
    ensures source.None? || source == Some("") ==> r == DirectSource
    ensures source.Some? && source.value != "" ==> r == source.value
  {
    OrElse(source, DirectSource)
  }

  /** Blue for a new lead, green for a won one, grey for every other stage. */
  function StageBadge(stage: string): (b: Badge)
    ensures b == Blue <==> stage == "NEW"
    ensures b == Green <==> stage == "WON"
  {
    if stage == "NEW" then Blue else if stage == "WON" then Green else Grey
  }

  /** The row of one lead. */
  function Row(lead: Lead): (r: LeadRow)
    ensures r.id == lead.id && r.name == lead.name && r.stage == lead.stage
    ensures r.initials == RowInitials(lead.name) && r.source == SourceLabel(lead.source) && r.badge == StageBadge(lead.stage)
  {
    LeadRow(lead.id, RowInitials(lead.name), lead.name, SourceLabel(lead.source), lead.stage, StageBadge(lead.stage))
  }

  /** `RecentActivity`: the empty state for no leads, otherwise one row per lead in the given order. */
  function RecentActivity(leads: seq<Lead>): (a: Activity)
    ensures leads == [] <==> a.EmptyState?
    ensures a.EmptyState? ==> a.message == NoActivity
    ensures a.Rows? ==> |a.rows| == |leads| && forall k :: 0 <= k < |leads| ==> a.rows[k] == Row(leads[k])
  {
    if leads == [] then EmptyState(NoActivity)
    else Rows(seq(|leads|, k requires 0 <= k < |leads| => Row(leads[k])))
  }

  /** Of the stored lead stages exactly one gets each coloured badge; the other four are grey. */
  lemma StageBadges()
    ensures forall k :: 0 <= k < |Plans.LeadStages| ==>
      (StageBadge(Plans.LeadStages[k]) == Blue <==> k == 0)
      && (StageBadge(Plans.LeadStages[k]) == Green <==> k == 4)
  {
  }
}

=== FILE: email.dfy ===
/**
 * The email service as seen by its callers: the parameters handed to the
 * provider for a notification (an HTML body built from the plain-text message
 * plus the message itself as the text part), the fixed letters for welcome,
 * password-reset and team-invitation mails, and the stubbed provider result.
 */
module Email {

  import opened Base
  import opened Text

  /** What is handed to the email provider. */
  datatype EmailParams = EmailParams(to: string, subject: string, html: string, text: Option<string>)

  /** What the provider reports back. */
  datatype EmailResult = EmailResult(messageId: string, success: bool)

  /** A subject line and a plain-text message. */
  datatype Letter = Letter(subject: string, message: string)

  const HtmlHead: string := "\n      <!DOCTYPE html>\n      <html>\n        <head>\n          <meta charset=\"utf-8\">\n          <style>\n            body { font-family: Arial, sans-serif; line-height: 1.6; color: #333; }\n            .container { max-width: 600px; margin: 0 auto; padding: 20px; }\n            .header { background: #059669; color: white; padding: 20px; text-align: center; }\n            .content { padding: 20px; background: #f9f9f9; }\n            .footer { text-align: center; padding: 20px; font-size: 12px; color: #666; }\n          </style>\n        </head>\n        <body>\n          <div class=\"container\">\n            <div class=\"header\">\n              <h1>Emerald AI Suite</h1>\n            </div>\n            <div class=\"content\">\n              <p>"

  const HtmlFooterStart: string := "</p>\n            </div>\n            <div class=\"footer\">\n              <p>\U{00A9} "

  const HtmlFooterEnd: string := " Emerald AI Suite. All rights reserved.</p>\n            </div>\n          </div>\n        </body>\n      </html>\n    "

  /** The message as it appears inside the HTML paragraph: each newline becomes `<br>`. */
  function HtmlText(message: string): (h: string)
    ensures '\n' !in h
    ensures |h| == |message| + 3 * Occurrences(message, '\n')
  {
    ReplaceAll(message, '\n', "<br>")
  }

  /** One `<br>` tag is inserted per newline: the `<` count grows by exactly the newline count. */
  lemma {:induction false} OneBreakPerNewline(message: string)
    ensures Occurrences(HtmlText(message), '<') == Occurrences(message, '<') + Occurrences(message, '\n')
    decreases |message|
  {
    if message != [] {
      var c := message[0];
      var head := if c == '\n' then "<br>" else [c];
      assert message == [c] + message[1..];
      ReplaceAllAppend([c], message[1..], '\n', "<br>");
      assert ReplaceAll([c], '\n', "<br>") == head;
      OccurrencesAppend(head, HtmlText(message[1..]), '<');
      OneBreakPerNewline(message[1..]);
    }
  }

  /** `sendNotificationEmail`: the parameters handed to the provider; `year` is the current calendar year. */
  function NotificationEmail(to: string, subject: string, message: string, year: nat): (p: EmailParams)
    ensures p.to == to && p.subject == subject
    ensures p.text == Some(message)
    ensures Contains(p.html, HtmlText(message))
    ensures Contains(p.html, Decimal(year))
  {
    var footer := HtmlFooterStart + (Decimal(year) + HtmlFooterEnd);
    ContainsMiddle(HtmlHead, HtmlText(message), footer);
    ContainsMiddle(HtmlFooterStart, Decimal(year), HtmlFooterEnd);
    ContainsAfterPrefix(HtmlText(message), footer, Decimal(year));
    ContainsAfterPrefix(HtmlHead, HtmlText(message) + footer, Decimal(year));
    EmailParams(to, subject, HtmlHead + (HtmlText(message) + footer), Some(message))
  }

  /** `sendTransactionalEmail` with the provider stubbed: it always reports success. */
  function SendTransactionalEmail(params: EmailParams, messageId: string): (r: EmailResult)
    ensures r.success
    ensures r.messageId == messageId
  {
    EmailResult(messageId, true)
  }

  /** A template interpolation of an environment variable: an unset one prints as `undefined`. */
  function EnvText(v: Option<string>): (t: string)
    ensures v.Some? ==> t == v.value
    ensures v.None? ==> t == "undefined"
  {
    match v
    case Some(s) => s
    case None => "undefined"
  }

  const WelcomeSubject: string := "Welcome to Emerald AI Suite!"
  const WelcomeRest: string := ",\n\nWelcome to Emerald AI Suite! We're excited to have you on board.\n\nGet started by setting up your AI receptionist and exploring our automation features.\n\nIf you have any questions, feel free to reach out to our support team.\n\nBest regards,\nThe Emerald AI Team"

  /** The welcome letter. */
  function Welcome(name: string): (l: Letter)
    ensures l.subject == WelcomeSubject
    ensures "Hi " + name <= l.message
  {
    PrefixOfConcat("Hi " + name, WelcomeRest);
    Letter(WelcomeSubject, "Hi " + name + WelcomeRest)
  }

  /** The reset link: the application URL, then the reset path, then the token. */
  function ResetUrl(appUrl: Option<string>, resetToken: string): string {
    EnvText(appUrl) + "/auth/reset-password/" + resetToken
  }

  const ResetSubject: string := "Reset Your Password"
  const ResetBefore: string := "You requested a password reset.\n\nClick the link below to reset your password:\n\n"
  const ResetAfter: string := "\n\nThis link will expire in 1 hour.\n\nIf you didn't request this, please ignore this email."

  /** The password-reset letter. */
  function PasswordReset(appUrl: Option<string>, resetToken: string): (l: Letter)
    ensures l.subject == ResetSubject
    ensures Contains(l.message, ResetUrl(appUrl, resetToken))
  {
    ContainsMiddle(ResetBefore, ResetUrl(appUrl, resetToken), ResetAfter);
    Letter(ResetSubject, ResetBefore + (ResetUrl(appUrl, resetToken) + ResetAfter))
  }

  const InviteSubjectPrefix: string := "You've been invited to join "
  const InviteJoin: string := " has invited you to join "
  const InviteBeforeLink: string := " on Emerald AI Suite.\n\nClick the link below to accept the invitation and create your account:\n\n"
  const InviteAfterLink: string := "\n\nIf you already have an account, simply log in to access the organization.\n\nBest regards,\nThe Emerald AI Team"

  /** The team-invitation letter. */
  function TeamInvitation(inviterName: string, organizationName: string, appUrl: Option<string>): (l: Letter)
    ensures l.subject == InviteSubjectPrefix + organizationName
    ensures inviterName <= l.message
    ensures Contains(l.message, EnvText(appUrl) + "/auth/register")
  {
    var link := EnvText(appUrl) + "/auth/register";
    var fromLink := link + InviteAfterLink;
    var tail := InviteJoin + (organizationName + (InviteBeforeLink + fromLink));
    ContainsMiddle(InviteBeforeLink, link, InviteAfterLink);
    ContainsAfterPrefix(organizationName, InviteBeforeLink + fromLink, link);
    ContainsAfterPrefix(InviteJoin, organizationName + (InviteBeforeLink + fromLink), link);
    ContainsAfterPrefix(inviterName, tail, link);
    PrefixOfConcat(inviterName, tail);
    Letter(InviteSubjectPrefix + organizationName, inviterName + tail)
  }

  /** `sendWelcomeEmail`: the welcome letter sent as a notification. */
  function WelcomeEmail(to: string, name: string, year: nat): (p: EmailParams)
    ensures p.to == to && p.subject == Welcome(name).subject
    ensures p.text.Some? && "Hi " + name <= p.text.value
  {
    var l := Welcome(name);
    NotificationEmail(to, l.subject, l.message, year)
  }

  /** `sendPasswordResetEmail`: the reset letter sent as a notification. */
  function PasswordResetEmail(to: string, resetToken: string, appUrl: Option<string>, year: nat): (p: EmailParams)
    ensures p.to == to && p.subject == ResetSubject
    ensures p.text.Some? && Contains(p.text.value, ResetUrl(appUrl, resetToken))
  {
    var l := PasswordReset(appUrl, resetToken);
    NotificationEmail(to, l.subject, l.message, year)
  }

  /** `sendTeamInvitation`: the invitation letter sent as a notification. */
  function TeamInvitationEmail(to: string, inviterName: string, organizationName: string, appUrl: Option<string>, year: nat): (p: EmailParams)
    ensures p.to == to && p.subject == InviteSubjectPrefix + organizationName
    ensures p.text.Some? && inviterName <= p.text.value
  {
    var l := TeamInvitation(inviterName, organizationName, appUrl);
    NotificationEmail(to, l.subject, l.message, year)
  }
}

=== FILE: events.dfy ===
/**
 * Workflow automation: an event selects the organization's active workflows
 * whose trigger is the event's name and runs each one's actions in order.
 * A failing action is logged and skipped over; a failing lookup is logged and
 * nothing runs. The run is observed as a trace of steps, one per action.
 */
module Events {

  import opened Base
  import opened Text
  import opened Database
  import opened WhatsApp
  import opened Calls

  datatype EventType = NewLead | NewBooking | NewMessage | LeadStageChanged | BookingConfirmed | BookingCancelled

  /** The spelling of an event type, which is what a workflow's trigger is compared with. */
  function EventName(e: EventType): string {
    match e
    case NewLead => "NEW_LEAD"
    case NewBooking => "NEW_BOOKING"
    case NewMessage => "NEW_MESSAGE"
    case LeadStageChanged => "LEAD_STAGE_CHANGED"
    case BookingConfirmed => "BOOKING_CONFIRMED"
    case BookingCancelled => "BOOKING_CANCELLED"
  }

  /** The event data is passed along untouched and never inspected. */
  type EventData = string

  datatype EventPayload = EventPayload(organizationId: string, eventType: EventType, data: EventData)

  /** The `where` clause of the workflow lookup. */
  predicate Matches(w: Workflow, payload: EventPayload) {
    w.organizationId == payload.organizationId && w.trigger == EventName(payload.eventType) && w.isActive
  }

  /** `workflow.findMany(...)`: the matching workflows in storage order. */
  function MatchingWorkflows(s: Store, payload: EventPayload): (ws: seq<Workflow>)
    ensures forall k :: 0 <= k < |ws| ==> ws[k] in s.workflows && Matches(ws[k], payload)
    ensures forall k :: 0 <= k < |s.workflows| && Matches(s.workflows[k], payload) ==> s.workflows[k] in ws
  {
    Filter(s.workflows, (w: Workflow) => Matches(w, payload))
  }

  /** `Array.isArray(workflow.actions) ? workflow.actions : []`. */
  function ActionsOf(w: Workflow): (items: seq<ActionItem>)
    ensures w.actions.NotAnArray? ==> items == []
    ensures w.actions.ActionArray? ==> items == w.actions.items
  {
    match w.actions
    case ActionArray(items) => items
    case NotAnArray => []
  }

  const NotificationRecipient: string := "customer@example.com"
  const NotificationSubject: string := "Notification from Emerald AI"
  const WhatsAppRecipient: string := "+971501234567"
  const WhatsAppPrefix: string := "Automated message from workflow: "

  const WorkflowLabel: string := "\n\nWorkflow: "

  /** The plain-text message of the SEND_EMAIL action. */
  function EventMessage(e: EventType, workflowName: string): (m: string)
    ensures "Event: " + EventName(e) <= m
    ensures Contains(m, workflowName)
  {
    var head := "Event: " + EventName(e);
    var rest := WorkflowLabel + workflowName;
    PrefixOfConcat(head, rest);
    ContainsSuffix(WorkflowLabel, workflowName);
    ContainsAfterPrefix(head, rest, workflowName);
    head + rest
  }

  /**
   * `executeAction`: the collaborator call an action makes, if any. Only
   * SEND_EMAIL and SEND_WHATSAPP call out; CREATE_TASK, NOTIFY_TEAM, unknown
   * names and non-string entries only log.
   */
  function ActionCall(action: ActionItem, payload: EventPayload, w: Workflow): (c: Option<Call>)
    ensures action == ActionName("SEND_EMAIL") <==> c.Some? && c.value.NotificationEmailSent?
    ensures action == ActionName("SEND_WHATSAPP") <==> c.Some? && c.value.WhatsAppSent?
    ensures c.Some? ==> c.value.NotificationEmailSent? || c.value.WhatsAppSent?
    ensures c.Some? && c.value.NotificationEmailSent? ==>
      c.value.to == NotificationRecipient && c.value.subject == NotificationSubject
      && c.value.message == EventMessage(payload.eventType, w.name)
    ensures c.Some? && c.value.WhatsAppSent? ==>
      c.value.whatsApp.to == WhatsAppRecipient && c.value.whatsApp.message == WhatsAppPrefix + w.name
      && c.value.whatsApp.kind.None?
  {
    match action
    case NotAName => None
    case ActionName(name) =>
      if name == "SEND_EMAIL" then
        Some(NotificationEmailSent(NotificationRecipient, NotificationSubject, EventMessage(payload.eventType, w.name)))
      else if name == "SEND_WHATSAPP" then
        Some(WhatsAppSent(WhatsAppMessage(WhatsAppRecipient, WhatsAppPrefix + w.name, None, None, None)))
      else None
  }

  /**
   * One executed action: the workflow it belongs to, its position in the
   * action list, the call it made and whether that call threw.
   */
  datatype Step = Step(workflow: Workflow, position: nat, call: Option<Call>, failed: bool)

  /**
   * Which collaborator calls throw, by workflow id and action position: the
   * model's stand-in for the mail and messaging providers failing.
   */
  type FailureOracle = (string, nat) -> bool

  /** The step of the action at `position` of `w`. */
  function RunAction(w: Workflow, position: nat, payload: EventPayload, fails: FailureOracle): (st: Step)
    requires position < |ActionsOf(w)|
    ensures st.workflow == w && st.position == position
    ensures st.call == ActionCall(ActionsOf(w)[position], payload, w)
    ensures st.failed ==> st.call.Some?
  {
    var c := ActionCall(ActionsOf(w)[position], payload, w);
    Step(w, position, c, c.Some? && fails(w.id, position))
  }

  /** The steps of the first `n` actions of `w`, in list order. */
  function RunActions(w: Workflow, n: nat, payload: EventPayload, fails: FailureOracle): (steps: seq<Step>)
    requires n <= |ActionsOf(w)|
    ensures |steps| == n
    decreases n
  {
    if n == 0 then [] else RunActions(w, n - 1, payload, fails) + [RunAction(w, n - 1, payload, fails)]
  }

  /** `executeWorkflow`: every action of the list, in order, whatever the earlier ones did. */
  function RunWorkflow(w: Workflow, payload: EventPayload, fails: FailureOracle): (steps: seq<Step>)
    ensures |steps| == |ActionsOf(w)|
  {
    RunActions(w, |ActionsOf(w)|, payload, fails)
  }

  /** The `k`-th step of a workflow's run is the run of its `k`-th action. */
  lemma {:induction false} RunActionsAt(w: Workflow, n: nat, k: nat, payload: EventPayload, fails: FailureOracle)
    requires k < n <= |ActionsOf(w)|
    ensures RunActions(w, n, payload, fails)[k] == RunAction(w, k, payload, fails)
    decreases n
  {
    if k < n - 1 {
      RunActionsAt(w, n - 1, k, payload, fails);
    }
  }

  /** The workflows' runs one after another, in the given order. */
  function RunAll(ws: seq<Workflow>, payload: EventPayload, fails: FailureOracle): seq<Step>
    decreases |ws|
  {
    if ws == [] then [] else RunAll(ws[..|ws| - 1], payload, fails) + RunWorkflow(ws[|ws| - 1], payload, fails)
  }

  /**
   * `fireEvent`: the steps of every matching workflow, workflow after
   * workflow in storage order; nothing when the lookup fails. It never fails
   * its caller: the result is always a trace.
   */
  method FireEvent(s: Store, payload: EventPayload, lookupFails: bool, fails: FailureOracle)
    returns (steps: seq<Step>)
    ensures lookupFails ==> steps == []
    ensures !lookupFails ==> steps == RunAll(MatchingWorkflows(s, payload), payload, fails)
  {
    steps := [];
    if lookupFails {
      return;
    }
    steps := ExecuteAll(MatchingWorkflows(s, payload), payload, fails);
  }

  /** The loop of `fireEvent`: each workflow awaited in turn, its steps appended. */
  method ExecuteAll(ws: seq<Workflow>, payload: EventPayload, fails: FailureOracle) returns (steps: seq<Step>)
    ensures steps == RunAll(ws, payload, fails)
  {
    steps := [];
    var i := 0;
    while i < |ws|
      invariant 0 <= i <= |ws|
      invariant steps == RunAll(ws[..i], payload, fails)
    {
      var more := ExecuteWorkflow(ws[i], payload, fails);
      var done := ws[..i + 1];
      assert done[..i] == ws[..i] && done[i] == ws[i];
      assert RunAll(done, payload, fails) == RunAll(ws[..i], payload, fails) + more;
      steps := steps + more;
      i := i + 1;
    }
    assert ws[..i] == ws;
  }

  /** `executeWorkflow` as a loop over the action list. */
  method ExecuteWorkflow(w: Workflow, payload: EventPayload, fails: FailureOracle) returns (steps: seq<Step>)
    ensures steps == RunWorkflow(w, payload, fails)
  {
    var actions := ActionsOf(w);
    steps := [];
    var k := 0;
    while k < |actions|
      invariant 0 <= k <= |actions|
      invariant steps == RunActions(w, k, payload, fails)
    {
      // the action's failure is caught here and the loop goes on
      steps := steps + [RunAction(w, k, payload, fails)];
      k := k + 1;
    }
  }

  // ---------------------------------------------------------------------------
  // properties of a run

  /** Every step of a run belongs to one of the given workflows. */
  lemma {:induction false} RunAllFrom(ws: seq<Workflow>, payload: EventPayload, fails: FailureOracle, j: nat)
    requires j < |RunAll(ws, payload, fails)|
    ensures RunAll(ws, payload, fails)[j].workflow in ws
    decreases |ws|
  {
    var front := RunAll(ws[..|ws| - 1], payload, fails);
    var last := ws[|ws| - 1];
    if j < |front| {
      RunAllFrom(ws[..|ws| - 1], payload, fails, j);
      assert RunAll(ws, payload, fails)[j] == front[j];
    } else {
      var k := j - |front|;
      RunActionsAt(last, |ActionsOf(last)|, k, payload, fails);
    }
  }

  /** No workflow of another organization, of another trigger or inactive ever runs. */
  lemma TenantIsolation(s: Store, payload: EventPayload, fails: FailureOracle, j: nat)
    requires j < |RunAll(MatchingWorkflows(s, payload), payload, fails)|
    ensures var w := RunAll(MatchingWorkflows(s, payload), payload, fails)[j].workflow;
      w in s.workflows && w.organizationId == payload.organizationId
      && w.trigger == EventName(payload.eventType) && w.isActive
  {
    var ws := MatchingWorkflows(s, payload);
    RunAllFrom(ws, payload, fails, j);
  }

  /** Adding a workflow of another organization, anywhere in the store, does not change what an event runs. */
  lemma OtherTenantWorkflowIgnored(s: Store, a: seq<Workflow>, w: Workflow, b: seq<Workflow>, payload: EventPayload)
    requires w.organizationId != payload.organizationId
    ensures MatchingWorkflows(s.(workflows := a + [w] + b), payload) == MatchingWorkflows(s.(workflows := a + b), payload)
  {
    FilterSkip(a, w, b, (x: Workflow) => Matches(x, payload));
  }

  /** A run's steps with the failure flags erased: the calls and where they come from. */
  function Attempts(steps: seq<Step>): (r: seq<Step>)
    ensures |r| == |steps|
    ensures forall k :: 0 <= k < |steps| ==> r[k] == steps[k].(failed := false)
  {
    seq(|steps|, k requires 0 <= k < |steps| => steps[k].(failed := false))
  }

  /** Which actions fail changes only the failure flags of a workflow's run: every later action still runs. */
  lemma FailuresDoNotStopWorkflow(w: Workflow, payload: EventPayload, fails: FailureOracle, fails': FailureOracle)
    ensures Attempts(RunWorkflow(w, payload, fails)) == Attempts(RunWorkflow(w, payload, fails'))
  {
    var n := |ActionsOf(w)|;
    forall k | 0 <= k < n
      ensures RunWorkflow(w, payload, fails)[k].(failed := false) == RunWorkflow(w, payload, fails')[k].(failed := false)
    {
      RunActionsAt(w, n, k, payload, fails);
      RunActionsAt(w, n, k, payload, fails');
    }
  }

  /** Attempts distribute over concatenation. */
  lemma AttemptsAppend(a: seq<Step>, b: seq<Step>)
    ensures Attempts(a + b) == Attempts(a) + Attempts(b)
  {
  }

  /** Which actions fail changes only the failure flags of an event's run: no failure stops a later workflow. */
  lemma {:induction false} FailuresDoNotStopEvent(ws: seq<Workflow>, payload: EventPayload, fails: FailureOracle, fails': FailureOracle)
    ensures Attempts(RunAll(ws, payload, fails)) == Attempts(RunAll(ws, payload, fails'))
    decreases |ws|
  {
    if ws != [] {
      var front := ws[..|ws| - 1];
      var last := ws[|ws| - 1];
      FailuresDoNotStopEvent(front, payload, fails, fails');
      FailuresDoNotStopWorkflow(last, payload, fails, fails');
      AttemptsAppend(RunAll(front, payload, fails), RunWorkflow(last, payload, fails));
      AttemptsAppend(RunAll(front, payload, fails'), RunWorkflow(last, payload, fails'));
    }
  }

  /** A workflow whose stored actions are not an array runs no action. */
  lemma NonArrayActionsRunNothing(w: Workflow, payload: EventPayload, fails: FailureOracle)
    requires w.actions.NotAnArray?
    ensures RunWorkflow(w, payload, fails) == []
  {
  }

  /** The number of steps of an event is the total length of the matching workflows' action lists. */
  function ActionTotal(ws: seq<Workflow>): nat
    decreases |ws|
  {
    if ws == [] then 0 else ActionTotal(ws[..|ws| - 1]) + |ActionsOf(ws[|ws| - 1])|
  }

  lemma {:induction false} RunAllLength(ws: seq<Workflow>, payload: EventPayload, fails: FailureOracle)
    ensures |RunAll(ws, payload, fails)| == ActionTotal(ws)
    decreases |ws|
  {
    if ws != [] {
      RunAllLength(ws[..|ws| - 1], payload, fails);
    }
  }

  // ---------------------------------------------------------------------------
  // the fire* helpers

  /** `fireNewLeadEvent`. */
  method FireNewLeadEvent(s: Store, organizationId: string, data: EventData, lookupFails: bool, fails: FailureOracle)
    returns (steps: seq<Step>)
    ensures lookupFails ==> steps == []
    ensures !lookupFails ==> steps == RunAll(MatchingWorkflows(s, EventPayload(organizationId, NewLead, data)), EventPayload(organizationId, NewLead, data), fails)
  {
    steps := FireEvent(s, EventPayload(organizationId, NewLead, data), lookupFails, fails);
  }

  /** `fireNewBookingEvent`. */
  method FireNewBookingEvent(s: Store, organizationId: string, data: EventData, lookupFails: bool, fails: FailureOracle)
    returns (steps: seq<Step>)
    ensures lookupFails ==> steps == []
    ensures !lookupFails ==> steps == RunAll(MatchingWorkflows(s, EventPayload(organizationId, NewBooking, data)), EventPayload(organizationId, NewBooking, data), fails)
  {
    steps := FireEvent(s, EventPayload(organizationId, NewBooking, data), lookupFails, fails);
  }

  /** `fireLeadStageChangedEvent`. */
  method FireLeadStageChangedEvent(s: Store, organizationId: string, data: EventData, lookupFails: bool, fails: FailureOracle)
    returns (steps: seq<Step>)
    ensures lookupFails ==> steps == []
    ensures !lookupFails ==> steps == RunAll(MatchingWorkflows(s, EventPayload(organizationId, LeadStageChanged, data)), EventPayload(organizationId, LeadStageChanged, data), fails)
  {
    steps := FireEvent(s, EventPayload(organizationId, LeadStageChanged, data), lookupFails, fails);
  }

  // ---------------------------------------------------------------------------
  // the seeded demo workflow

  /** The demo workflow the seed script stores: trigger `lead_created`, actions an object. */
  function SeededWorkflow(id: string, organizationId: string): Workflow {
    Workflow(id, organizationId, "Auto-respond to new leads", "lead_created", NotAnArray, true)
  }

  /** No event ever selects the seeded workflow: its trigger is not the name of any event type. */
  lemma SeededWorkflowNeverMatches(id: string, organizationId: string, payload: EventPayload)
    ensures !Matches(SeededWorkflow(id, organizationId), payload)
  {
    var name := EventName(payload.eventType);
    assert name[0] != 'l';
  }
}

=== FILE: gating.dfy ===
/**
 * Plan and usage gating: whether an organization's subscription unlocks a
 * feature, and whether it may create one more record of a metered kind.
 */
module FeatureGating {

  import opened Base
  import opened Plans
  import opened Database

  /** `subscription.findUnique({ where: { organizationId } })`. */
  function SubscriptionOf(s: Store, orgId: string): (r: Option<Subscription>)
    ensures r.Some? <==> orgId in s.subscriptions
    ensures r.Some? ==> r.value == s.subscriptions[orgId]
  {
    if orgId in s.subscriptions then Some(s.subscriptions[orgId]) else None
  }

  const Active: string := "ACTIVE"

  /**
   * `checkPlanCapability`: false without a subscription or with any status
   * other than ACTIVE; otherwise the truthiness of the plan's table entry.
   */
  function CheckPlanCapability(s: Store, orgId: string, feature: FeatureKey): (ok: bool)
    ensures orgId !in s.subscriptions ==> !ok
    ensures orgId in s.subscriptions && s.subscriptions[orgId].status != Active ==> !ok
    ensures orgId in s.subscriptions && s.subscriptions[orgId].status == Active ==>
      (ok <==> IsTruthy(Lookup(Features(s.subscriptions[orgId].plan), feature)))
  {
    match SubscriptionOf(s, orgId)
    case None => false
    case Some(sub) =>
      if sub.status != Active then false
      else IsTruthy(Lookup(Features(sub.plan), feature))
  }

  /** `canAccessFeature`: a plain delegation. */
  function CanAccessFeature(s: Store, orgId: string, feature: FeatureKey): (ok: bool)
    ensures ok == CheckPlanCapability(s, orgId, feature)
  {
    CheckPlanCapability(s, orgId, feature)
  }

  /**
   * An active subscription unlocks a boolean feature exactly when the plan's
   * table row has it, and unlocks every limit key, since a limit is never zero.
   */
  lemma ActiveCapabilities(s: Store, orgId: string, feature: FeatureKey)
    requires orgId in s.subscriptions && s.subscriptions[orgId].status == Active
    ensures IsFlagKey(feature) ==> (CheckPlanCapability(s, orgId, feature) <==> Lookup(Features(s.subscriptions[orgId].plan), feature).on)
    ensures !IsFlagKey(feature) ==> CheckPlanCapability(s, orgId, feature)
  {
  }

  /** Moving an active subscription to a higher plan keeps every feature it unlocked. */
  lemma UpgradeKeepsCapabilities(s: Store, orgId: string, p: Plan, feature: FeatureKey)
    requires orgId in s.subscriptions && s.subscriptions[orgId].status == Active
    requires Rank(s.subscriptions[orgId].plan) <= Rank(p)
    requires CheckPlanCapability(s, orgId, feature)
    ensures CheckPlanCapability(s.(subscriptions := s.subscriptions[orgId := s.subscriptions[orgId].(plan := p)]), orgId, feature)
  {
    var q := s.subscriptions[orgId].plan;
    if IsFlagKey(feature) {
      FlagsMonotone(q, p, feature);
    } else {
      ActiveCapabilities(s.(subscriptions := s.subscriptions[orgId := s.subscriptions[orgId].(plan := p)]), orgId, feature);
    }
  }

  // ---------------------------------------------------------------------------
  // usage

  /** Current usage of one metric against its limit; `-1` is no limit. */
  datatype Usage = Usage(current: nat, max: int)

  datatype UsageLimits = UsageLimits(leads: Usage, bookings: Usage, documents: Usage, contentGenerations: Usage)

  function LeadCount(s: Store, orgId: string): nat {
    Count(s.leads, (r: Lead) => r.organizationId == orgId)
  }

  function BookingCount(s: Store, orgId: string): nat {
    Count(s.bookings, (r: Booking) => r.organizationId == orgId)
  }

  function DocumentCount(s: Store, orgId: string): nat {
    Count(s.documents, (r: Document) => r.organizationId == orgId)
  }

  function ContentCount(s: Store, orgId: string): nat {
    Count(s.contentDrafts, (r: ContentDraft) => r.organizationId == orgId)
  }

  /** The number of records of a metric in an organization. */
  function CountOf(s: Store, orgId: string, m: Metric): nat {
    match m
    case Leads => LeadCount(s, orgId)
    case Bookings => BookingCount(s, orgId)
    case Documents => DocumentCount(s, orgId)
    case ContentGenerations => ContentCount(s, orgId)
  }

  /** The plan that sets the limits: the subscription's plan whatever its status, STARTER without one. */
  function LimitPlan(s: Store, orgId: string): (p: Plan)
    ensures orgId in s.subscriptions ==> p == s.subscriptions[orgId].plan
    ensures orgId !in s.subscriptions ==> p == Starter
  {
    match SubscriptionOf(s, orgId)
    case Some(sub) => sub.plan
    case None => Starter
  }

  /** The entry of a usage report for one metric. */
  function UsageFor(u: UsageLimits, m: Metric): Usage {
    match m
    case Leads => u.leads
    case Bookings => u.bookings
    case Documents => u.documents
    case ContentGenerations => u.contentGenerations
  }

  /** `getUsageLimits`: the organization's record counts against its plan's limits. */
  function GetUsageLimits(s: Store, orgId: string): (u: UsageLimits)
    ensures forall m: Metric :: UsageFor(u, m) == Usage(CountOf(s, orgId, m), MaxFor(Features(LimitPlan(s, orgId)), m))
  {
    var f := Features(LimitPlan(s, orgId));
    UsageLimits(
      Usage(LeadCount(s, orgId), f.maxLeads),
      Usage(BookingCount(s, orgId), f.maxBookings),
      Usage(DocumentCount(s, orgId), f.maxDocuments),
      Usage(ContentCount(s, orgId), f.maxContentGenerations))
  }

  /** `checkUsageLimit`: always allowed without a limit, otherwise while usage is below it. */
  function CheckUsageLimit(s: Store, orgId: string, m: Metric): (ok: bool)
    ensures MaxFor(Features(LimitPlan(s, orgId)), m) == Unlimited ==> ok
    ensures MaxFor(Features(LimitPlan(s, orgId)), m) != Unlimited ==>
      (ok <==> CountOf(s, orgId, m) < MaxFor(Features(LimitPlan(s, orgId)), m))
  {
    var usage := UsageFor(GetUsageLimits(s, orgId), m);
    if usage.max == Unlimited then true else usage.current < usage.max
  }

  /** Only AGENCY is never limited; on every other plan usage at the limit is refused. */
  lemma UsageLimitByPlan(s: Store, orgId: string, m: Metric)
    ensures LimitPlan(s, orgId) == Agency ==> CheckUsageLimit(s, orgId, m)
    ensures LimitPlan(s, orgId) != Agency && CountOf(s, orgId, m) >= MaxFor(Features(LimitPlan(s, orgId)), m)
      ==> !CheckUsageLimit(s, orgId, m)
  {
    OnlyAgencyUnlimited(LimitPlan(s, orgId), m);
  }

  /** A booking of another organization, stored anywhere, does not change an organization's booking count. */
  lemma {:induction false} OtherTenantBookingsIgnored(a: seq<Booking>, b: Booking, c: seq<Booking>, orgId: string)
    requires b.organizationId != orgId
    ensures Count(a + [b] + c, (r: Booking) => r.organizationId == orgId)
         == Count(a + c, (r: Booking) => r.organizationId == orgId)
  {
    var p := (r: Booking) => r.organizationId == orgId;
    CountIsFilterLength(a + [b] + c, p);
    CountIsFilterLength(a + c, p);
    FilterSkip(a, b, c, p);
  }

  /** Storing one more booking of the organization raises its booking count by exactly one. */
  lemma {:induction false} OwnBookingCounted(a: seq<Booking>, b: Booking, orgId: string)
    requires b.organizationId == orgId
    ensures Count(a + [b], (r: Booking) => r.organizationId == orgId)
         == Count(a, (r: Booking) => r.organizationId == orgId) + 1
  {
    var p := (r: Booking) => r.organizationId == orgId;
    CountIsFilterLength(a + [b], p);
    CountIsFilterLength(a, p);
    FilterAppend(a, [b], p);
    assert Filter([b], p) == [b] by {
      assert [b][1..] == [];
    }
  }
}

=== FILE: header.dfy ===
/**
 * The application header: the language toggle with the document direction
 * it sets, the avatar initials and the first-name greeting.
 */
module Header {

  import opened Base
  import opened Text

  /** `language === "en" ? "ar" : "en"`. */
  function ToggleLanguage(language: string): (r: string)
    ensures language == "en" ==> r == "ar"
    ensures language != "en" ==> r == "en"
  {
    if language == "en" then "ar" else "en"
  }

  /** The header's language and the root element's `dir` and `lang` attributes. */
  datatype Page = Page(language: string, dir: string, lang: string)

  /** `toggleLanguage`: the new language, right-to-left exactly for Arabic. */
  function Toggle(p: Page): (r: Page)
    ensures r.language == ToggleLanguage(p.language) && r.lang == r.language
    ensures r.dir == "rtl" <==> r.language == "ar"
    ensures r.dir == "rtl" || r.dir == "ltr"
  {
    var l := ToggleLanguage(p.language);
    Page(l, if l == "ar" then "rtl" else "ltr", l)
  }

  /** Toggling twice gives back English or Arabic; any other language becomes English on the first toggle. */
  lemma ToggleTwice(p: Page)
    requires p.language == "en" || p.language == "ar"
    ensures Toggle(Toggle(p)).language == p.language
    ensures Toggle(p).language != p.language
  {
  }

  // ---------------------------------------------------------------------------
  // initials

  /** `.map((n) => n[0]).join("")`: the first character of each piece; an empty piece adds nothing. */
  function Heads(parts: seq<string>): (r: string)
    ensures |r| <= |parts|
    decreases |parts|
  {
    if parts == [] then ""
    else (if parts[0] == "" then "" else [parts[0][0]]) + Heads(parts[1..])
  }

  /**
   * The characters that begin a word: not a space, and first in the string or
   * right after a space. `atStart` says whether the previous character was a
   * space (or there was none).
   */
  function WordStarts(s: string, atStart: bool): (r: string)
    ensures |r| <= |s|
    ensures ' ' !in r
    decreases |s|
  {
    if s == [] then ""
    else (if atStart && s[0] != ' ' then [s[0]] else "") + WordStarts(s[1..], s[0] == ' ')
  }

  /** Splitting on spaces and taking each piece's first character picks exactly the word starts. */
  lemma {:induction false} HeadsOfSplit(s: string)
    ensures Heads(Split(s, ' ')) == WordStarts(s, true)
    ensures Heads(Split(s, ' ')[1..]) == WordStarts(s, false)
    decreases |s|
  {
    if s != [] {
      var rest := Split(s[1..], ' ');
      HeadsOfSplit(s[1..]);
      if s[0] == ' ' {
        assert Split(s, ' ') == [""] + rest;
        assert ([""] + rest)[1..] == rest;
      } else {
        var parts := [[s[0]] + rest[0]] + rest[1..];
        assert Split(s, ' ') == parts;
        assert parts[1..] == rest[1..];
      }
    }
  }

  const FallbackInitials: string := "U"

  /**
   * `userInitials`: the upper-cased first letters of the name's words, or
   * `U` when there is no name or no word.
   */
  function Initials(name: Option<string>): (r: string)
    ensures r != []
    ensures name.Some? && WordStarts(name.value, true) != "" ==> r == Upper(WordStarts(name.value, true))
    ensures name.None? || WordStarts(name.value, true) == "" ==> r == FallbackInitials
    ensures forall k :: 0 <= k < |r| ==> !('a' <= r[k] <= 'z') && r[k] != ' '
  {
    if name.None? then FallbackInitials
    else
      HeadsOfSplit(name.value);
      var joined := Upper(Heads(Split(name.value, ' ')));
      if joined == "" then FallbackInitials else joined
  }

  // ---------------------------------------------------------------------------
  // greeting

  const FallbackName: string := "User"

  /** `name?.split(" ")[0] || "User"`: the name up to its first space, or `User` when that is empty. */
  function Greeting(name: Option<string>): (r: string)
    ensures r != [] && ' ' !in r
    ensures name.Some? && FirstSegment(name.value, ' ') != "" ==>
      r <= name.value && (|r| < |name.value| ==> name.value[|r|] == ' ')
    ensures name.None? || (name.value != [] && name.value[0] == ' ') || name.value == [] ==> r == FallbackName
  {
    if name.None? then FallbackName
    else
      FirstSegmentIsSplitHead(name.value, ' ');
      var first := Split(name.value, ' ')[0];
      if first == "" then FallbackName else first
  }
}

=== FILE: http.dfy ===
/**
 * What a route handler sees and returns: the session resolved by `auth()`,
 * the JSON reply with its status code, and the store and collaborator trace
 * after the request.
 */
module Http {

  import opened Base
  import opened Database
  import opened Calls

  /** The signed-in user as the session callback fills it in. */
  datatype SessionUser = SessionUser(id: Option<string>, name: Option<string>, email: Option<string>)

  /** The result of `auth()`: absent when nobody is signed in. */
  datatype AppSession = AppSession(user: Option<SessionUser>, currentOrgId: Option<string>, role: Option<Role>)

  /** `session?.user?.id`, when truthy. */
  predicate HasUserId(session: Option<AppSession>) {
    session.Some? && session.value.user.Some? && Truthy(session.value.user.value.id)
  }

  /** `session?.currentOrgId`, when truthy. */
  predicate HasOrg(session: Option<AppSession>) {
    session.Some? && Truthy(session.value.currentOrgId)
  }

  /** The JSON body of a reply. */
  datatype Body<T> =
    | ErrorBody(error: string)        // `{ error }`
    | DataBody(data: T)               // `{ success: true, data }`
    | MessageBody(message: string)    // `{ success: true, message }`
    | SuccessBody                     // `{ success: true }`

  datatype Reply<T> = Reply(status: int, body: Body<T>)

  /** A handled request: the reply, the store afterwards, the calls made, in order. */
  datatype Outcome<T> = Outcome(reply: Reply<T>, store: Store, calls: seq<Call>)

  const Unauthorized: string := "Unauthorized"
  const InternalError: string := "Internal server error"

  /** A failed request that changed nothing and called nobody. */
  function Refuse<T>(store: Store, status: int, error: string): (o: Outcome<T>)
    ensures o.reply.status == status && o.reply.body == ErrorBody(error)
    ensures o.store == store && o.calls == []
  {
    Outcome(Reply(status, ErrorBody(error)), store, [])
  }
}

=== FILE: invite.dfy ===
/**
 * The invite route: adds an existing user to the current organization, or
 * only sends the invitation when nobody has the email yet.
 */
module Invite {

  import opened Base
  import opened Database
  import opened Calls
  import Email
  import opened Http

  /** The JSON body of an invitation. */
  datatype InviteRequest = InviteRequest(email: Option<string>, role: Role)

  const AlreadyMember: string := "User is already a member"
  const MemberAdded: string := "Member added successfully"
  const InvitationSent: string := "Invitation sent"
  const DefaultInviter: string := "Team member"
  const DefaultOrganization: string := "Organization"

  /** `session.user.name || "Team member"`: the inviter named in the email. */
  function InviterName(user: SessionUser): (r: string)
    ensures r != ""
    ensures Truthy(user.name) ==> r == user.name.value
    ensures !Truthy(user.name) ==> r == DefaultInviter
  {
    OrElse(user.name, DefaultInviter)
  }

  /** `organization?.name || "Organization"`: the organization named in the email. */
  function OrganizationName(s: Store, orgId: string): (r: string)
    ensures r != ""
    ensures orgId in s.organizations && s.organizations[orgId].name != "" ==> r == s.organizations[orgId].name
    ensures !(orgId in s.organizations && s.organizations[orgId].name != "") ==> r == DefaultOrganization
  {
    OrElse(if orgId in s.organizations then Some(s.organizations[orgId].name) else None, DefaultOrganization)
  }

  /**
   * POST: 401 without a current organization. A missing email makes the user
   * lookup fail (500). A user who is already a member is refused with 400.
   * Another existing user gets a membership with the requested role; that
   * insert fails (500) when the organization is not stored. Then exactly one
   * invitation email is sent; reading the inviter's name needs a session user
   * and fails (500) without one, after the membership was added.
   * `now` stamps the membership.
   */
  function InviteMember(s: Store, session: Option<AppSession>, request: InviteRequest, now: int)
    : (o: Outcome<()>)
    ensures !HasOrg(session) ==> o == Refuse(s, 401, Unauthorized)
    ensures HasOrg(session) && request.email.None? ==> o == Refuse(s, 500, InternalError)
    ensures HasOrg(session) && request.email.Some? ==>
      var orgId := session.value.currentOrgId.value;
      var user := FindUserByEmail(s, request.email.value);
      (user.Some? && FindMembership(s, user.value.id, orgId).Some? ==> o == Refuse(s, 400, AlreadyMember))
      && (user.Some? && FindMembership(s, user.value.id, orgId).None? && orgId !in s.organizations ==> o == Refuse(s, 500, InternalError))
      && (user.Some? && FindMembership(s, user.value.id, orgId).None? && orgId in s.organizations ==>
            o.store == s.(memberships := s.memberships + [Membership(user.value.id, orgId, request.role, now)]))
      && (user.None? ==> o.store == s)
      && (o.reply.status == 200 <==>
            session.value.user.Some? && (user.None? || (FindMembership(s, user.value.id, orgId).None? && orgId in s.organizations)))
      && (o.reply.status == 200 ==>
            o.calls == [TeamInvitationSent(request.email.value, InviterName(session.value.user.value), OrganizationName(s, orgId))]
            && o.reply.body == MessageBody(if user.Some? then MemberAdded else InvitationSent))
      && (o.reply.status != 200 ==> o.calls == [])
  {
    if !HasOrg(session) then Refuse(s, 401, Unauthorized)
    else if request.email.None? then Refuse(s, 500, InternalError)
    else
      var orgId := session.value.currentOrgId.value;
      var email := request.email.value;
      var user := FindUserByEmail(s, email);
      if user.Some? && FindMembership(s, user.value.id, orgId).Some? then Refuse(s, 400, AlreadyMember)
      else if user.Some? && orgId !in s.organizations then Refuse(s, 500, InternalError)
      else
        var s' := if user.Some? then s.(memberships := s.memberships + [Membership(user.value.id, orgId, request.role, now)]) else s;
        if session.value.user.None? then Outcome(Reply(500, ErrorBody(InternalError)), s', [])
        else
          var message := if user.Some? then MemberAdded else InvitationSent;
          Outcome(Reply(200, MessageBody(message)), s', [TeamInvitationSent(email, InviterName(session.value.user.value), OrganizationName(s, orgId))])
  }

  /** Inviting the same existing user twice: the second request is refused and changes nothing. */
  lemma SecondInviteRefused(s: Store, session: Option<AppSession>, request: InviteRequest, now: int, now': int)
    requires HasOrg(session) && request.email.Some?
    requires FindUserByEmail(s, request.email.value).Some?
    requires InviteMember(s, session, request, now).reply.status == 200
    ensures var s' := InviteMember(s, session, request, now).store;
      InviteMember(s', session, request, now') == Refuse(s', 400, AlreadyMember)
  {
    var orgId := session.value.currentOrgId.value;
    var user := FindUserByEmail(s, request.email.value).value;
    var s' := InviteMember(s, session, request, now).store;
    var added := Membership(user.id, orgId, request.role, now);
    assert s'.memberships[|s.memberships|] == added;
    assert FindMembership(s', user.id, orgId).Some?;
    assert s'.users == s.users;
  }

  /** Memberships of other organizations are never touched by an invitation. */
  lemma InviteKeepsOtherOrganizations(s: Store, session: Option<AppSession>, request: InviteRequest, now: int, k: nat)
    requires k < |s.memberships|
    ensures var s' := InviteMember(s, session, request, now).store;
      k < |s'.memberships| && s'.memberships[k] == s.memberships[k]
      && forall j :: |s.memberships| <= j < |s'.memberships| ==> s'.memberships[j].organizationId == session.value.currentOrgId.value
  {
  }

  /** The invitation a successful request sends goes to the invited address and names the organization and the inviter. */
  lemma InvitationDelivered(s: Store, session: Option<AppSession>, request: InviteRequest, now: int,
                            appUrl: Option<string>, year: nat)
    requires HasOrg(session) && request.email.Some?
    requires InviteMember(s, session, request, now).reply.status == 200
    ensures var o := InviteMember(s, session, request, now);
      |o.calls| == 1
      && var p := Delivered(o.calls[0], appUrl, year);
      p.Some? && p.value.to == request.email.value
      && p.value.subject == Email.InviteSubjectPrefix + OrganizationName(s, session.value.currentOrgId.value)
      && p.value.text.Some? && InviterName(session.value.user.value) <= p.value.text.value
  {
  }
}

=== FILE: members.dfy ===
/**
 * The members route: the current organization's memberships, oldest first,
 * and the removal of one member from it.
 */
module Members {

  import opened Base
  import opened Database
  import opened Http
  import opened Invite

  /** The ordering key of the listing: membership creation time, ascending. */
  function Joined(m: Membership): int {
    m.createdAt
  }

  /** The organization's memberships, in storage order. */
  function MembershipsOfOrg(s: Store, orgId: string): (ms: seq<Membership>)
    ensures forall k :: 0 <= k < |ms| ==> ms[k] in s.memberships && ms[k].organizationId == orgId
    ensures forall k :: 0 <= k < |s.memberships| && s.memberships[k].organizationId == orgId ==> s.memberships[k] in ms
  {
    Filter(s.memberships, (m: Membership) => m.organizationId == orgId)
  }

  /**
   * GET: 401 without a current organization; otherwise exactly the
   * organization's memberships, each created no later than the next.
   */
  function ListMembers(s: Store, session: Option<AppSession>): (o: Outcome<seq<Membership>>)
    ensures o.store == s && o.calls == []
    ensures !HasOrg(session) ==> o.reply == Reply(401, ErrorBody(Unauthorized))
    ensures HasOrg(session) ==>
      var orgId := session.value.currentOrgId.value;
      o.reply.status == 200 && o.reply.body.DataBody?
      && var data := o.reply.body.data;
      (forall i, j :: 0 <= i < j < |data| ==> data[i].createdAt <= data[j].createdAt)
      && multiset(data) == multiset(MembershipsOfOrg(s, orgId))
  {
    if !HasOrg(session) then Refuse(s, 401, Unauthorized)
    else
      var data := SortBy(MembershipsOfOrg(s, session.value.currentOrgId.value), Joined);
      assert forall i, j :: 0 <= i < j < |data| ==> Joined(data[i]) <= Joined(data[j]);
      Outcome(Reply(200, DataBody(data)), s, [])
  }

  /** A listed membership belongs to the organization, and every membership of it is listed. */
  lemma ListedMembersAreTheOrganizations(s: Store, session: Option<AppSession>)
    requires HasOrg(session)
    ensures var data := ListMembers(s, session).reply.body.data;
      var orgId := session.value.currentOrgId.value;
      (forall k :: 0 <= k < |data| ==> data[k] in s.memberships && data[k].organizationId == orgId)
      && (forall k :: 0 <= k < |s.memberships| && s.memberships[k].organizationId == orgId ==> s.memberships[k] in data)
  {
    var orgId := session.value.currentOrgId.value;
    SortByKeepsElements(MembershipsOfOrg(s, orgId), Joined);
  }

  // ---------------------------------------------------------------------------
  // removal

  const UserIdRequired: string := "User ID required"

  /** The membership the delete addresses by its compound key. */
  predicate Addressed(m: Membership, userId: string, orgId: string) {
    m.userId == userId && m.organizationId == orgId
  }

  /** The memberships left after removing the addressed one. */
  function Without(ms: seq<Membership>, userId: string, orgId: string): (r: seq<Membership>)
    ensures forall k :: 0 <= k < |r| ==> r[k] in ms && !Addressed(r[k], userId, orgId)
    ensures forall k :: 0 <= k < |ms| && !Addressed(ms[k], userId, orgId) ==> ms[k] in r
  {
    Filter(ms, (m: Membership) => !Addressed(m, userId, orgId))
  }

  /**
   * DELETE: 401 without a current organization; 400 without a truthy
   * `userId` query parameter; 500 when the user is not a member (the delete
   * finds no row); otherwise exactly the membership (user, current
   * organization) is removed and nothing else changes.
   */
  function RemoveMember(s: Store, session: Option<AppSession>, userId: Option<string>): (o: Outcome<()>)
    ensures o.calls == []
    ensures !HasOrg(session) ==> o == Refuse(s, 401, Unauthorized)
    ensures HasOrg(session) && !Truthy(userId) ==> o == Refuse(s, 400, UserIdRequired)
    ensures HasOrg(session) && Truthy(userId) ==>
      var orgId := session.value.currentOrgId.value;
      (o.reply.status == 200 <==> FindMembership(s, userId.value, orgId).Some?)
      && (o.reply.status != 200 ==> o == Refuse(s, 500, InternalError))
      && (o.reply.status == 200 ==>
            o.reply.body == SuccessBody
            && o.store == s.(memberships := Without(s.memberships, userId.value, orgId)))
  {
    if !HasOrg(session) then Refuse(s, 401, Unauthorized)
    else if !Truthy(userId) then Refuse(s, 400, UserIdRequired)
    else
      var orgId := session.value.currentOrgId.value;
      if FindMembership(s, userId.value, orgId).None? then Refuse(s, 500, InternalError)
      else Outcome(Reply(200, SuccessBody), s.(memberships := Without(s.memberships, userId.value, orgId)), [])
  }

  /** After a removal the user is no longer a member, and a second removal fails. */
  lemma RemovedForGood(s: Store, session: Option<AppSession>, userId: Option<string>)
    requires HasOrg(session) && Truthy(userId)
    requires RemoveMember(s, session, userId).reply.status == 200
    ensures var s' := RemoveMember(s, session, userId).store;
      FindMembership(s', userId.value, session.value.currentOrgId.value).None?
      && RemoveMember(s', session, userId) == Refuse(s', 500, InternalError)
  {
  }

  /** Memberships in other organizations, and other users' memberships, survive a removal in storage order. */
  lemma {:induction false} WithoutKeepsOthers(a: seq<Membership>, m: Membership, b: seq<Membership>, userId: string, orgId: string)
    requires !Addressed(m, userId, orgId)
    ensures Without(a + [m] + b, userId, orgId) == Without(a, userId, orgId) + [m] + Without(b, userId, orgId)
  {
    var p := (x: Membership) => !Addressed(x, userId, orgId);
    FilterAppend(a + [m], b, p);
    FilterAppend(a, [m], p);
    assert Filter([m], p) == [m] by {
      assert [m][1..] == [];
    }
  }

  /** Nothing to remove: `Without` keeps the whole sequence. */
  lemma {:induction false} WithoutNothing(ms: seq<Membership>, userId: string, orgId: string)
    requires forall k :: 0 <= k < |ms| ==> !Addressed(ms[k], userId, orgId)
    ensures Without(ms, userId, orgId) == ms
    decreases |ms|
  {
    if ms != [] {
      WithoutNothing(ms[1..], userId, orgId);
      assert ms == [ms[0]] + ms[1..];
    }
  }

  /** Removing a membership appended to a sequence without one gives the sequence back. */
  lemma RemoveAppended(ms: seq<Membership>, added: Membership, userId: string, orgId: string)
    requires forall k :: 0 <= k < |ms| ==> !Addressed(ms[k], userId, orgId)
    requires Addressed(added, userId, orgId)
    ensures Without(ms + [added], userId, orgId) == ms
  {
    var p := (x: Membership) => !Addressed(x, userId, orgId);
    WithoutNothing(ms, userId, orgId);
    FilterAppend(ms, [added], p);
    assert Filter([added], p) == [] by {
      assert [added][1..] == [];
    }
  }

  /** Adding a user who was not a member and removing them again restores the memberships. */
  lemma InviteThenRemove(s: Store, session: Option<AppSession>, request: InviteRequest, now: int)
    requires HasOrg(session) && request.email.Some?
    requires FindUserByEmail(s, request.email.value).Some? && FindUserByEmail(s, request.email.value).value.id != ""
    requires InviteMember(s, session, request, now).reply.status == 200
    ensures var user := FindUserByEmail(s, request.email.value).value;
      var s' := InviteMember(s, session, request, now).store;
      RemoveMember(s', session, Some(user.id)).store.memberships == s.memberships
  {
    var user := FindUserByEmail(s, request.email.value).value;
    var orgId := session.value.currentOrgId.value;
    var s' := InviteMember(s, session, request, now).store;
    var added := Membership(user.id, orgId, request.role, now);
    assert FindMembership(s, user.id, orgId).None?;
    assert s'.memberships == s.memberships + [added];
    assert s'.memberships[|s.memberships|] == added;
    assert FindMembership(s', user.id, orgId).Some?;
    RemoveAppended(s.memberships, added, user.id, orgId);
  }
}

=== FILE: organizations.dfy ===
/**
 * The organizations collection route: listing the signed-in user's
 * organizations, and creating one with its owner membership, its Stripe
 * customer and its trial subscription.
 */
module Organizations {

  import opened Base
  import opened Plans
  import opened Database
  import opened Calls
  import opened Http
  import opened FeatureGating

  /** A listed organization: the record, its subscription and the user's role in it. */
  datatype OrgWithRole = OrgWithRole(organization: Organization, subscription: Option<Subscription>, role: Role)

  /** The user's memberships, in storage order. */
  function MembershipsOfUser(s: Store, userId: string): (ms: seq<Membership>)
    ensures forall k :: 0 <= k < |ms| ==> ms[k] in s.memberships && ms[k].userId == userId
    ensures forall k :: 0 <= k < |s.memberships| && s.memberships[k].userId == userId ==> s.memberships[k] in ms
  {
    Filter(s.memberships, (m: Membership) => m.userId == userId)
  }

  /** Every membership in `ms` points at a stored organization. */
  predicate OrgsExist(s: Store, ms: seq<Membership>) {
    forall k :: 0 <= k < |ms| ==> ms[k].organizationId in s.organizations
  }

  /**
   * GET: 401 without a user id; otherwise one entry per membership of the
   * user, in storage order. A membership whose organization is missing makes
   * the relation load fail, which is a 500.
   */
  function ListOrganizations(s: Store, session: Option<AppSession>): (o: Outcome<seq<OrgWithRole>>)
    ensures o.store == s && o.calls == []
    ensures !HasUserId(session) ==> o.reply == Reply(401, ErrorBody(Unauthorized))
    ensures HasUserId(session) ==>
      var ms := MembershipsOfUser(s, session.value.user.value.id.value);
      (o.reply.status == 200 <==> OrgsExist(s, ms))
      && (o.reply.status != 200 ==> o.reply == Reply(500, ErrorBody(InternalError)))
      && (o.reply.status == 200 ==>
            o.reply.body.DataBody? && |o.reply.body.data| == |ms|
            && forall k :: 0 <= k < |ms| ==>
                 o.reply.body.data[k].organization == s.organizations[ms[k].organizationId]
                 && o.reply.body.data[k].subscription == SubscriptionOf(s, ms[k].organizationId)
                 && o.reply.body.data[k].role == ms[k].role)
  {
    if !HasUserId(session) then Refuse(s, 401, Unauthorized)
    else
      var ms := MembershipsOfUser(s, session.value.user.value.id.value);
      if !OrgsExist(s, ms) then Refuse(s, 500, InternalError)
      else
        var data := seq(|ms|, k requires 0 <= k < |ms| =>
          OrgWithRole(s.organizations[ms[k].organizationId], SubscriptionOf(s, ms[k].organizationId), ms[k].role));
        Outcome(Reply(200, DataBody(data)), s, [])
  }

  /** A membership of another user, stored anywhere, does not change a user's list. */
  lemma OtherUsersMembershipIgnored(s: Store, a: seq<Membership>, m: Membership, b: seq<Membership>, userId: string)
    requires m.userId != userId
    ensures MembershipsOfUser(s.(memberships := a + [m] + b), userId) == MembershipsOfUser(s.(memberships := a + b), userId)
  {
    FilterSkip(a, m, b, (x: Membership) => x.userId == userId);
  }

  // ---------------------------------------------------------------------------
  // creation

  /** The JSON body of a creation request; a field the client did not send is absent. */
  datatype NewOrganization = NewOrganization(
    name: Option<string>,
    industry: Option<string>,
    country: Option<string>,
    primaryLanguage: Option<string>,
    secondaryLanguage: Option<string>,
    plan: Option<string>)

  /** The created organization with its subscription. */
  datatype Created = Created(organization: Organization, subscription: Subscription)

  const MissingFields: string := "Missing required fields"
  const DefaultCountry: string := "UAE"
  const DefaultLanguage: string := "en"
  const Trialing: string := "TRIALING"

  /** The length of the trial: fourteen days in milliseconds. */
  const TrialMs: int := 14 * 24 * 60 * 60 * 1000

  /** `(plan as SubscriptionPlan) || STARTER`: absent when a truthy value names no plan. */
  function RequestedPlan(plan: Option<string>): (r: Option<Plan>)
    ensures !Truthy(plan) ==> r == Some(Starter)
    ensures Truthy(plan) ==> r == ParsePlan(plan.value)
  {
    if Truthy(plan) then ParsePlan(plan.value) else Some(Starter)
  }

  /** Some stored user has this id. */
  predicate UserExists(s: Store, userId: string) {
    exists k :: 0 <= k < |s.users| && s.users[k].id == userId
  }

  /**
   * The new organization's id is fresh: no organization, subscription or
   * membership refers to it yet (the database generates it).
   */
  predicate FreshOrgId(s: Store, orgId: string) {
    orgId !in s.organizations && orgId !in s.subscriptions
    && forall k :: 0 <= k < |s.memberships| ==> s.memberships[k].organizationId != orgId
  }

  /**
   * POST: 401 without a user id; 400 without a truthy name and industry,
   * before Stripe is called; then one Stripe customer creation, and the
   * nested create of organization, owner membership and trial subscription.
   * The nested create fails as a whole with 500 for an industry or plan that
   * is not an enum value, or a user id with no stored user; the Stripe
   * customer has been created by then. `orgId` is the generated id,
   * `stripeCustomerId` the one Stripe returns, `now` the clock in milliseconds.
   */
  function CreateOrganization(s: Store, session: Option<AppSession>, body: NewOrganization,
                              orgId: string, stripeCustomerId: string, now: int): (o: Outcome<Created>)
    requires FreshOrgId(s, orgId)
    ensures !HasUserId(session) ==> o == Refuse(s, 401, Unauthorized)
    ensures HasUserId(session) && (!Truthy(body.name) || !Truthy(body.industry)) ==> o == Refuse(s, 400, MissingFields)
    ensures HasUserId(session) && Truthy(body.name) && Truthy(body.industry) ==>
      var user := session.value.user.value;
      o.calls == [StripeCustomerCreated(user.email, NullIfFalsy(user.name), user.id.value)]
      && (o.reply.status == 201 <==>
            body.industry.value in Industries && RequestedPlan(body.plan).Some? && UserExists(s, user.id.value))
      && (o.reply.status != 201 ==> o.reply == Reply(500, ErrorBody(InternalError)) && o.store == s)
    ensures o.reply.status == 201 ==>
      o.reply.body.DataBody? &&
      var org := o.reply.body.data.organization;
      var sub := o.reply.body.data.subscription;
      org.id == orgId && org.name == body.name.value && org.industry == body.industry.value
      && org.country == OrElse(body.country, DefaultCountry)
      && org.primaryLanguage == OrElse(body.primaryLanguage, DefaultLanguage)
      && org.secondaryLanguage == NullIfFalsy(body.secondaryLanguage)
      && org.onboardingCompleted
      && sub.organizationId == orgId && sub.stripeCustomerId == stripeCustomerId
      && sub.plan == RequestedPlan(body.plan).value && sub.status == Trialing
      && sub.currentPeriodStart == now && sub.currentPeriodEnd == now + TrialMs
      && o.store == s.(organizations := s.organizations[orgId := org],
                       subscriptions := s.subscriptions[orgId := sub],
                       memberships := s.memberships + [Membership(session.value.user.value.id.value, orgId, Owner, now)])
  {
    if !HasUserId(session) then Refuse(s, 401, Unauthorized)
    else if !Truthy(body.name) || !Truthy(body.industry) then Refuse(s, 400, MissingFields)
    else
      var user := session.value.user.value;
      var userId := user.id.value;
      var stripe := [StripeCustomerCreated(user.email, NullIfFalsy(user.name), userId)];
      var plan := RequestedPlan(body.plan);
      if body.industry.value !in Industries || plan.None? || !UserExists(s, userId) then
        Outcome(Reply(500, ErrorBody(InternalError)), s, stripe)
      else
        var org := Organization(orgId, body.name.value, body.industry.value,
                                OrElse(body.country, DefaultCountry), OrElse(body.primaryLanguage, DefaultLanguage),
                                NullIfFalsy(body.secondaryLanguage), true);
        var sub := Subscription(orgId, stripeCustomerId, plan.value, Trialing, now, now + TrialMs);
        var s' := s.(organizations := s.organizations[orgId := org],
                     subscriptions := s.subscriptions[orgId := sub],
                     memberships := s.memberships + [Membership(userId, orgId, Owner, now)]);
        Outcome(Reply(201, DataBody(Created(org, sub))), s', stripe)
  }

  /** The creator is the new organization's only member, and an owner. */
  lemma CreatorIsSoleOwner(s: Store, session: Option<AppSession>, body: NewOrganization,
                           orgId: string, stripeCustomerId: string, now: int)
    requires FreshOrgId(s, orgId)
    requires CreateOrganization(s, session, body, orgId, stripeCustomerId, now).reply.status == 201
    ensures var s' := CreateOrganization(s, session, body, orgId, stripeCustomerId, now).store;
      forall k :: 0 <= k < |s'.memberships| && s'.memberships[k].organizationId == orgId ==>
        s'.memberships[k].userId == session.value.user.value.id.value && s'.memberships[k].role == Owner
  {
  }

  /** A new organization is on trial, so no plan capability is unlocked yet. */
  lemma NewOrganizationHasNoCapability(s: Store, session: Option<AppSession>, body: NewOrganization,
                                       orgId: string, stripeCustomerId: string, now: int, feature: FeatureKey)
    requires FreshOrgId(s, orgId)
    requires CreateOrganization(s, session, body, orgId, stripeCustomerId, now).reply.status == 201
    ensures !CheckPlanCapability(CreateOrganization(s, session, body, orgId, stripeCustomerId, now).store, orgId, feature)
  {
  }

  /** The creator's next listing ends with the new organization, as owner, on its trial subscription. */
  lemma {:induction false} CreatedOrganizationListed(s: Store, session: Option<AppSession>, body: NewOrganization,
                                                     orgId: string, stripeCustomerId: string, now: int)
    requires FreshOrgId(s, orgId) && HasUserId(session)
    requires OrgsExist(s, MembershipsOfUser(s, session.value.user.value.id.value))
    requires CreateOrganization(s, session, body, orgId, stripeCustomerId, now).reply.status == 201
    ensures var o := CreateOrganization(s, session, body, orgId, stripeCustomerId, now);
      var l := ListOrganizations(o.store, session);
      l.reply.status == 200 && |l.reply.body.data| > 0
      && l.reply.body.data[|l.reply.body.data| - 1]
         == OrgWithRole(o.reply.body.data.organization, Some(o.reply.body.data.subscription), Owner)
  {
    var o := CreateOrganization(s, session, body, orgId, stripeCustomerId, now);
    var userId := session.value.user.value.id.value;
    var m := Membership(userId, orgId, Owner, now);
    var p := (x: Membership) => x.userId == userId;
    FilterAppend(s.memberships, [m], p);
    assert Filter([m], p) == [m] by {
      assert [m][1..] == [];
    }
    var before := MembershipsOfUser(s, userId);
    var after := MembershipsOfUser(o.store, userId);
    assert after == before + [m];
    forall k | 0 <= k < |after|
      ensures after[k].organizationId in o.store.organizations
    {
      if k < |before| {
        assert after[k] == before[k];
      }
    }
  }
}

=== FILE: plans.dfy ===
/**
 * The fixed product tables: subscription plans with their prices and feature
 * tables, and the lead-stage, booking-status and industry enumerations.
 */
module Plans {

  import opened Base

  /** The four subscription plans, cheapest first. */
  datatype Plan = Starter | Growth | Premium | Agency

  /** Position of a plan in the upgrade order. */
  function Rank(p: Plan): nat {
    match p
    case Starter => 0
    case Growth => 1
    case Premium => 2
    case Agency => 3
  }

  /** The enum spelling stored in the database. */
  function PlanName(p: Plan): string {
    match p
    case Starter => "STARTER"
    case Growth => "GROWTH"
    case Premium => "PREMIUM"
    case Agency => "AGENCY"
  }

  /** Reads a plan from its enum spelling; any other string is not a plan. */
  function ParsePlan(s: string): (r: Option<Plan>)
    ensures r.Some? ==> PlanName(r.value) == s
    ensures forall p: Plan :: PlanName(p) == s ==> r == Some(p)
  {
    if s == "STARTER" then Some(Starter)
    else if s == "GROWTH" then Some(Growth)
    else if s == "PREMIUM" then Some(Premium)
    else if s == "AGENCY" then Some(Agency)
    else None
  }

  /** Monthly price in US dollars. */
  function Price(p: Plan): nat {
    match p
    case Starter => 49
    case Growth => 99
    case Premium => 199
    case Agency => 499
  }

  /** `-1` in a limit field means "no limit". */
  const Unlimited: int := -1

  /** One row of the feature table. */
  datatype PlanFeatures = PlanFeatures(
    voiceReceptionist: bool,
    whatsappAutopilot: bool,
    chatWidget: bool,
    workflows: bool,
    apiAccess: bool,
    whiteLabel: bool,
    maxLeads: int,
    maxBookings: int,
    maxDocuments: int,
    maxContentGenerations: int)

  /** The feature table. */
  function Features(p: Plan): PlanFeatures {
    match p
    case Starter => PlanFeatures(false, true, true, false, false, false, 200, 100, 50, 20)
    case Growth => PlanFeatures(false, true, true, true, false, false, 1000, 500, 200, 100)
    case Premium => PlanFeatures(true, true, true, true, true, false, 5000, 2000, 1000, 500)
    case Agency => PlanFeatures(true, true, true, true, true, true, Unlimited, Unlimited, Unlimited, Unlimited)
  }

  /** The keys of a feature-table row. */
  datatype FeatureKey =
    | VoiceReceptionist | WhatsappAutopilot | ChatWidget | WorkflowsKey | ApiAccess | WhiteLabel
    | MaxLeads | MaxBookings | MaxDocuments | MaxContentGenerations

  /** The usage metrics that have a limit. */
  datatype Metric = Leads | Bookings | Documents | ContentGenerations

  /** A field of a feature-table row: a flag or a numeric limit. */
  datatype FeatureValue = Flag(on: bool) | Limit(max: int)

  /** `features[key]`. */
  function Lookup(f: PlanFeatures, k: FeatureKey): FeatureValue {
    match k
    case VoiceReceptionist => Flag(f.voiceReceptionist)
    case WhatsappAutopilot => Flag(f.whatsappAutopilot)
    case ChatWidget => Flag(f.chatWidget)
    case WorkflowsKey => Flag(f.workflows)
    case ApiAccess => Flag(f.apiAccess)
    case WhiteLabel => Flag(f.whiteLabel)
    case MaxLeads => Limit(f.maxLeads)
    case MaxBookings => Limit(f.maxBookings)
    case MaxDocuments => Limit(f.maxDocuments)
    case MaxContentGenerations => Limit(f.maxContentGenerations)
  }

  /** JavaScript `!!value`: a flag as it is, a number when non-zero. */
  predicate IsTruthy(v: FeatureValue) {
    match v
    case Flag(b) => b
    case Limit(n) => n != 0
  }

  /** The limit field for a usage metric. */
  function MaxFor(f: PlanFeatures, m: Metric): int {
    match m
    case Leads => f.maxLeads
    case Bookings => f.maxBookings
    case Documents => f.maxDocuments
    case ContentGenerations => f.maxContentGenerations
  }

  /** The boolean feature keys. */
  predicate IsFlagKey(k: FeatureKey) {
    Lookup(Features(Starter), k).Flag?
  }

  /** Every price is strictly higher than the price of every lower plan. */
  lemma PricesIncrease(p: Plan, q: Plan)
    requires Rank(p) < Rank(q)
    ensures Price(p) < Price(q)
  {
  }

  /** A feature switched on in a plan stays on in every higher plan. */
  lemma FlagsMonotone(p: Plan, q: Plan, k: FeatureKey)
    requires Rank(p) <= Rank(q)
    requires IsFlagKey(k)
    requires Lookup(Features(p), k).on
    ensures Lookup(Features(q), k).Flag? && Lookup(Features(q), k).on
  {
  }

  /** The finite limits grow strictly from STARTER to GROWTH to PREMIUM, for every metric. */
  lemma FiniteLimitsIncrease(p: Plan, q: Plan, m: Metric)
    requires Rank(p) < Rank(q) && q != Agency
    ensures 0 < MaxFor(Features(p), m) < MaxFor(Features(q), m)
  {
  }

  /** AGENCY, and only AGENCY, is unlimited, on every metric. */
  lemma OnlyAgencyUnlimited(p: Plan, m: Metric)
    ensures MaxFor(Features(p), m) == Unlimited <==> p == Agency
    ensures p != Agency ==> MaxFor(Features(p), m) > 0
  {
  }

  /** White labelling is an AGENCY-only feature; WhatsApp autopilot and the chat widget are in every plan. */
  lemma FlagsAcrossPlans(p: Plan)
    ensures Features(p).whiteLabel <==> p == Agency
    ensures Features(p).whatsappAutopilot && Features(p).chatWidget
  {
  }

  /** The plan-name spelling and the parser are inverse. */
  lemma ParsePlanName(p: Plan)
    ensures ParsePlan(PlanName(p)) == Some(p)
  {
  }

  // ---------------------------------------------------------------------------
  // enumerations

  /** The stored values of `LEAD_STAGES`, in display order. */
  const LeadStages: seq<string> := ["NEW", "CONTACTED", "QUALIFIED", "BOOKED", "WON", "LOST"]

  /** The stored values of `BOOKING_STATUSES`, in display order. */
  const BookingStatuses: seq<string> := ["SCHEDULED", "CONFIRMED", "COMPLETED", "CANCELLED", "NO_SHOW"]

  /** The stored values of `INDUSTRIES`, in display order. */
  const Industries: seq<string> := ["SALON", "CLINIC", "REAL_ESTATE", "RESTAURANT", "CAR_RENTAL", "ECOMMERCE", "OTHER"]

  /** No two entries of `s` are equal. */
  predicate Distinct(s: seq<string>) {
    forall i, j :: 0 <= i < j < |s| ==> s[i] != s[j]
  }

  /** Six distinct lead stages, five distinct booking statuses, seven distinct industries. */
  lemma EnumerationsDistinct()
    ensures |LeadStages| == 6 && Distinct(LeadStages)
    ensures |BookingStatuses| == 5 && Distinct(BookingStatuses)
    ensures |Industries| == 7 && Distinct(Industries)
  {
  }
}

=== FILE: sidebar.dfy ===
/**
 * The application sidebar: the fixed navigation table and the rule that
 * highlights the items the current path is in.
 */
module Sidebar {

  import opened Base

  datatype NavItem = NavItem(name: string, href: string)

  /** A section item: its page is `/app/` followed by the section's word. */
  function Section(name: string, word: string): (item: NavItem)
    ensures item.name == name && |item.href| == 5 + |word| && item.href[..5] == "/app/" && item.href[5..] == word
  {
    NavItem(name, "/app/" + word)
  }

  /** The twelve entries, in display order; the icons are not modelled. */
  const Navigation: seq<NavItem> := [
    NavItem("Dashboard", "/app"),
    Section("AI Receptionist", "receptionist"),
    Section("WhatsApp", "whatsapp"),
    Section("Chat Widget", "chat-widget"),
    Section("Bookings", "bookings"),
    Section("CRM", "crm"),
    Section("Inbox", "inbox"),
    Section("Documents", "documents"),
    Section("Content", "content"),
    Section("Workflows", "workflows"),
    Section("Settings", "settings"),
    Section("Billing", "billing")
  ]

  /**
   * `pathname === href || pathname?.startsWith(href + "/")`: the path is the
   * item's page or lies below it. A path that is not known activates nothing.
   */
  function IsActive(pathname: Option<string>, href: string): (active: bool)
    ensures active <==>
      pathname.Some? &&
      (pathname.value == href
       || (|href| < |pathname.value| && pathname.value[..|href|] == href && pathname.value[|href|] == '/'))
  {
    pathname == Some(href) || (pathname.Some? && href + "/" <= pathname.value)
  }

  /** Each item has its own href. */
  lemma NavigationDistinct()
    ensures |Navigation| == 12
    ensures forall i, j :: 0 <= i < j < |Navigation| ==> Navigation[i].href != Navigation[j].href
  {
    forall i, j | 0 <= i < j < |Navigation|
      ensures Navigation[i].href != Navigation[j].href
    {
      if 0 < i {
        DifferentWords(Navigation[i].href, Navigation[j].href);
      }
    }
  }

  /** Two section pages with different words are different pages. */
  lemma DifferentWords(a: string, b: string)
    requires |a| >= 5 && |b| >= 5 && a[5..] != b[5..]
    ensures a != b
  {
  }

  /** A path that only shares a textual prefix with an item's page does not activate it. */
  lemma SiblingPrefixInactive(href: string, c: char, rest: string)
    requires c != '/'
    ensures !IsActive(Some(href + [c] + rest), href)
  {
    assert (href + [c] + rest)[|href|] == c;
  }

  /** For instance, `/app/crmx` does not activate CRM. */
  lemma CrmxInactive()
    ensures !IsActive(Some("/app/crmx"), Navigation[5].href)
  {
    SiblingPrefixInactive("/app/crm", 'x', "");
  }

  /** Every page below `/app/` activates the Dashboard item, so a section page activates two items. */
  lemma DashboardAlwaysActive(rest: string)
    ensures IsActive(Some("/app/" + rest), Navigation[0].href)
  {
    assert ("/app/" + rest)[..4] == "/app";
  }

  /** On a section's page two items are active: the section and the Dashboard. */
  lemma TwoItemsActive(i: nat)
    requires 0 < i < |Navigation|
    ensures IsActive(Some(Navigation[i].href), Navigation[i].href)
    ensures IsActive(Some(Navigation[i].href), Navigation[0].href)
  {
    var h := Navigation[i].href;
    DashboardAlwaysActive(h[5..]);
    assert "/app/" + h[5..] == h;
  }

  /** An unknown path activates no item. */
  lemma NoPathNoActive(i: nat)
    requires i < |Navigation|
    ensures !IsActive(None, Navigation[i].href)
  {
  }

  /** An href of the form `/app/<word>` whose word is not empty and has no slash. */
  predicate IsSection(h: string) {
    |h| > 5 && h[..5] == "/app/" && '/' !in h[5..]
  }

  lemma SectionWord(word: string)
    requires word != [] && '/' !in word
    ensures IsSection("/app/" + word)
  {
    assert ("/app/" + word)[5..] == word;
  }

  /** Every item but the Dashboard is a section. */
  lemma AllSections()
    ensures forall i :: 0 < i < |Navigation| ==> IsSection(Navigation[i].href)
  {
    SectionWord("receptionist");
    SectionWord("whatsapp");
    SectionWord("chat-widget");
    SectionWord("bookings");
    SectionWord("crm");
    SectionWord("inbox");
    SectionWord("documents");
    SectionWord("content");
    SectionWord("workflows");
    SectionWord("settings");
    SectionWord("billing");
  }

  /** Two distinct sections are never active together: neither page lies below the other. */
  lemma SectionsExclusive(p: string, a: string, b: string)
    requires a != b && IsSection(a) && IsSection(b)
    ensures !(IsActive(Some(p), a) && IsActive(Some(p), b))
  {
  }

  /** Besides the Dashboard, at most one item is active at a time. */
  lemma AtMostOneSection(p: string, i: nat, j: nat)
    requires 0 < i < j < |Navigation|
    ensures !(IsActive(Some(p), Navigation[i].href) && IsActive(Some(p), Navigation[j].href))
  {
    NavigationDistinct();
    AllSections();
    SectionsExclusive(p, Navigation[i].href, Navigation[j].href);
  }
}

=== FILE: store.dfy ===
/**
 * The persisted records of the application and the in-memory store that
 * stands for the database: sequences in storage order for the tables that
 * are scanned, maps for the tables read by a unique key.
 */
module Database {

  import opened Base
  import opened Plans

  /** The role of a member in an organization. */
  datatype Role = Owner | Admin | Staff

  datatype User = User(
    id: string,
    email: Option<string>,
    name: Option<string>,
    image: Option<string>,
    hashedPassword: Option<string>)

  /** `industry` holds the stored enum spelling; see `Plans.Industries`. */
  datatype Organization = Organization(
    id: string,
    name: string,
    industry: string,
    country: string,
    primaryLanguage: string,
    secondaryLanguage: Option<string>,
    onboardingCompleted: bool)

  /** At most one membership per (user, organization); `createdAt` in milliseconds. */
  datatype Membership = Membership(userId: string, organizationId: string, role: Role, createdAt: int)

  /** At most one subscription per organization; times in milliseconds. */
  datatype Subscription = Subscription(
    organizationId: string,
    stripeCustomerId: string,
    plan: Plan,
    status: string,
    currentPeriodStart: int,
    currentPeriodEnd: int)

  datatype Customer = Customer(id: string, organizationId: string, name: string)

  /** `status` holds the stored enum spelling; see `Plans.BookingStatuses`. */
  datatype Booking = Booking(
    id: string,
    organizationId: string,
    customerId: string,
    customerName: string,
    service: string,
    startTime: int,
    endTime: int,
    status: string,
    notes: Option<string>)

  /** `stage` holds the stored enum spelling; see `Plans.LeadStages`. */
  datatype Lead = Lead(id: string, organizationId: string, name: string, stage: string, source: Option<string>, createdAt: int)

  datatype Document = Document(id: string, organizationId: string)

  datatype ContentDraft = ContentDraft(id: string, organizationId: string)

  /**
   * One element of a stored action list: an action name, or a JSON value that
   * is not a string but whose string conversion succeeds.
   */
  datatype ActionItem = ActionName(name: string) | NotAName

  /** The stored `actions` JSON value: an array, or anything else (an object, a string, null). */
  datatype ActionList = ActionArray(items: seq<ActionItem>) | NotAnArray

  datatype Workflow = Workflow(id: string, organizationId: string, name: string, trigger: string, actions: ActionList, isActive: bool)

  /** The database. */
  datatype Store = Store(
    users: seq<User>,
    organizations: map<string, Organization>,
    memberships: seq<Membership>,
    subscriptions: map<string, Subscription>,
    customers: seq<Customer>,
    bookings: seq<Booking>,
    leads: seq<Lead>,
    documents: seq<Document>,
    contentDrafts: seq<ContentDraft>,
    workflows: seq<Workflow>)

  /** The store with no records. */
  const Empty: Store := Store([], map[], [], map[], [], [], [], [], [], [])

  /** `membership.findUnique({ userId_organizationId })`: the membership of a user in an organization. */
  function FindMembership(s: Store, userId: string, organizationId: string): (r: Option<Membership>)
    ensures r.Some? ==> r.value in s.memberships && r.value.userId == userId && r.value.organizationId == organizationId
    ensures r.None? <==> forall k :: 0 <= k < |s.memberships| ==>
      !(s.memberships[k].userId == userId && s.memberships[k].organizationId == organizationId)
  {
    FindFirst(s.memberships, (m: Membership) => m.userId == userId && m.organizationId == organizationId)
  }

  /** `user.findUnique({ where: { email } })`. */
  function FindUserByEmail(s: Store, email: string): (r: Option<User>)
    ensures r.Some? ==> r.value in s.users && r.value.email == Some(email)
    ensures r.None? <==> forall k :: 0 <= k < |s.users| ==> s.users[k].email != Some(email)
  {
    FindFirst(s.users, (u: User) => u.email == Some(email))
  }
}

=== FILE: text.dfy ===
/**
 * String operations of the JavaScript runtime that the services and views use,
 * written out over `seq<char>`: `split(" ")` / `join`, `toUpperCase` on ASCII,
 * `replace` with a global single-character pattern, the `\s` whitespace class,
 * `parseInt` in base ten and decimal rendering of numbers.
 */
module Text {

  import opened Base

  /** Number of occurrences of `c` in `s`. */
  function Occurrences(s: string, c: char): (n: nat)
    ensures n <= |s|
    ensures n == 0 <==> c !in s
    decreases |s|
  {
    if s == [] then 0
    else (if s[0] == c then 1 else 0) + Occurrences(s[1..], c)
  }

  /** Counting distributes over concatenation. */
  lemma {:induction false} OccurrencesAppend(a: string, b: string, c: char)
    ensures Occurrences(a + b, c) == Occurrences(a, c) + Occurrences(b, c)
    decreases |a|
  {
    if a != [] {
      assert (a + b)[0] == a[0];
      assert (a + b)[1..] == a[1..] + b;
      OccurrencesAppend(a[1..], b, c);
    } else {
      assert a + b == b;
    }
  }

  /** `sub` occurs somewhere inside `s`. */
  predicate Contains(s: string, sub: string) {
    exists i :: 0 <= i <= |s| && sub <= s[i..]
  }

  /** A string is a prefix of itself followed by anything. */
  lemma PrefixOfConcat(a: string, b: string)
    ensures a <= a + b
  {
  }

  /** A string contains each of the parts it is concatenated from. */
  lemma ContainsMiddle(a: string, b: string, c: string)
    ensures Contains(a + (b + c), b)
  {
    var s := a + (b + c);
    assert s[|a|..] == b + c;
  }

  /** A string contains its last part. */
  lemma ContainsSuffix(a: string, b: string)
    ensures Contains(a + b, b)
  {
    assert (a + b)[|a|..] == b;
  }

  /** Whatever a string contains, it still contains after a prefix is put in front. */
  lemma ContainsAfterPrefix(p: string, s: string, sub: string)
    requires Contains(s, sub)
    ensures Contains(p + s, sub)
  {
    var i :| 0 <= i <= |s| && sub <= s[i..];
    assert (p + s)[|p| + i..] == s[i..];
  }

  // ---------------------------------------------------------------------------
  // split / join

  /**
   * `s.split(sep)` for a one-character separator: the maximal separator-free
   * pieces, including empty ones between adjacent separators and at the ends.
   */
  function Split(s: string, sep: char): (parts: seq<string>)
    ensures |parts| == Occurrences(s, sep) + 1
    ensures forall k :: 0 <= k < |parts| ==> sep !in parts[k]
    decreases |s|
  {
    if s == [] then [""]
    else
      var rest := Split(s[1..], sep);
      if s[0] == sep then [""] + rest
      else [[s[0]] + rest[0]] + rest[1..]
  }

  /** `parts.join(sep)`. */
  function Join(parts: seq<string>, sep: char): string
    decreases |parts|
  {
    if parts == [] then ""
    else if |parts| == 1 then parts[0]
    else parts[0] + [sep] + Join(parts[1..], sep)
  }

  lemma JoinCons(x: string, rest: seq<string>, sep: char)
    requires rest != []
    ensures Join([x] + rest, sep) == x + [sep] + Join(rest, sep)
  {
    assert ([x] + rest)[1..] == rest;
  }

  /** Splitting and joining with the same separator gives back the string. */
  lemma {:induction false} JoinSplit(s: string, sep: char)
    ensures Join(Split(s, sep), sep) == s
    decreases |s|
  {
    if s != [] {
      var rest := Split(s[1..], sep);
      JoinSplit(s[1..], sep);
      assert s == [s[0]] + s[1..];
      if s[0] == sep {
        assert Split(s, sep) == [""] + rest;
        JoinCons("", rest, sep);
        assert "" + [sep] + s[1..] == s;
      } else {
        assert Split(s, sep) == [[s[0]] + rest[0]] + rest[1..];
        JoinSplitLetter(s[0], rest, sep);
      }
    }
  }

  /** The step of `JoinSplit` for a leading non-separator character. */
  lemma JoinSplitLetter(c: char, rest: seq<string>, sep: char)
    requires rest != []
    ensures Join([[c] + rest[0]] + rest[1..], sep) == [c] + Join(rest, sep)
  {
    if |rest| > 1 {
      JoinCons([c] + rest[0], rest[1..], sep);
      assert rest == [rest[0]] + rest[1..];
      JoinCons(rest[0], rest[1..], sep);
    }
  }

  /** The first piece of `s.split(sep)`: everything before the first separator. */
  function FirstSegment(s: string, sep: char): (r: string)
    ensures r <= s
    ensures sep !in r
    ensures |r| < |s| ==> s[|r|] == sep
    decreases |s|
  {
    if s == [] || s[0] == sep then "" else [s[0]] + FirstSegment(s[1..], sep)
  }

  lemma {:induction false} FirstSegmentIsSplitHead(s: string, sep: char)
    ensures Split(s, sep)[0] == FirstSegment(s, sep)
    decreases |s|
  {
    if s != [] && s[0] != sep {
      FirstSegmentIsSplitHead(s[1..], sep);
    }
  }

  // ---------------------------------------------------------------------------
  // case mapping (ASCII)

  /** `toUpperCase` on one character; only the ASCII letters change. */
  function UpperChar(c: char): (u: char)
    ensures 'a' <= c <= 'z' ==> u as int == c as int - 32
    ensures !('a' <= c <= 'z') ==> u == c
    ensures !('a' <= u <= 'z')
  {
    if 'a' <= c <= 'z' then (c as int - 32) as char else c
  }

  /** `toUpperCase` on a string, character by character. */
  function Upper(s: string): (u: string)
    ensures |u| == |s|
    ensures forall k :: 0 <= k < |s| ==> u[k] == UpperChar(s[k])
  {
    seq(|s|, k requires 0 <= k < |s| => UpperChar(s[k]))
  }

  /** Upper-casing twice is the same as once. */
  lemma UpperIdempotent(s: string)
    ensures Upper(Upper(s)) == Upper(s)
  {
  }

  // ---------------------------------------------------------------------------
  // replace(/c/g, rep)

  /** `s.replace(/c/g, rep)` for a one-character pattern. */
  function ReplaceAll(s: string, c: char, rep: string): (r: string)
    ensures |r| == |s| - Occurrences(s, c) + |rep| * Occurrences(s, c)
    ensures c !in rep ==> c !in r
    decreases |s|
  {
    if s == [] then ""
    else
      var n := Occurrences(s[1..], c);
      assert |rep| * (n + 1) == |rep| * n + |rep|;
      (if s[0] == c then rep else [s[0]]) + ReplaceAll(s[1..], c, rep)
  }

  /** Replacement works piece by piece: it distributes over concatenation. */
  lemma {:induction false} ReplaceAllAppend(a: string, b: string, c: char, rep: string)
    ensures ReplaceAll(a + b, c, rep) == ReplaceAll(a, c, rep) + ReplaceAll(b, c, rep)
    decreases |a|
  {
    if a == [] {
      assert a + b == b;
    } else {
      var head := if a[0] == c then rep else [a[0]];
      assert (a + b)[0] == a[0];
      assert (a + b)[1..] == a[1..] + b;
      ReplaceAllAppend(a[1..], b, c, rep);
      assert ReplaceAll(a + b, c, rep) == head + ReplaceAll(a[1..] + b, c, rep);
      ConcatAssoc(head, ReplaceAll(a[1..], c, rep), ReplaceAll(b, c, rep));
    }
  }

  /** A string without the pattern character is left as it is. */
  lemma {:induction false} ReplaceAllAbsent(s: string, c: char, rep: string)
    requires c !in s
    ensures ReplaceAll(s, c, rep) == s
    decreases |s|
  {
    if s != [] {
      ReplaceAllAbsent(s[1..], c, rep);
    }
  }

  // ---------------------------------------------------------------------------
  // the \s character class

  /** Membership in the ECMAScript `\s` class (WhiteSpace and LineTerminator). */
  predicate IsSpace(c: char) {
    || c == ' ' || c == '\t' || c == '\n' || c == '\r' || c == '\U{000B}' || c == '\U{000C}'
    || c == '\U{00A0}' || c == '\U{1680}' || ('\U{2000}' <= c <= '\U{200A}')
    || c == '\U{2028}' || c == '\U{2029}' || c == '\U{202F}' || c == '\U{205F}'
    || c == '\U{3000}' || c == '\U{FEFF}'
  }

  /** `s` holds no `\s` character. */
  predicate NoSpace(s: string) {
    forall k :: 0 <= k < |s| ==> !IsSpace(s[k])
  }

  /** `c` is outside the `\s` class. */
  predicate NotSpace(c: char) {
    !IsSpace(c)
  }

  /**
   * `s.replace(/\s+/g, "")`: every whitespace character removed, and the
   * other characters kept in their order.
   */
  function StripSpaces(s: string): (r: string)
    ensures NoSpace(r)
    ensures |r| <= |s|
    ensures r == Filter(s, NotSpace)
    decreases |s|
  {
    if s == [] then ""
    else (if IsSpace(s[0]) then "" else [s[0]]) + StripSpaces(s[1..])
  }

  /** A string without whitespace is its own stripped form. */
  lemma {:induction false} StripSpacesNoSpace(s: string)
    requires NoSpace(s)
    ensures StripSpaces(s) == s
    decreases |s|
  {
    if s != [] {
      StripSpacesNoSpace(s[1..]);
    }
  }

  /** The longest whitespace prefix removed. */
  function TrimStart(s: string): (r: string)
    ensures |r| <= |s|
    ensures r == s[|s| - |r|..]
    ensures r != [] ==> !IsSpace(r[0])
    ensures forall k :: 0 <= k < |s| - |r| ==> IsSpace(s[k])
    decreases |s|
  {
    if s != [] && IsSpace(s[0]) then TrimStart(s[1..]) else s
  }

  /**
   * `s.replace(/\s+/g, rep)`: each maximal whitespace run becomes one copy of
   * `rep`; other characters are kept in order.
   */
  function CollapseSpaces(s: string, rep: char): (r: string)
    ensures !IsSpace(rep) ==> NoSpace(r)
    decreases |s|
  {
    if s == [] then ""
    else if IsSpace(s[0]) then [rep] + CollapseSpaces(TrimStart(s), rep)
    else [s[0]] + CollapseSpaces(s[1..], rep)
  }

  /** The number of maximal whitespace runs in `s`. */
  function SpaceRuns(s: string): nat
    decreases |s|
  {
    if s == [] then 0
    else if IsSpace(s[0]) then 1 + SpaceRuns(TrimStart(s))
    else SpaceRuns(s[1..])
  }

  /** The whitespace run at the front of `s` holds no `rep`, so neither does the rest. */
  lemma {:induction false} TrimStartWithout(s: string, rep: char)
    requires rep !in s
    ensures rep !in TrimStart(s)
    decreases |s|
  {
    if s != [] && IsSpace(s[0]) {
      assert forall k :: 0 <= k < |s[1..]| ==> s[1..][k] == s[k + 1];
      TrimStartWithout(s[1..], rep);
    }
  }

  /** Deleting the replacement characters from a collapsed string gives the stripped string. */
  lemma {:induction false} CollapseThenStrip(s: string, rep: char)
    requires !IsSpace(rep) && rep !in s
    ensures StripChar(CollapseSpaces(s, rep), rep) == StripSpaces(s)
    decreases |s|
  {
    if s != [] {
      if IsSpace(s[0]) {
        var t := TrimStart(s);
        StripSpacesOfSpacePrefix(s, |s| - |t|);
        TrimStartWithout(s, rep);
        CollapseThenStrip(t, rep);
        var c := CollapseSpaces(t, rep);
        assert ([rep] + c)[1..] == c;
        assert StripChar([rep] + c, rep) == StripChar(c, rep);
      } else {
        assert rep !in s[1..];
        CollapseThenStrip(s[1..], rep);
        var c := CollapseSpaces(s[1..], rep);
        assert ([s[0]] + c)[1..] == c;
        assert StripChar([s[0]] + c, rep) == [s[0]] + StripChar(c, rep);
      }
    }
  }

  /** A collapsed string holds one replacement character per whitespace run. */
  lemma {:induction false} CollapseCountsRuns(s: string, rep: char)
    requires !IsSpace(rep) && rep !in s
    ensures Occurrences(CollapseSpaces(s, rep), rep) == SpaceRuns(s)
    decreases |s|
  {
    if s != [] {
      if IsSpace(s[0]) {
        var t := TrimStart(s);
        TrimStartWithout(s, rep);
        CollapseCountsRuns(t, rep);
        var c := CollapseSpaces(t, rep);
        assert ([rep] + c)[1..] == c;
        assert Occurrences([rep] + c, rep) == 1 + Occurrences(c, rep);
      } else {
        assert rep !in s[1..];
        CollapseCountsRuns(s[1..], rep);
        var c := CollapseSpaces(s[1..], rep);
        assert ([s[0]] + c)[1..] == c;
        assert Occurrences([s[0]] + c, rep) == Occurrences(c, rep);
      }
    }
  }

  /**
   * Collapsing keeps exactly the non-whitespace characters (deleting the
   * replacement characters gives the stripped string, when the input had none
   * of them) and adds one replacement character per run.
   */
  lemma CollapseSpacesShape(s: string, rep: char)
    requires !IsSpace(rep) && rep !in s
    ensures StripChar(CollapseSpaces(s, rep), rep) == StripSpaces(s)
    ensures Occurrences(CollapseSpaces(s, rep), rep) == SpaceRuns(s)
  {
    CollapseThenStrip(s, rep);
    CollapseCountsRuns(s, rep);
  }

  /** Stripping a whitespace prefix of length `n` does not change the stripped form. */
  lemma {:induction false} StripSpacesOfSpacePrefix(s: string, n: nat)
    requires n <= |s|
    requires forall k :: 0 <= k < n ==> IsSpace(s[k])
    ensures StripSpaces(s) == StripSpaces(s[n..])
    decreases n
  {
    if n > 0 {
      StripSpacesOfSpacePrefix(s[1..], n - 1);
      assert s[1..][n - 1..] == s[n..];
    }
  }

  /** Every occurrence of `c` deleted. */
  function StripChar(s: string, c: char): (r: string)
    ensures c !in r
    decreases |s|
  {
    if s == [] then ""
    else (if s[0] == c then "" else [s[0]]) + StripChar(s[1..], c)
  }

  // ---------------------------------------------------------------------------
  // decimal numbers

  predicate IsDigit(c: char) {
    '0' <= c <= '9'
  }

  /** The value of a string of decimal digits, most significant first. */
  function DigitsValue(s: string): (n: nat)
    requires forall k :: 0 <= k < |s| ==> IsDigit(s[k])
    decreases |s|
  {
    if s == [] then 0
    else
      assert IsDigit(s[|s| - 1]);
      DigitsValue(s[..|s| - 1]) * 10 + (s[|s| - 1] as int - '0' as int)
  }

  /** The longest prefix of decimal digits. */
  function DigitPrefix(s: string): (r: string)
    ensures r <= s
    ensures forall k :: 0 <= k < |r| ==> IsDigit(r[k])
    ensures |r| < |s| ==> !IsDigit(s[|r|])
    decreases |s|
  {
    if s != [] && IsDigit(s[0]) then [s[0]] + DigitPrefix(s[1..]) else ""
  }

  /**
   * `parseInt(s)` with no radix, for base-ten input: leading whitespace and
   * one sign are skipped, then the longest digit prefix is read; with no
   * digits the result is NaN (absent).
   */
  function ParseInt(s: string): (r: Option<int>)
  {
    var t := TrimStart(s);
    var negative := t != [] && t[0] == '-';
    var body := if t != [] && (t[0] == '-' || t[0] == '+') then t[1..] else t;
    var digits := DigitPrefix(body);
    if digits == "" then None
    else
      var magnitude: int := DigitsValue(digits);
      Some(if negative then -magnitude else magnitude)
  }

  /** `String(n)` for a natural number: its shortest decimal representation. */
  function Decimal(n: nat): (s: string)
    ensures |s| >= 1
    ensures forall k :: 0 <= k < |s| ==> IsDigit(s[k])
    decreases n
  {
    if n < 10 then [('0' as int + n) as char]
    else Decimal(n / 10) + [('0' as int + n % 10) as char]
  }

  /** Reading back a rendered number gives the number. */
  lemma {:induction false} DecimalValue(n: nat)
    ensures DigitsValue(Decimal(n)) == n
    decreases n
  {
    if n >= 10 {
      DecimalValue(n / 10);
      var s := Decimal(n);
      assert s[..|s| - 1] == Decimal(n / 10);
    }
  }

  /** A whole string of digits is its own digit prefix. */
  lemma {:induction false} DigitPrefixAll(s: string)
    requires forall k :: 0 <= k < |s| ==> IsDigit(s[k])
    ensures DigitPrefix(s) == s
    decreases |s|
  {
    if s != [] {
      DigitPrefixAll(s[1..]);
    }
  }

  /** `parseInt` of a string of digits is the value those digits denote. */
  lemma ParseIntDigits(s: string)
    requires s != []
    requires forall k :: 0 <= k < |s| ==> IsDigit(s[k])
    ensures ParseInt(s) == Some(DigitsValue(s))
  {
    assert !IsSpace(s[0]);
    DigitPrefixAll(s);
  }

  /** `parseInt(String(n)) == n`. */
  lemma ParseIntDecimal(n: nat)
    ensures ParseInt(Decimal(n)) == Some(n)
  {
    ParseIntDigits(Decimal(n));
    DecimalValue(n);
  }
}

=== FILE: whatsapp.dfy ===
/**
 * The WhatsApp service as seen by its callers: the message record handed to
 * the provider for a template send, the flattening of an incoming webhook
 * payload into (sender, text, time) records, and the signature check.
 */
module WhatsApp {

  import opened Base
  import opened Text

  datatype MessageType = TextType | TemplateType | ImageType | DocumentType

  /** What is handed to the provider's send operation. */
  datatype WhatsAppMessage = WhatsAppMessage(
    to: string,
    message: string,
    kind: Option<MessageType>,
    templateName: Option<string>,
    templateParams: Option<seq<string>>)

  const TemplatePrefix: string := "Template: "

  /** `sendTemplate`: the record it hands to `sendMessage`. */
  function SendTemplate(to: string, templateName: string, params: seq<string>): (m: WhatsAppMessage)
    ensures m.to == to
    ensures m.kind == Some(TemplateType)
    ensures m.templateName == Some(templateName) && m.templateParams == Some(params)
    ensures TemplatePrefix <= m.message && m.message[|TemplatePrefix|..] == templateName
  {
    WhatsAppMessage(to, TemplatePrefix + templateName, Some(TemplateType), Some(templateName), Some(params))
  }

  /** `verifyWebhookSignature`: every signature is accepted. */
  function VerifyWebhookSignature(signature: string, body: string): (valid: bool)
    ensures valid
  {
    true
  }

  // ---------------------------------------------------------------------------
  // incoming webhooks

  /** One incoming message; `timestamp` is decimal seconds since the epoch, as text. */
  datatype InboundMessage = InboundMessage(from: string, id: string, timestamp: string, body: string, kind: string)

  /** One change notification; `messages` is absent for status-only changes. */
  datatype Change = Change(messages: Option<seq<InboundMessage>>, field: string)

  datatype Entry = Entry(id: string, changes: seq<Change>)

  datatype WebhookPayload = WebhookPayload(object: string, entries: seq<Entry>)

  /** A processed message; the time is in milliseconds, absent for an invalid date. */
  datatype Received = Received(from: string, message: string, timestamp: Option<int>)

  /** The largest magnitude, in milliseconds, a JavaScript date can hold. */
  const MaxTimeMs: int := 8_640_000_000_000_000

  /** `new Date(parseInt(ts) * 1000)` as a millisecond count; NaN and out-of-range values are invalid. */
  function TimestampMs(ts: string): (r: Option<int>)
    ensures r.Some? ==> -MaxTimeMs <= r.value <= MaxTimeMs && r.value % 1000 == 0
  {
    match ParseInt(ts)
    case None => None
    case Some(seconds) =>
      if -MaxTimeMs <= seconds * 1000 <= MaxTimeMs then Some(seconds * 1000) else None
  }

  /** A timestamp written as decimal seconds becomes those seconds times 1000. */
  lemma TimestampOfDigits(ts: string)
    requires ts != [] && forall k :: 0 <= k < |ts| ==> IsDigit(ts[k])
    requires DigitsValue(ts) * 1000 <= MaxTimeMs
    ensures TimestampMs(ts) == Some(DigitsValue(ts) * 1000)
  {
    ParseIntDigits(ts);
  }

  /** The record produced for one incoming message. */
  function Receive(m: InboundMessage): (r: Received)
    ensures r.from == m.from && r.message == m.body
    ensures r.timestamp == TimestampMs(m.timestamp)
  {
    Received(m.from, m.body, TimestampMs(m.timestamp))
  }

  /** One record per message, in order. */
  function ReceiveAll(ms: seq<InboundMessage>): (r: seq<Received>)
    ensures |r| == |ms|
    decreases |ms|
  {
    if ms == [] then [] else ReceiveAll(ms[..|ms| - 1]) + [Receive(ms[|ms| - 1])]
  }

  /** The `k`-th record is the record of the `k`-th message. */
  lemma {:induction false} ReceiveAllAt(ms: seq<InboundMessage>, k: nat)
    requires k < |ms|
    ensures ReceiveAll(ms)[k] == Receive(ms[k])
    decreases |ms|
  {
    if k < |ms| - 1 {
      ReceiveAllAt(ms[..|ms| - 1], k);
    }
  }

  /** Processing a concatenation processes each part. */
  lemma {:induction false} ReceiveAllAppend(a: seq<InboundMessage>, b: seq<InboundMessage>)
    ensures ReceiveAll(a + b) == ReceiveAll(a) + ReceiveAll(b)
    decreases |b|
  {
    if b == [] {
      assert a + b == a;
    } else {
      var b' := b[..|b| - 1];
      assert (a + b)[..|a + b| - 1] == a + b';
      assert (a + b)[|a + b| - 1] == b[|b| - 1];
      ReceiveAllAppend(a, b');
    }
  }

  /** The messages of one change, none when the field is absent. */
  function ChangeMessages(c: Change): seq<InboundMessage> {
    if c.messages.Some? then c.messages.value else []
  }

  /** The messages of a list of changes, change by change. */
  function ChangesMessages(cs: seq<Change>): seq<InboundMessage>
    decreases |cs|
  {
    if cs == [] then [] else ChangesMessages(cs[..|cs| - 1]) + ChangeMessages(cs[|cs| - 1])
  }

  /** The messages of a list of entries, entry by entry. */
  function EntriesMessages(es: seq<Entry>): seq<InboundMessage>
    decreases |es|
  {
    if es == [] then [] else EntriesMessages(es[..|es| - 1]) + ChangesMessages(es[|es| - 1].changes)
  }

  /** Splitting the entry list splits the flattened messages at the same point. */
  lemma {:induction false} EntriesMessagesAppend(a: seq<Entry>, b: seq<Entry>)
    ensures EntriesMessages(a + b) == EntriesMessages(a) + EntriesMessages(b)
    decreases |b|
  {
    if b == [] {
      assert a + b == a;
    } else {
      var b', last := b[..|b| - 1], b[|b| - 1];
      assert (a + b)[..|a + b| - 1] == a + b';
      assert (a + b)[|a + b| - 1] == last;
      EntriesMessagesAppend(a, b');
      ConcatAssoc(EntriesMessages(a), EntriesMessages(b'), ChangesMessages(last.changes));
    }
  }

  /** Splitting a change list splits the flattened messages at the same point. */
  lemma {:induction false} ChangesMessagesAppend(a: seq<Change>, b: seq<Change>)
    ensures ChangesMessages(a + b) == ChangesMessages(a) + ChangesMessages(b)
    decreases |b|
  {
    if b == [] {
      assert a + b == a;
    } else {
      var b', last := b[..|b| - 1], b[|b| - 1];
      assert (a + b)[..|a + b| - 1] == a + b';
      assert (a + b)[|a + b| - 1] == last;
      ChangesMessagesAppend(a, b');
      ConcatAssoc(ChangesMessages(a), ChangesMessages(b'), ChangeMessages(last));
    }
  }

  /** A change without a `messages` field contributes nothing wherever it sits. */
  lemma ChangeWithoutMessages(a: seq<Change>, c: Change, b: seq<Change>)
    requires c.messages.None?
    ensures ChangesMessages(a + [c] + b) == ChangesMessages(a) + ChangesMessages(b)
  {
    var ac := a + [c];
    ChangesMessagesAppend(ac, b);
    assert ac[..|ac| - 1] == a && ac[|ac| - 1] == c;
    assert ChangesMessages(ac) == ChangesMessages(a) + [];
  }

  /**
   * `processWebhook`: one record per message, entries in order, within an
   * entry changes in order, within a change messages in order.
   */
  method ProcessWebhook(payload: WebhookPayload) returns (received: seq<Received>)
    ensures received == ReceiveAll(EntriesMessages(payload.entries))
  {
    var entries := payload.entries;
    received := [];
    var i := 0;
    while i < |entries|
      invariant 0 <= i <= |entries|
      invariant received == ReceiveAll(EntriesMessages(entries[..i]))
    {
      var more := ProcessChanges(entries[i].changes);
      received := received + more;
      ReceiveAllAppend(EntriesMessages(entries[..i]), ChangesMessages(entries[i].changes));
      assert entries[..i + 1][..i] == entries[..i];
      i := i + 1;
    }
    assert entries[..i] == entries;
  }

  /** Extending the prefix of a change list by one change adds that change's records. */
  lemma StepChanges(changes: seq<Change>, j: nat)
    requires j < |changes|
    ensures ReceiveAll(ChangesMessages(changes[..j + 1]))
         == ReceiveAll(ChangesMessages(changes[..j])) + ReceiveAll(ChangeMessages(changes[j]))
  {
    assert changes[..j + 1][..j] == changes[..j];
    ReceiveAllAppend(ChangesMessages(changes[..j]), ChangeMessages(changes[j]));
  }

  /** The loop over the changes of one entry. */
  method ProcessChanges(changes: seq<Change>) returns (received: seq<Received>)
    ensures received == ReceiveAll(ChangesMessages(changes))
  {
    received := [];
    var j := 0;
    while j < |changes|
      invariant 0 <= j <= |changes|
      invariant received == ReceiveAll(ChangesMessages(changes[..j]))
    {
      // a change without a `messages` field is skipped: its message list is empty
      var more := ProcessMessages(ChangeMessages(changes[j]));
      received := received + more;
      StepChanges(changes, j);
      j := j + 1;
    }
    assert changes[..j] == changes;
  }

  /** The loop over the messages of one change. */
  method ProcessMessages(msgs: seq<InboundMessage>) returns (received: seq<Received>)
    ensures received == ReceiveAll(msgs)
  {
    received := [];
    var k := 0;
    while k < |msgs|
      invariant 0 <= k <= |msgs|
      invariant received == ReceiveAll(msgs[..k])
    {
      assert msgs[..k + 1][..k] == msgs[..k];
      received := received + [Receive(msgs[k])];
      k := k + 1;
    }
    assert msgs[..k] == msgs;
  }
}
